=== FILE: README.md ===
# A verified model of a CPU k-d tree ray tracer

This project models the deterministic core of a small C++ ray tracer built on
the Walnut application framework, and proves properties of the model.
Coordinates are exact reals, not IEEE floats. The model covers:

- the CPU k-d tree (`KDTreeCPU`). This includes the per-triangle extent
  queries, the tight box of the mesh's vertices, the surface-area heuristic
  (SAH) scan for a splitting plane, and the two-pass partition of triangle
  indices with straddlers duplicated. It also covers the recursive build with
  its level, leaf and node counters, the recursive `intersect` and the
  explicit-stack `intersectStackless`;
- the geometric kernels (`Intersections`):
  - the slab test `aabbIntersect`;
  - the candidate-plane test `aabbIntersect2`;
  - Möller–Trumbore `triIntersect`;
  - `computeTriNormal`;
- the colour utilities of `Renderer.h`:
  - `ColorFromVec4` packing;
  - the ACES filmic curve;
  - `LessThan` and `mix`;
  - the linear segments of the sRGB transfer functions (IEC 61966-2-1);
- `Renderer::TraceRay`'s nearest-sphere search, the pixel-to-slot map of
  `Renderer::Render`, and `Renderer::OnResize`'s bookkeeping of the image and
  its pixel buffer;
- Walnut's `Random::UInt(min, max)`, `Float()`, `Float(min, max)` and
  `Vec3(min, max)`, as pure maps from the engine's output.

Modules:

| module | file | contents |
|---|---|---|
| `Geometry` | geometry.dfy | `Vec3`, axes, vector arithmetic, `FltMax` |
| `Options` | options.dfy | `Option` |
| `Seqs` | seqs.dfy | filters, counts, integer ranges |
| `Intersections` | intersections.dfy | ray/box and ray/triangle kernels |
| `KdBuild` | kdbuild.dfy | mesh, boxes, SAH, partition, build, constructor |
| `KdTraversal` | kdtraversal.dfy | recursive and stackless nearest-hit traversal |
| `KdCoverage` | kdcoverage.dfy | the traversal over a constructed tree with the slab test |
| `ColorUtil` | colorutil.dfy | colour packing, ACES, `LessThan`/`mix`, sRGB segments |
| `Renderer` | renderer.dfy | `TraceRay`, `Render`, `OnResize` |
| `Random` | random.dfy | Walnut's random helpers |

The traversal takes the box test and the triangle test as functions of the
ray being traced. Its nearest-distance results rest on `KdTraversal.Covered`.
This says that every hit triangle below a node is reached by at least one
root-to-leaf path whose boxes all pass the box test with a near distance of
at most that hit's distance. One path is enough. A triangle that straddles a
plane is listed in both children, and the ray may well miss one of those
boxes.

`KdCoverage` discharges the hypothesis for the tree the constructor builds.
There the box test is the slab test with tmin as the near distance, and the
triangle test is Möller–Trumbore on the mesh. The hit point lies inside the
triangle's extent and inside the mesh's tight box. Following it down the
split planes gives the path: below the plane both the point and the triangle
go left, otherwise both go right. `KdCoverage.MeshIntersectIsNearest` and
`KdCoverage.StacklessAgreesOnMesh` therefore hold without any hypothesis
beyond valid vertex indices and a direction with no zero component.

Whether the build uses the SAH scan or some other plane choice does not
matter to the structural properties. The build is therefore stated for any
`KdBuild.Chooser`, and `KdBuild.Construct` instantiates it with the source's
SAH choice.

## Model

Definitions that carry no contract of their own are described by the rows
of the lemmas about them:
- `Renderer.TraceRay` (Renderer.cpp:174-213) by Renderer.TraceRayNearest.
- `KdTraversal.Drain`, the loop of KDTreeCPU.cpp:501-565, by
  KdTraversal.DrainFlag, DrainRecord and DrainIsNearest.
- `KdTraversal.MeshTriTest` (the per-triangle call at KDTreeCPU.cpp:466 and 538) by
  KdCoverage.ConstructCovered and MeshIntersectIsNearest.
- `KdBuild.Cost` by KdBuild.CostCountsArePartSizes.
- `KdBuild.ChooseSplit` by KdBuild.ChooseSplitIsFirstCheapest.
- `KdBuild.Construct` by KdBuild.ConstructWith and the Construct* rows.
- `KdCoverage.SlabBoxTest` by KdCoverage.SlabPasses.

| member | source | states |
|---|---|---|
| KdBuild.MinTriValue | RayTracer/src/KDAccel/KDTreeCPU.cpp:95-111 | the result is one of the triangle's three vertex coordinates on the axis, and no coordinate is smaller |
| KdBuild.MaxTriValue | RayTracer/src/KDAccel/KDTreeCPU.cpp:113-129 | the result is one of the triangle's three vertex coordinates on the axis, and no coordinate is larger |
| KdBuild.MinTriBelowMax | RayTracer/src/KDAccel/KDTreeCPU.cpp:95-129 | a triangle's minimum on an axis never exceeds its maximum, so every triangle satisfies at least one of the partition's two tests |
| KdBuild.LongestSide | RayTracer/src/KDAccel/KDTreeCPU.cpp:90-93 | the chosen axis has the largest extent; among equally long axes the later one wins |
| KdBuild.Corners | RayTracer/src/KDAccel/KDTreeCPU.cpp:156-188 | the running min/max corners start at (FLT_MAX, ...) and (-FLT_MAX, ...), and every vertex lies between them |
| KdBuild.CornersAttained | RayTracer/src/KDAccel/KDTreeCPU.cpp:156-188 | each corner coordinate is the start value or some vertex's coordinate, so the box is tight |
| KdBuild.TightBox | RayTracer/src/KDAccel/KDTreeCPU.cpp:156-188 | the center/half-extent box has exactly the scanned corners; for a non-empty mesh it contains every vertex and has non-negative extents |
| KdBuild.PartitionCounts | RayTracer/src/KDAccel/KDTreeCPU.cpp:365-387 | every triangle goes to at least one side; the two sides hold the parent's count plus one per straddling triangle, and they hold exactly the parent's count iff nothing straddles |
| KdBuild.PartsCover | RayTracer/src/KDAccel/KDTreeCPU.cpp:365-404 | the two child lists together hold exactly the parent's triangles |
| KdBuild.MarkPass | RayTracer/src/KDAccel/KDTreeCPU.cpp:365-387 | the temporary buffer holds each index where the test accepts it and -1 where it rejects it |
| KdBuild.CompactPass | RayTracer/src/KDAccel/KDTreeCPU.cpp:394-404 | copying out the entries other than -1 yields exactly the indices the test accepts, in order |
| KdBuild.Partition | RayTracer/src/KDAccel/KDTreeCPU.cpp:358-404 | the two-pass partition yields the left list (minimum below the plane) and the right list (maximum at or beyond the plane) |
| KdBuild.CandidateInside | RayTracer/src/KDAccel/KDTreeCPU.cpp:262-274 | candidate planes scan X, then Y, then Z, and lie strictly inside the box on their axis (or on the plane of a flat box) |
| KdBuild.CostCountsArePartSizes | RayTracer/src/KDAccel/KDTreeCPU.cpp:285-297 | the counts the SAH cost uses are the sizes of the lists the partition at that plane produces |
| KdBuild.FirstCheapest | RayTracer/src/KDAccel/KDTreeCPU.cpp:254-305 | the strict `<` scan from a bound finds nothing iff no cost is below the bound; otherwise it finds the first entry of least cost |
| KdBuild.ChooseSplitIsFirstCheapest | RayTracer/src/KDAccel/KDTreeCPU.cpp:247-312 | the split is the longest side with plane 0 exactly when no candidate costs less than FLT_MAX; otherwise it is a least-cost candidate that every earlier candidate exceeds |
| KdBuild.ChildBoxes | RayTracer/src/KDAccel/KDTreeCPU.cpp:312-335 | on the split axis the left box spans [lo, plane] and the right box [plane, hi]; other axes keep the parent's center and extent |
| KdBuild.SizeOfFullTree | RayTracer/src/KDAccel/KDTreeCPU.cpp:411-412 | every inner node has two children, so the tree has 2 * leaves - 1 nodes |
| KdBuild.Build | RayTracer/src/KDAccel/KDTreeCPU.cpp:213-244 | a node keeps the passed box; it is a leaf iff it has at most 10 triangles or depth >= 40, and a leaf keeps its index list |
| KdBuild.BuildCounts | RayTracer/src/KDAccel/KDTreeCPU.cpp:237-243 | the node and leaf counters advance by the subtree's node and leaf counts, and the subtree's root has the last id handed out |
| KdBuild.BuildLevels | RayTracer/src/KDAccel/KDTreeCPU.cpp:232-235 | num_levels ends as the larger of its start value and the deepest level of the subtree |
| KdBuild.BuildDepth | RayTracer/src/KDAccel/KDTreeCPU.cpp:229 | a build started at depth <= MAX_DEPTH reaches no level deeper than MAX_DEPTH |
| KdBuild.DepthOfChildren | RayTracer/src/KDAccel/KDTreeCPU.cpp:411-412 | two children within the depth limit one level down keep their parent within it |
| KdBuild.LevelsOfChildren | RayTracer/src/KDAccel/KDTreeCPU.cpp:411-412 | raising the level counter over both children equals raising it over the parent's subtree |
| KdBuild.BuildPostOrder | RayTracer/src/KDAccel/KDTreeCPU.cpp:411-416 | ids are handed out in post-order, as the consecutive values from the node count before the build to the count after it |
| KdBuild.BuildKeepsTriangles | RayTracer/src/KDAccel/KDTreeCPU.cpp:365-412 | the leaves below a node hold exactly the node's triangles: none lost, none invented |
| KdBuild.BuildNestsBoxes | RayTracer/src/KDAccel/KDTreeCPU.cpp:312-335 | every inner node's children carry its box cut at its plane |
| KdBuild.ConstructWith | RayTracer/src/KDAccel/KDTreeCPU.cpp:15-49 | the root keeps the mesh's tight box; num_levels is the tree height, in [1, 40]; num_nodes and num_leaves count the tree, nodes = 2 * leaves - 1, and the root has the last id |
| KdBuild.ConstructPostOrder | RayTracer/src/KDAccel/KDTreeCPU.cpp:34-44 | the ids of the constructed tree are 0 .. num_nodes - 1 in post-order, each used once |
| KdBuild.ConstructKeepsTriangles | RayTracer/src/KDAccel/KDTreeCPU.cpp:34-44 | the leaves of the constructed tree hold exactly the triangle indices 0 .. num_tris - 1 |
| KdBuild.ConstructSmallMesh | RayTracer/src/KDAccel/KDTreeCPU.h:13 | a mesh of at most 10 triangles, the empty one included, gives a single leaf root with id 0 |
| KdTraversal.NearestIsUnique | RayTracer/src/KDAccel/KDTreeCPU.cpp:439-498 | the nearest hit distance is unique |
| KdTraversal.NearestChain | RayTracer/src/KDAccel/KDTreeCPU.cpp:439-498 | the nearest over A, then over B from that, is the nearest over A and B together |
| KdTraversal.Consider | RayTracer/src/KDAccel/KDTreeCPU.cpp:471-479 | one triangle of the leaf loop replaces the record only with a strictly closer hit that it reports |
| KdTraversal.LeafScan | RayTracer/src/KDAccel/KDTreeCPU.cpp:451-482 | the flag is set iff some triangle of the leaf is hit; the record ends on the nearest hit among the start t and the leaf's triangles |
| KdTraversal.Recursive | RayTracer/src/KDAccel/KDTreeCPU.cpp:439-498 | the flag is true iff some leaf reachable through unpruned boxes has a hit; the record only moves to closer, recorded hits of triangles below the node |
| KdTraversal.RecursiveFindsPath | RayTracer/src/KDAccel/KDTreeCPU.cpp:439-498 | a hit reached by a path of passing boxes bounds the record: the path is either followed to its leaf or pruned because the record is already closer |
| KdTraversal.RecursiveIsNearest | RayTracer/src/KDAccel/KDTreeCPU.cpp:439-498 | when every hit below the node is covered by a passing path, the record ends on the nearest hit of all triangles below the node |
| KdTraversal.Intersect | RayTracer/src/KDAccel/KDTreeCPU.cpp:427-434 | starting from t = FLT_MAX, tri_index, u and v keep the caller's values unless a hit is found |
| KdTraversal.IntersectIsNearest | RayTracer/src/KDAccel/KDTreeCPU.cpp:427-498 | when every hit is covered by a passing path and some hit is closer than FLT_MAX, intersect reports the nearest hit of the whole tree |
| KdTraversal.PushChildren | RayTracer/src/KDAccel/KDTreeCPU.cpp:554-561 | replacing the popped node by its two children lowers the pending node count by one and keeps the pending triangles |
| KdTraversal.DrainFlag | RayTracer/src/KDAccel/KDTreeCPU.cpp:501-565 | the stack loop reports a hit iff one was already reported or some pending node reaches a hit |
| KdTraversal.DrainRecord | RayTracer/src/KDAccel/KDTreeCPU.cpp:501-565 | the stack loop's record only moves to closer, recorded hits of pending triangles |
| KdTraversal.StackTrisMembers | RayTracer/src/KDAccel/KDTreeCPU.cpp:501-565 | a pending triangle lies below one of the pending nodes |
| KdTraversal.DrainFindsPath | RayTracer/src/KDAccel/KDTreeCPU.cpp:501-565 | a hit reached by a passing path from any pending node bounds the stack loop's record |
| KdTraversal.DrainIsNearest | RayTracer/src/KDAccel/KDTreeCPU.cpp:501-565 | when every hit below each pending node is covered by a passing path, the stack loop ends on the nearest hit of all pending triangles |
| KdTraversal.IntersectStackless | RayTracer/src/KDAccel/KDTreeCPU.cpp:501-565 | the stackless loop reports the same flag as the recursive traversal and, when every hit is covered by a passing path, the same nearest t |
| KdTraversal.TraversalsAgree | RayTracer/src/KDAccel/KDTreeCPU.cpp:439-565 | when every hit is covered by a passing path, the stack loop from the root and the recursive traversal end on the same t |
| KdTraversal.TieBreaksDiffer | RayTracer/src/KDAccel/KDTreeCPU.cpp:439-565 | on two equally near hits the recursive traversal keeps the left leaf's triangle, and the stack loop keeps the right one |
| Intersections.TriIntersect | RayTracer/src/KDAccel/Intersections.cpp:118-159 | a hit has u in [0, 1], v >= 0, u + v <= 1 and t > epsilon; a non-parallel ray hits iff its crossing is inside the triangle beyond epsilon; a parallel ray, or a crossing outside the triangle, changes nothing; a miss keeps u and v |
| Intersections.HitIsCrossing | RayTracer/src/KDAccel/Intersections.cpp:118-159 | a hit is exactly a non-parallel crossing inside the triangle beyond epsilon, and it reports that crossing's (t, u, v) |
| Intersections.HitPointIsBarycentric | RayTracer/src/KDAccel/Intersections.cpp:118-159 | for a hit, origin + t dir equals (1-u-v) v0 + u v1 + v v2 |
| Intersections.CrossingIsBarycentric | RayTracer/src/KDAccel/Intersections.cpp:123-149 | away from the parallel case, the Cramer-rule crossing solves the ray/plane system |
| Intersections.AabbIntersect | RayTracer/src/KDAccel/Intersections.cpp:23-48 | an origin inside the box passes; for a well-formed box the slab test passes iff some t >= 0 puts the ray point in the box |
| Intersections.SlabsAgree | RayTracer/src/KDAccel/Intersections.cpp:23-48 | the ray point at t is in the box iff t lies between the slab entry and exit distances |
| Intersections.SlabTestMeansRayHitsBox | RayTracer/src/KDAccel/Intersections.cpp:23-48 | tmax >= 0 and tmin <= tmax iff the ray meets the box at some t >= 0 |
| Intersections.InsideOriginPassesSlabs | RayTracer/src/KDAccel/Intersections.cpp:23-48 | an origin inside the box has tmin <= 0 <= tmax |
| Intersections.WhichPlane | RayTracer/src/KDAccel/Intersections.cpp:89-95 | the chosen axis has the largest candidate distance, and the earliest such axis wins a tie |
| Intersections.AabbIntersect2 | RayTracer/src/KDAccel/Intersections.cpp:55-110 | an origin inside the box passes; any other pass has a non-negative candidate distance at which the other two coordinates lie in the box widened by the epsilon; for a well-formed box every ray that meets the box passes, and every ray that passes meets the widened box |
| Intersections.WooComplete | RayTracer/src/KDAccel/Intersections.cpp:55-110 | from outside a well-formed box, a ray that meets the box passes the candidate-plane test |
| Intersections.WooSound | RayTracer/src/KDAccel/Intersections.cpp:55-110 | a ray that passes the candidate-plane test meets the widened box at the chosen candidate distance |
| Intersections.CandidateBelowEntry | RayTracer/src/KDAccel/Intersections.cpp:61-78 | an axis's candidate distance is at most any distance at which the ray is in the slab, and it is non-negative when the origin is outside the slab |
| Intersections.TriNormal | RayTracer/src/KDAccel/Intersections.cpp:165-175 | the (unnormalised) normal is orthogonal to both edges, and its squared length is (u·u)(v·v) - (u·v)², so it is zero exactly for parallel edges |
| ColorUtil.ChannelByte | RayTracer/src/Renderer.h:16-22 | the byte is 0 at or below 0, 255 at or above 1, and floor(255 c) in between |
| ColorUtil.ChannelMonotone | RayTracer/src/Renderer.h:16-22 | a brighter channel never gives a smaller byte |
| ColorUtil.PackThenExtract | RayTracer/src/Renderer.h:24 | the four bytes packed as A<<24, B<<16, G<<8, R are read back unchanged |
| ColorUtil.ExtractThenPack | RayTracer/src/Renderer.h:24 | every 32-bit word is the packing of its four bytes |
| ColorUtil.ColorFromVec4 | RayTracer/src/Renderer.h:16-25 | byte 0 of the word is red, byte 1 green, byte 2 blue and byte 3 alpha, each the clamped, scaled, truncated channel |
| ColorUtil.AcesDenominatorPositive | RayTracer/src/Renderer.h:57-65 | the curve's denominator is positive for every input, so the division is always defined |
| ColorUtil.Aces | RayTracer/src/Renderer.h:63-68 | the tone-mapped value lies in [0, 1] and equals the curve clamped to 1 for non-negative input |
| ColorUtil.AcesOfZero | RayTracer/src/Renderer.h:63-68 | black stays black |
| ColorUtil.AcesSaturates | RayTracer/src/Renderer.h:63-68 | inputs of 8 and more map to white |
| ColorUtil.AcesRawNonNegative | RayTracer/src/Renderer.h:63-68 | the unclamped curve is non-negative on non-negative inputs |
| ColorUtil.AcesFilm | RayTracer/src/Renderer.h:63-68 | each component is mapped independently into [0, 1] |
| ColorUtil.LessThan | RayTracer/src/Renderer.h:70-76 | each component of the mask is 0 or 1, and it is 1 iff the input component is below the value |
| ColorUtil.MixSelects | RayTracer/src/Renderer.h:82-86 | mixing under the LessThan mask picks the second argument where the component is below the value and the first elsewhere |
| ColorUtil.DecodeOne | RayTracer/src/Renderer.h:78-87 | after clamping, components below 0.04045 are divided by 12.92 and the rest go through the power segment |
| ColorUtil.EncodeOne | RayTracer/src/Renderer.h:89-98 | after clamping, components below 0.0031308 are multiplied by 12.92 and the rest go through the power segment |
| ColorUtil.SrgbToLinear | RayTracer/src/Renderer.h:78-87 | per component: negative values give 0, values in [0, 0.04045) are divided by 12.92, and the rest go through the power curve of the value clamped to [0, 1] |
| ColorUtil.LinearToSrgb | RayTracer/src/Renderer.h:89-98 | per component: negative values give 0, values in [0, 0.0031308) are multiplied by 12.92, and the rest go through the power curve of the value clamped to [0, 1] |
| ColorUtil.LinearSegmentRoundTrip | RayTracer/src/Renderer.h:78-98 | on the encoder's linear segment, decoding undoes encoding whatever the power curves are |
| ColorUtil.DecodedSegmentRoundTrip | RayTracer/src/Renderer.h:78-98 | on the part of the decoder's linear segment that lands on the encoder's, encoding undoes decoding |
| ColorUtil.ThresholdsDoNotMeet | RayTracer/src/Renderer.h:85-96 | just below 0.04045 a decoded value exceeds 0.0031308, so the two linear segments are not exact inverses up to the thresholds |
| Renderer.PositiveDiscriminantHasDirection | RayTracer/src/Renderer.cpp:187-195 | a positive discriminant implies a = dot(dir, dir) > 0, so the root's division is defined |
| Renderer.NearRootOnSphere | RayTracer/src/Renderer.cpp:185-195 | with a true square root, the near root's point lies on the sphere |
| Renderer.SearchFindsLastNearest | RayTracer/src/Renderer.cpp:179-210 | after n spheres the search holds no hit when no root is in [0, FLT_MAX]; otherwise it holds the last sphere of least such root, at that distance, with its ray point as position |
| Renderer.TraceRayNearest | RayTracer/src/Renderer.cpp:174-213 | the distance is -1 iff no sphere is eligible; otherwise TraceRay reports the last sphere whose near root is smallest, at that root's distance and point |
| Renderer.InsideSphereIsSkipped | RayTracer/src/Renderer.cpp:194-197 | from an origin inside a sphere the near root is negative and the sphere is skipped, although the far root is positive |
| Renderer.RootsStraddleZero | RayTracer/src/Renderer.cpp:191-196 | with a > 0 and c < 0 the discriminant is positive and the two roots lie on either side of 0 |
| Renderer.TiesGoToLaterSphere | RayTracer/src/Renderer.cpp:196-208 | the strict `t > closestDist` rejection lets an equally near later sphere replace an earlier one |
| Renderer.PixelIndexInverse | RayTracer/src/Renderer.cpp:33-40 | each pixel of the frame has its own slot y * width + x below width * height, and that slot maps back to the pixel |
| Renderer.PixelOfInverse | RayTracer/src/Renderer.cpp:33-40 | every slot below width * height is the slot of exactly one pixel of the frame |
| Renderer.FilledShows | RayTracer/src/Renderer.cpp:33-42 | slots filled in row-major order reach every pixel of the frame |
| Renderer.Render | RayTracer/src/Renderer.cpp:20-49 | every pixel's packed colour lands in its slot; slots beyond width * height are left alone |
| Renderer.UInt32Product | RayTracer/src/Renderer.cpp:62 | the uint32_t product width * height is below 2^32 and equals the true product when that fits |
| Renderer.OnResize | RayTracer/src/Renderer.cpp:51-64 | the image takes the requested size; the same size changes nothing; an existing image keeps its old buffer length, and a first call allocates the uint32_t product width * height, which is width * height when it fits |
| Renderer.OnResizeLosesBuffer | RayTracer/src/Renderer.cpp:53-57 | growing from 1x1 to 2x2 leaves a one-slot buffer under a four-pixel image |
| Renderer.OnResizeFixed | RayTracer/src/Renderer.cpp:51-64 | the image takes the requested size, and the same size changes nothing |
| Renderer.OnResizeFixedConsistent | RayTracer/src/Renderer.cpp:51-64 | with reallocation on every size change, the buffer always holds width * height slots |
| Renderer.ResizeAndRender | RayTracer/src/Renderer.cpp:20-64 | a corrected resize followed by a frame fills every pixel of the new size inside the buffer |
| Random.UInt | Walnut/src/Walnut/Random.h:30-33 | the result lies on the cyclic interval from min to max: in [min, max] when min <= max, and exactly min when they are equal |
| Random.UIntOnto | Walnut/src/Walnut/Random.h:30-33 | every value of the cyclic interval is produced by some engine output |
| Random.Float | Walnut/src/Walnut/Random.h:11-38 | the value lies in [0, 1) and is the engine output over 2^32 |
| Random.FloatMonotone | Walnut/src/Walnut/Random.h:35-38 | a larger engine output gives a larger value, and distinct outputs stay distinct |
| Random.FloatIn | Walnut/src/Walnut/Random.h:40-43 | the value lies in [min, max] (below max for a proper interval), and a zero draw gives min |
| Random.FloatInMonotone | Walnut/src/Walnut/Random.h:40-43 | over a proper interval the map keeps the order of the draws |
| Random.Vec3AsWritten | Walnut/src/Walnut/Random.h:50-54 | as written, each component is Float() * max, whatever min is, and so lies in [0, max] when max >= 0 |
| Random.FloatScaled | Walnut/src/Walnut/Random.h:53 | Float() * k lies in [0, k] and is 0 for a zero draw |
| Random.Vec3IgnoresMin | Walnut/src/Walnut/Random.h:50-54 | asked for [2, 3], zero draws give the origin, below the lower bound |
| Random.SpreadIsOneSided | RayTracer/src/WalnutApp.cpp:27 | the scene set-up's [-5, 5] request never produces a negative coordinate |
| Random.Vec3In | Walnut/src/Walnut/Random.h:50-54 | as intended, each component is Float(min, max) and lies in [min, max] |
| Random.Vec3InReachesMin | Walnut/src/Walnut/Random.h:50-54 | the intended map reaches the lower corner, and the written map with any min equals the intended map on [0, max] |
| KdCoverage.SlabPasses | RayTracer/src/KDAccel/Intersections.cpp:23-48 | a box holding the ray's point at some t >= 0 passes the slab test with tmin at most t |
| KdCoverage.ChildBoxesContain | RayTracer/src/KDAccel/KDTreeCPU.cpp:312-335 | a point of the parent box below the plane is in the left child's box, and one at or above it is in the right child's |
| KdCoverage.BuildHasPath | RayTracer/src/KDAccel/KDTreeCPU.cpp:355-416 | a triangle of the node whose extent holds the ray's point at t, inside the node's box, is reached along a path whose boxes pass the slab test with tmin at most t |
| KdCoverage.ConvexBetween | RayTracer/src/KDAccel/Intersections.cpp:118-159 | a barycentric combination of three values in [lo, hi] stays in [lo, hi] |
| KdCoverage.HitPointInside | RayTracer/src/KDAccel/KDTreeCPU.cpp:451-466 | the point a triangle hit reports lies at a positive distance, in the triangle's extent and in the mesh's tight box |
| KdCoverage.ConstructCovered | RayTracer/src/KDAccel/KDTreeCPU.cpp:15-49 | for any plane choice, every hit triangle of the constructed tree is covered by a path the slab test lets through |
| KdCoverage.MeshIntersectIsNearest | RayTracer/src/KDAccel/KDTreeCPU.cpp:427-498 | on a constructed tree, a hit closer than FLT_MAX makes intersect report a hit that records a mesh triangle with the test's own t, u and v, with no triangle of the mesh hit closer |
| KdCoverage.StacklessAgreesOnMesh | RayTracer/src/KDAccel/KDTreeCPU.cpp:501-565 | on a constructed tree the stack loop ends on the same nearest t as the recursive traversal |
| Seqs.CountIsFilterLength | RayTracer/src/KDAccel/KDTreeCPU.cpp:285-297 | counting the entries that pass a test gives the length of their filtered list |
| Seqs.FilterCover | RayTracer/src/KDAccel/KDTreeCPU.cpp:363-387 | when every entry passes one of two tests, the two filtered lists together are as long as the input plus the entries that pass both |

## Left out

- Floating point. Coordinates, distances and colours are exact reals. The
  source's float rounding is not modelled, and neither are its NaN and
  infinity cases. This includes the division by a zero direction component.
  `FLT_MAX` is a real constant.
- KdBuild.CandidateInside: the SAH scan's planes are exactly k/50 of the
  box, for k = 1 .. 49. The source accumulates 0.02 in float, which may yield
  a slightly different or extra last plane.
- KdBuild.MinTriValue, KdBuild.MaxTriValue: the source copies the
  triangle's `uvec3` index triple into a float `vec3` and reads
  `verts[(int)tri[k]]` (KDTreeCPU.cpp:97-100 and 115-118). An index of
  2^24 or more has no exact float, so it can read a neighbouring vertex:
  index 16777217 reads vertex 16777216. The model reads the exact index,
  as the traversal does (KDTreeCPU.cpp:457-460). KdBuild's SAH counts and
  partition, and with them KdCoverage.ConstructCovered,
  KdCoverage.BuildHasPath and the nearest-hit results built on them, hold
  for the source only on meshes whose vertex indices are below 2^24.
- The index-list `computeTightFittingBoundingBox` and the tight-box mode are
  not modelled. `USE_TIGHT_FITTING_BOUNDING_BOXES` is false, so the build
  never calls them.
- Mesh lookups are total: an out-of-range vertex or triangle index reads as
  the origin or as triangle (0, 0, 0). The source reads out of bounds there.
- The ropes, the destructor, the debug printers (`printNumTrianglesInEachNode`,
  `printNodeIdsAndBounds`) and the one-line getters are not modelled. Each is
  commented out, frees memory, only prints or only returns a field; the
  counters the getters return are fields of `KdBuild.KdTree`.
- The traversal's ray/box test and ray/triangle test are parameters. The
  four-argument `aabbIntersect` it calls is not part of this model.
  `KdCoverage.SlabBoxTest` stands in for it: the three-argument slab test,
  reporting tmin as `dist_aabb_near`. `KdTraversal.MeshTriTest` builds the
  triangle test from `triIntersect`.
- KdTraversal.IntersectIsNearest, KdTraversal.RecursiveIsNearest,
  KdTraversal.DrainIsNearest and KdTraversal.IntersectStackless state the
  nearest distance only for a box test under which every hit is covered by a
  passing path (`Covered`). An arbitrary box test can prune every path to a
  hit. `KdCoverage.ConstructCovered` proves `Covered` for the slab test on a
  constructed tree.
- KdCoverage.ConstructCovered and the lemmas that use it require every
  vertex index to be in range and every direction component to be non-zero.
  The source reads out of bounds in the first case. In the second it relies
  on IEEE infinities, which the model does not have.
- Intersections.AabbIntersect2: the sign-bit tests on the float bit
  pattern are modelled as `< 0` comparisons.
- Intersections.TriNormal and TraceRay's `Normal`: `glm::normalize` is left
  out. The model returns the unnormalised vector, because it has no square
  root.
- `glm::sqrt` and the sRGB power curves are function parameters.
  Renderer.NearRootOnSphere and Renderer.InsideSphereIsSkipped assume a
  true square root. The sRGB round trips are stated on the linear segments
  only.
- Renderer.SearchFindsLastNearest: near roots above FLT_MAX are treated as
  not takeable. In float they would round to infinity and be rejected.
- `PerPixel` shading, the camera, `RandomHemisphere`, `RandomUnitVector` and
  `InUnitSphere` are left out. They need trigonometry and square roots, and
  they call a random engine. Render takes the per-pixel colour as a
  function.
- `concurrency::parallel_for`: Render is modelled single-threaded. The rows
  write disjoint slots, so the order does not matter.
- Renderer.Render requires a buffer of at least width * height slots. The
  source writes past a shorter buffer, and the OnResize finding below shows
  how that happens.
- Renderer's `NoHit`: when no sphere is hit, `HitData::ObjectIndex` is
  modelled as -1, and `Position` and `Normal` as the zero vector.
  The source leaves all three uninitialised. The model follows the loop of
  `Renderer.cpp`.
- The pcg32 engine, its seeding and `std::uniform_int_distribution` are left
  out. Every draw is a parameter `e`, which can be any uint32_t value.
  `Random::Vec3()` and `Random::UInt()` are three Float draws and the draw
  itself, respectively.
- Random.UInt requires max - min + 1 not to wrap to 0. That case is a
  division by zero in the source.
- Random.Float is exact: the engine output over (float)UINT32_MAX, which is
  2^32. Rounding the int-to-float conversion could give exactly 1.0 in the
  source; the model's value is always below 1.

## Findings

| source | as written | input that shows it | evidently intended | confidence | as-written member | corrected member |
|---|---|---|---|---|---|---|
| RayTracer/src/Renderer.cpp:51-64 | OnResize resizes an existing image but allocates `m_ImageData` only when the image is first created | OnResize(1, 1) then OnResize(2, 2): a 1-slot buffer under a 2x2 image, which Render writes past | reallocate the buffer to width * height whenever the size changes | not executed | Renderer.OnResize, Renderer.OnResizeLosesBuffer | Renderer.OnResizeFixed, Renderer.OnResizeFixedConsistent |
| Walnut/src/Walnut/Random.h:50-54 | `minmax = (max - min) + min` equals max, so each component is Float() * max and min is ignored | Vec3(2, 3) with zero draws gives (0, 0, 0); the scene's Vec3(-5, 5) never goes negative | each component Float() * (max - min) + min, in [min, max] | not executed | Random.Vec3AsWritten, Random.Vec3IgnoresMin, Random.SpreadIsOneSided | Random.Vec3In, Random.Vec3InReachesMin |

=== FILE: colorutil.dfy ===
/** The renderer's colour utilities: packing a colour into a 32-bit RGBA
    word, the ACES filmic tone curve, the component mask LessThan and the
    linear segments of the sRGB transfer functions. */
module ColorUtil {
  import opened Geometry

  /** A glm::vec4 colour. */
  datatype Color4 = Color4(r: real, g: real, b: real, a: real)

  /** One channel: clamp to [0, 1], scale by 255 and truncate to a byte. */
  function ChannelByte(c: real): (r: nat)
    ensures r <= 255
    ensures c <= 0.0 ==> r == 0
    ensures c >= 1.0 ==> r == 255
    ensures 0.0 <= c <= 1.0 ==> r as real <= 255.0 * c < r as real + 1.0
  {
    var scaled := Clamp(c, 0.0, 1.0) * 255.0;
    assert 0.0 <= scaled <= 255.0;
    scaled.Floor
  }

  /** Brighter channels never give smaller bytes. */
  lemma ChannelMonotone(c1: real, c2: real)
    requires c1 <= c2
    ensures ChannelByte(c1) <= ChannelByte(c2)
  {
    var s1 := Clamp(c1, 0.0, 1.0) * 255.0;
    var s2 := Clamp(c2, 0.0, 1.0) * 255.0;
    assert s1 <= s2;
    assert s1.Floor as real <= s1 <= s2 < s2.Floor as real + 1.0;
  }

  /** A channel byte and a packed 32-bit word, as unsigned values. */
  type Byte = n: nat | n < 0x100
  type Word = n: nat | n < 0x1_0000_0000

  /** (A << 24) | (B << 16) | (G << 8) | R. The four bytes occupy disjoint
      bit ranges, so the bitwise or is their sum and each shift by k bits a
      product with 2^k. */
  function Pack(r: Byte, g: Byte, b: Byte, a: Byte): Word {
    a * 0x100_0000 + b * 0x1_0000 + g * 0x100 + r
  }

  /** Byte k of a packed word, k = 0 for bits 0-7 up to k = 3 for bits 24-31. */
  function ByteOf(w: Word, k: nat): Byte
    requires k < 4
  {
    if k == 0 then w % 0x100
    else if k == 1 then (w / 0x100) % 0x100
    else if k == 2 then (w / 0x1_0000) % 0x100
    else w / 0x100_0000
  }

  /** Every byte comes back out of its own position of the packed word. */
  lemma PackThenExtract(r: Byte, g: Byte, b: Byte, a: Byte)
    ensures ByteOf(Pack(r, g, b, a), 0) == r
    ensures ByteOf(Pack(r, g, b, a), 1) == g
    ensures ByteOf(Pack(r, g, b, a), 2) == b
    ensures ByteOf(Pack(r, g, b, a), 3) == a
  {
    var w := Pack(r, g, b, a);
    var hi := a * 0x1_0000 + b * 0x100 + g;
    assert w == hi * 0x100 + r;
    assert w / 0x100 == hi && w % 0x100 == r;
    var hi2 := a * 0x100 + b;
    assert hi == hi2 * 0x100 + g;
    assert w / 0x1_0000 == hi2 by {
      assert w == hi2 * 0x1_0000 + (g * 0x100 + r);
    }
    assert w / 0x100_0000 == a by {
      assert w == a * 0x100_0000 + (b * 0x1_0000 + g * 0x100 + r);
    }
  }

  /** Every word is the packing of its own four bytes, so packing is a
      bijection between byte quadruples and 32-bit words. */
  lemma ExtractThenPack(w: Word)
    ensures Pack(ByteOf(w, 0), ByteOf(w, 1), ByteOf(w, 2), ByteOf(w, 3)) == w
  {
    var q1 := w / 0x100;
    var q2 := q1 / 0x100;
    var q3 := q2 / 0x100;
    assert w == q1 * 0x100 + w % 0x100;
    assert q1 == q2 * 0x100 + q1 % 0x100;
    assert q2 == q3 * 0x100 + q2 % 0x100;
    assert w / 0x1_0000 == q2;
    assert w / 0x100_0000 == q3;
  }

  /** Util::ColorFromVec4. */
  function ColorFromVec4(col: Color4): (w: Word)
    ensures ByteOf(w, 0) == ChannelByte(col.r)
    ensures ByteOf(w, 1) == ChannelByte(col.g)
    ensures ByteOf(w, 2) == ChannelByte(col.b)
    ensures ByteOf(w, 3) == ChannelByte(col.a)
  {
    var r := ChannelByte(col.r);
    var g := ChannelByte(col.g);
    var b := ChannelByte(col.b);
    var a := ChannelByte(col.a);
    PackThenExtract(r, g, b, a);
    Pack(r, g, b, a)
  }

  // ---------------------------------------------------------------------
  // ACES filmic tone curve
  // ---------------------------------------------------------------------

  const AceA: real := 2.51
  const AceB: real := 0.03
  const AceC: real := 2.43
  const AceD: real := 0.59
  const AceE: real := 0.14

  /** The curve's denominator x(cx + d) + e has a negative discriminant, so it
      is positive for every x and the division is always defined. */
  lemma AcesDenominatorPositive(x: real)
    ensures x * (AceC * x + AceD) + AceE > 0.0
  {
    var h := x + AceD / (2.0 * AceC);
    assert x * (AceC * x + AceD) + AceE == AceC * (h * h) + (AceE - AceD * AceD / (4.0 * AceC));
    assert h * h >= 0.0;
  }

  /** The unclamped curve x(ax + b) / (x(cx + d) + e). */
  function AcesRaw(x: real): real {
    AcesDenominatorPositive(x);
    x * (AceA * x + AceB) / (x * (AceC * x + AceD) + AceE)
  }

  /** Util::ACESFilm on one component: the curve, clamped to [0, 1]. */
  function Aces(x: real): (r: real)
    ensures 0.0 <= r <= 1.0
    ensures x >= 0.0 ==> r == Min(AcesRaw(x), 1.0)
  {
    AcesRawNonNegative(x);
    Clamp(AcesRaw(x), 0.0, 1.0)
  }

  /** On non-negative input the lower clamp never applies. */
  lemma AcesRawNonNegative(x: real)
    ensures x >= 0.0 ==> AcesRaw(x) >= 0.0
  {
    AcesDenominatorPositive(x);
    if x >= 0.0 {
      assert x * (AceA * x + AceB) >= 0.0;
    }
  }

  /** Black stays black. */
  lemma AcesOfZero()
    ensures Aces(0.0) == 0.0
  {
  }

  /** From x = 8 on the curve exceeds 1 and the clamp saturates it to white. */
  lemma AcesSaturates(x: real)
    requires x >= 8.0
    ensures Aces(x) == 1.0
  {
    AcesDenominatorPositive(x);
    var den := x * (AceC * x + AceD) + AceE;
    var num := x * (AceA * x + AceB);
    assert num - den == 0.08 * x * x - 0.56 * x - 0.14;
    assert 0.08 * x * x - 0.56 * x - 0.14 == x * (0.08 * x - 0.56) - 0.14;
    assert x * (0.08 * x - 0.56) >= 8.0 * 0.08;
    assert num > den;
    assert num / den > 1.0;
  }

  /** Util::ACESFilm, component by component. */
  function AcesFilm(v: Vec3): (r: Vec3)
    ensures forall a :: 0.0 <= r.Get(a) <= 1.0
    ensures forall a :: r.Get(a) == Aces(v.Get(a))
  {
    var r := Vec3(Aces(v.x), Aces(v.y), Aces(v.z));
    assert forall a :: r.Get(a) == Aces(v.Get(a));
    r
  }

  // ---------------------------------------------------------------------
  // Component mask and mix
  // ---------------------------------------------------------------------

  /** Util::LessThan: 1 where the component is strictly below `value`. */
  function LessThan(f: Vec3, value: real): (r: Vec3)
    ensures forall a :: r.Get(a) == 0.0 || r.Get(a) == 1.0
    ensures forall a :: r.Get(a) == 1.0 <==> f.Get(a) < value
  {
    var r := Vec3(if f.x < value then 1.0 else 0.0,
                  if f.y < value then 1.0 else 0.0,
                  if f.z < value then 1.0 else 0.0);
    assert forall a :: r.Get(a) == (if f.Get(a) < value then 1.0 else 0.0);
    r
  }

  /** glm::mix on one component: x(1 - m) + ym. */
  function MixOne(x: real, y: real, m: real): real {
    x * (1.0 - m) + y * m
  }

  /** glm::mix with a per-component weight. */
  function Mix(x: Vec3, y: Vec3, m: Vec3): Vec3 {
    Vec3(MixOne(x.x, y.x, m.x), MixOne(x.y, y.y, m.y), MixOne(x.z, y.z, m.z))
  }

  /** Mixing with a LessThan mask selects, component by component, `y` below
      the threshold and `x` elsewhere. */
  lemma MixSelects(x: Vec3, y: Vec3, f: Vec3, value: real)
    ensures forall a :: Mix(x, y, LessThan(f, value)).Get(a) == if f.Get(a) < value then y.Get(a) else x.Get(a)
  {
    var m := LessThan(f, value);
    forall a ensures Mix(x, y, m).Get(a) == if f.Get(a) < value then y.Get(a) else x.Get(a) {
      assert m.Get(a) == 0.0 || m.Get(a) == 1.0;
      match a
      case X =>
      case Y =>
      case Z =>
    }
  }

  // ---------------------------------------------------------------------
  // sRGB transfer functions (IEC 61966-2-1)
  // ---------------------------------------------------------------------

  const DecodeThreshold: real := 0.04045
  const EncodeThreshold: real := 0.0031308
  const LinearSlope: real := 12.92

  /** One component of Util::SRGBToLinear: clamp, then mix the power
      segment pow((c + 0.055) / 1.055, 2.4), given as `curve` of the clamped
      component, with c / 12.92 under the LessThan mask. */
  function DecodeOne(c: real, curve: real -> real): (r: real)
    ensures 0.0 <= c < DecodeThreshold ==> r == c / LinearSlope
    ensures c < 0.0 ==> r == 0.0
    ensures c >= DecodeThreshold ==> r == curve(Clamp(c, 0.0, 1.0))
  {
    var k := Clamp(c, 0.0, 1.0);
    MixOne(curve(k), k / LinearSlope, if k < DecodeThreshold then 1.0 else 0.0)
  }

  /** One component of Util::LinearToSRGB: clamp, then mix the power segment
      pow(c, 1/2.4) * 1.055 - 0.055, given as `curve` of the clamped
      component, with 12.92 c under the LessThan mask. */
  function EncodeOne(c: real, curve: real -> real): (r: real)
    ensures 0.0 <= c < EncodeThreshold ==> r == c * LinearSlope
    ensures c < 0.0 ==> r == 0.0
    ensures c >= EncodeThreshold ==> r == curve(Clamp(c, 0.0, 1.0))
  {
    var k := Clamp(c, 0.0, 1.0);
    MixOne(curve(k), k * LinearSlope, if k < EncodeThreshold then 1.0 else 0.0)
  }

  /** Util::SRGBToLinear, component by component: negative components
      become 0, components below the threshold are divided by 12.92 and the
      rest go through the power curve after clamping to [0, 1]. */
  function SrgbToLinear(rgb: Vec3, curve: real -> real): (r: Vec3)
    ensures forall a :: rgb.Get(a) < 0.0 ==> r.Get(a) == 0.0
    ensures forall a :: 0.0 <= rgb.Get(a) < DecodeThreshold ==> r.Get(a) == rgb.Get(a) / LinearSlope
    ensures forall a :: rgb.Get(a) >= DecodeThreshold ==> r.Get(a) == curve(Clamp(rgb.Get(a), 0.0, 1.0))
  {
    var r := Vec3(DecodeOne(rgb.x, curve), DecodeOne(rgb.y, curve), DecodeOne(rgb.z, curve));
    assert r.Get(X) == DecodeOne(rgb.Get(X), curve) && r.Get(Y) == DecodeOne(rgb.Get(Y), curve);
    assert r.Get(Z) == DecodeOne(rgb.Get(Z), curve);
    r
  }

  /** Util::LinearToSRGB, component by component: negative components
      become 0, components below the threshold are multiplied by 12.92 and
      the rest go through the power curve after clamping to [0, 1]. */
  function LinearToSrgb(rgb: Vec3, curve: real -> real): (r: Vec3)
    ensures forall a :: rgb.Get(a) < 0.0 ==> r.Get(a) == 0.0
    ensures forall a :: 0.0 <= rgb.Get(a) < EncodeThreshold ==> r.Get(a) == rgb.Get(a) * LinearSlope
    ensures forall a :: rgb.Get(a) >= EncodeThreshold ==> r.Get(a) == curve(Clamp(rgb.Get(a), 0.0, 1.0))
  {
    var r := Vec3(EncodeOne(rgb.x, curve), EncodeOne(rgb.y, curve), EncodeOne(rgb.z, curve));
    assert r.Get(X) == EncodeOne(rgb.Get(X), curve) && r.Get(Y) == EncodeOne(rgb.Get(Y), curve);
    assert r.Get(Z) == EncodeOne(rgb.Get(Z), curve);
    r
  }

  /** On the encoder's linear segment, decoding undoes encoding whatever the
      power segments are: 12.92 * 0.0031308 stays below 0.04045. */
  lemma LinearSegmentRoundTrip(rgb: Vec3, encode: real -> real, decode: real -> real)
    requires forall a :: 0.0 <= rgb.Get(a) < EncodeThreshold
    ensures SrgbToLinear(LinearToSrgb(rgb, encode), decode) == rgb
  {
    var e := LinearToSrgb(rgb, encode);
    var d := SrgbToLinear(e, decode);
    forall a ensures d.Get(a) == rgb.Get(a) {
      assert 0.0 <= e.Get(a) < DecodeThreshold;
    }
    assert d.x == rgb.x && d.y == rgb.y && d.z == rgb.z by {
      assert d.Get(X) == rgb.Get(X) && d.Get(Y) == rgb.Get(Y) && d.Get(Z) == rgb.Get(Z);
    }
  }

  /** The other way round, on the part of the decoder's linear segment that
      lands on the encoder's: encoding undoes decoding. */
  lemma DecodedSegmentRoundTrip(rgb: Vec3, encode: real -> real, decode: real -> real)
    requires forall a :: 0.0 <= rgb.Get(a) < EncodeThreshold * LinearSlope
    ensures LinearToSrgb(SrgbToLinear(rgb, decode), encode) == rgb
  {
    var d := SrgbToLinear(rgb, decode);
    var e := LinearToSrgb(d, encode);
    forall a ensures e.Get(a) == rgb.Get(a) {
      assert rgb.Get(a) < DecodeThreshold;
      assert 0.0 <= d.Get(a) < EncodeThreshold;
    }
    assert e.x == rgb.x && e.y == rgb.y && e.z == rgb.z by {
      assert e.Get(X) == rgb.Get(X) && e.Get(Y) == rgb.Get(Y) && e.Get(Z) == rgb.Get(Z);
    }
  }

  /** The two thresholds do not quite meet: a decoded value just below
      0.04045 lands above 0.0031308 and is re-encoded by the power segment. */
  lemma ThresholdsDoNotMeet()
    ensures var c := 0.04045 - 0.00000001;
            c < DecodeThreshold && c / LinearSlope >= EncodeThreshold
  {
  }
}

=== FILE: geometry.dfy ===
/** Three-component real vectors, the coordinate axes and the few vector
    operations the kernels use (glm::vec3 arithmetic, dot and cross).
    Coordinates are exact reals rather than IEEE floats. */
module Geometry {

  datatype Axis = X | Y | Z

  datatype Vec3 = Vec3(x: real, y: real, z: real) {

    /** Component on the given axis (glm's `v[axis]`). */
    function Get(a: Axis): real {
      match a
      case X => x
      case Y => y
      case Z => z
    }

    /** This vector with the component on axis `a` replaced by `value`. */
    function With(a: Axis, value: real): (r: Vec3)
      ensures r.Get(a) == value
      ensures forall b :: b != a ==> r.Get(b) == Get(b)
    {
      match a
      case X => Vec3(value, y, z)
      case Y => Vec3(x, value, z)
      case Z => Vec3(x, y, value)
    }
  }

  const Zero := Vec3(0.0, 0.0, 0.0)

  /** The largest finite single-precision float, the source's INFINITYY / FLT_MAX. */
  const FltMax: real := 340282346638528859811704183484516925440.0

  function Add(a: Vec3, b: Vec3): Vec3 {
    Vec3(a.x + b.x, a.y + b.y, a.z + b.z)
  }

  function Sub(a: Vec3, b: Vec3): Vec3 {
    Vec3(a.x - b.x, a.y - b.y, a.z - b.z)
  }

  function Scale(k: real, a: Vec3): Vec3 {
    Vec3(k * a.x, k * a.y, k * a.z)
  }

  function Dot(a: Vec3, b: Vec3): real {
    a.x * b.x + a.y * b.y + a.z * b.z
  }

  function Cross(a: Vec3, b: Vec3): Vec3 {
    Vec3(a.y * b.z - a.z * b.y, a.z * b.x - a.x * b.z, a.x * b.y - a.y * b.x)
  }

  /** The point reached after travelling `t` along the ray. */
  function At(origin: Vec3, dir: Vec3, t: real): Vec3 {
    Add(origin, Scale(t, dir))
  }

  function Min(a: real, b: real): real {
    if a < b then a else b
  }

  function Max(a: real, b: real): real {
    if a > b then a else b
  }

  /** glm::clamp on one component. */
  function Clamp(v: real, lo: real, hi: real): real {
    if v < lo then lo else if v > hi then hi else v
  }
}

=== FILE: intersections.dfy ===
/** The stateless ray kernels of the k-d tree: Moeller-Trumbore ray/triangle,
    the slab ray/box test, Woo's candidate-plane ray/box test and the
    triangle-normal cross product. */
module Intersections {
  import opened Geometry

  /** Tolerance of the triangle test (0.00001f). */
  const Eps: real := 0.00001

  /** Widening of the box in Woo's test (RAYAABB_EPSILON). */
  const RayAabbEps: real := 0.00001

  /** A box given by its two corners, as the kernels read it. */
  datatype Aabb = Aabb(lo: Vec3, hi: Vec3)

  predicate WellFormed(b: Aabb) {
    b.lo.x <= b.hi.x && b.lo.y <= b.hi.y && b.lo.z <= b.hi.z
  }

  predicate InSlab(lo: real, p: real, hi: real) {
    lo <= p <= hi
  }

  predicate InBox(b: Aabb, p: Vec3) {
    InSlab(b.lo.x, p.x, b.hi.x) && InSlab(b.lo.y, p.y, b.hi.y) && InSlab(b.lo.z, p.z, b.hi.z)
  }

  /** Some point of the ray at a non-negative distance lies in the box. */
  ghost predicate RayHitsBox(b: Aabb, o: Vec3, d: Vec3) {
    exists t :: t >= 0.0 && InBox(b, At(o, d, t))
  }

  predicate NonZeroDir(d: Vec3) {
    d.x != 0.0 && d.y != 0.0 && d.z != 0.0
  }

  // ---------------------------------------------------------------------
  // Moeller-Trumbore
  // ---------------------------------------------------------------------

  /** The returned flag of triIntersect together with the final values of its
      three reference parameters `t`, `_u` and `_v`. */
  datatype TriOut = TriOut(hit: bool, t: real, u: real, v: real)

  /** The determinant `a`; the ray is parallel to the triangle's plane when it
      is within Eps of zero. */
  function Determinant(d: Vec3, v0: Vec3, v1: Vec3, v2: Vec3): real {
    Dot(Sub(v1, v0), Cross(d, Sub(v2, v0)))
  }

  predicate Parallel(d: Vec3, v0: Vec3, v1: Vec3, v2: Vec3) {
    var a := Determinant(d, v0, v1, v2);
    a > -Eps && a < Eps
  }

  /** The point with barycentric coordinates (u, v): (1-u-v) v0 + u v1 + v v2. */
  function Barycentric(v0: Vec3, v1: Vec3, v2: Vec3, u: real, v: real): Vec3 {
    Add(Add(Scale(1.0 - u - v, v0), Scale(u, v1)), Scale(v, v2))
  }

  /** The barycentric u of the ray's crossing with the triangle's plane:
      f * dot(s, h) with f = 1/a, s = origin - v0 and h = dir x e2. */
  function CrossingU(o: Vec3, d: Vec3, v0: Vec3, v1: Vec3, v2: Vec3): real
    requires !Parallel(d, v0, v1, v2)
  {
    1.0 / Determinant(d, v0, v1, v2) * Dot(Sub(o, v0), Cross(d, Sub(v2, v0)))
  }

  /** The barycentric v: f * dot(dir, q) with q = s x e1. */
  function CrossingV(o: Vec3, d: Vec3, v0: Vec3, v1: Vec3, v2: Vec3): real
    requires !Parallel(d, v0, v1, v2)
  {
    1.0 / Determinant(d, v0, v1, v2) * Dot(d, Cross(Sub(o, v0), Sub(v1, v0)))
  }

  /** The ray distance: f * dot(e2, q). */
  function CrossingT(o: Vec3, d: Vec3, v0: Vec3, v1: Vec3, v2: Vec3): real
    requires !Parallel(d, v0, v1, v2)
  {
    1.0 / Determinant(d, v0, v1, v2) * Dot(Sub(v2, v0), Cross(Sub(o, v0), Sub(v1, v0)))
  }

  /** (u, v) are barycentric coordinates of a point of the closed triangle. */
  predicate InTriangle(u: real, v: real) {
    0.0 <= u <= 1.0 && v >= 0.0 && u + v <= 1.0
  }

  /** triIntersect with in/out parameters t, u0, w0: reject a parallel ray,
      then u outside [0, 1], then v < 0 or u + v > 1; otherwise t is written
      and the hit is accepted when t > Eps, with u and v written only then. */
  function TriIntersect(o: Vec3, d: Vec3, v0: Vec3, v1: Vec3, v2: Vec3, t: real, u0: real, w0: real): (r: TriOut)
    ensures r.hit ==> 0.0 <= r.u <= 1.0 && r.v >= 0.0 && r.u + r.v <= 1.0 && r.t > Eps
    ensures Parallel(d, v0, v1, v2) ==> r == TriOut(false, t, u0, w0)
    ensures !r.hit ==> r.u == u0 && r.v == w0
    ensures !r.hit && r.t != t ==> r.t <= Eps && !Parallel(d, v0, v1, v2)
    ensures !Parallel(d, v0, v1, v2) ==>
              (r.hit <==> InTriangle(CrossingU(o, d, v0, v1, v2), CrossingV(o, d, v0, v1, v2))
                          && CrossingT(o, d, v0, v1, v2) > Eps)
    ensures !Parallel(d, v0, v1, v2) && !InTriangle(CrossingU(o, d, v0, v1, v2), CrossingV(o, d, v0, v1, v2))
            ==> r == TriOut(false, t, u0, w0)
  {
    if Parallel(d, v0, v1, v2) then TriOut(false, t, u0, w0)
    else
      var u := CrossingU(o, d, v0, v1, v2);
      if u < 0.0 || u > 1.0 then TriOut(false, t, u0, w0)
      else
        var v := CrossingV(o, d, v0, v1, v2);
        if v < 0.0 || u + v > 1.0 then TriOut(false, t, u0, w0)
        else
          var tt := CrossingT(o, d, v0, v1, v2);
          if tt > Eps then TriOut(true, tt, u, v)
          else TriOut(false, tt, u0, w0)
  }

  /** A hit is exactly a non-parallel crossing inside the triangle beyond
      Eps, and it reports that crossing. */
  lemma HitIsCrossing(o: Vec3, d: Vec3, v0: Vec3, v1: Vec3, v2: Vec3, t: real, u0: real, w0: real)
    ensures TriIntersect(o, d, v0, v1, v2, t, u0, w0).hit <==>
            !Parallel(d, v0, v1, v2)
            && InTriangle(CrossingU(o, d, v0, v1, v2), CrossingV(o, d, v0, v1, v2))
            && CrossingT(o, d, v0, v1, v2) > Eps
    ensures TriIntersect(o, d, v0, v1, v2, t, u0, w0).hit ==>
            TriIntersect(o, d, v0, v1, v2, t, u0, w0)
            == TriOut(true, CrossingT(o, d, v0, v1, v2), CrossingU(o, d, v0, v1, v2), CrossingV(o, d, v0, v1, v2))
  {
  }

  /** The ray point at distance t is the barycentric point (u, v). */
  predicate SamePoint(o: Vec3, d: Vec3, v0: Vec3, v1: Vec3, v2: Vec3, u: real, v: real, t: real) {
    At(o, d, t) == Barycentric(v0, v1, v2, u, v)
  }

  /** An accepted hit reconstructs the same point from the ray and from the
      barycentric coordinates: origin + t dir = (1-u-v) v0 + u v1 + v v2. */
  lemma HitPointIsBarycentric(o: Vec3, d: Vec3, v0: Vec3, v1: Vec3, v2: Vec3, t: real, u0: real, w0: real)
    requires TriIntersect(o, d, v0, v1, v2, t, u0, w0).hit
    ensures var r := TriIntersect(o, d, v0, v1, v2, t, u0, w0);
            At(o, d, r.t) == Barycentric(v0, v1, v2, r.u, r.v)
  {
    HitIsCrossing(o, d, v0, v1, v2, t, u0, w0);
    CrossingIsBarycentric(o, d, v0, v1, v2);
  }

  /** Away from the parallel case the crossing solves the ray/plane system. */
  lemma CrossingIsBarycentric(o: Vec3, d: Vec3, v0: Vec3, v1: Vec3, v2: Vec3)
    requires !Parallel(d, v0, v1, v2)
    ensures SamePoint(o, d, v0, v1, v2, CrossingU(o, d, v0, v1, v2), CrossingV(o, d, v0, v1, v2), CrossingT(o, d, v0, v1, v2))
  {
    var e1 := Sub(v1, v0);
    var e2 := Sub(v2, v0);
    var s := Sub(o, v0);
    var h := Cross(d, e2);
    var q := Cross(s, e1);
    var a := Dot(e1, h);
    var u, v, t := CrossingU(o, d, v0, v1, v2), CrossingV(o, d, v0, v1, v2), CrossingT(o, d, v0, v1, v2);
    assert a == Determinant(d, v0, v1, v2) && a != 0.0;
    InverseCancels(a, Dot(s, h));
    InverseCancels(a, Dot(d, q));
    InverseCancels(a, Dot(e2, q));
    CramerIdentity(s, d, e1, e2);
    ScaledSolution(s, d, e1, e2, a, u, v, t, Dot(s, h), Dot(d, q), Dot(e2, q));
    SolutionIsBarycentric(o, d, v0, v1, v2, u, v, t);
  }

  /** p = u e1 + v e2 - t d on one coordinate. */
  predicate Combination(p: real, e1: real, e2: real, d: real, u: real, v: real, t: real) {
    p == u * e1 + v * e2 - t * d
  }

  /** p = u e1 + v e2 - t d. */
  predicate VecCombination(p: Vec3, e1: Vec3, e2: Vec3, d: Vec3, u: real, v: real, t: real) {
    p == Sub(Add(Scale(u, e1), Scale(v, e2)), Scale(t, d))
  }

  lemma VecCombinationSplit(p: Vec3, e1: Vec3, e2: Vec3, d: Vec3, u: real, v: real, t: real)
    requires VecCombination(p, e1, e2, d, u, v, t)
    ensures Combination(p.x, e1.x, e2.x, d.x, u, v, t)
    ensures Combination(p.y, e1.y, e2.y, d.y, u, v, t)
    ensures Combination(p.z, e1.z, e2.z, d.z, u, v, t)
  {
  }

  lemma VecCombinationJoin(p: Vec3, e1: Vec3, e2: Vec3, d: Vec3, u: real, v: real, t: real)
    requires Combination(p.x, e1.x, e2.x, d.x, u, v, t)
    requires Combination(p.y, e1.y, e2.y, d.y, u, v, t)
    requires Combination(p.z, e1.z, e2.z, d.z, u, v, t)
    ensures VecCombination(p, e1, e2, d, u, v, t)
  {
  }

  /** Cramer's rule for the system [e1 e2 -d] (u, v, t) = s, multiplied through
      by the determinant. */
  lemma CramerIdentity(s: Vec3, d: Vec3, e1: Vec3, e2: Vec3)
    ensures var h := Cross(d, e2);
            var q := Cross(s, e1);
            VecCombination(Scale(Dot(e1, h), s), e1, e2, d, Dot(s, h), Dot(d, q), Dot(e2, q))
  {
    CramerX(s, d, e1, e2);
    CramerY(s, d, e1, e2);
    CramerZ(s, d, e1, e2);
    var h := Cross(d, e2);
    var q := Cross(s, e1);
    VecCombinationJoin(Scale(Dot(e1, h), s), e1, e2, d, Dot(s, h), Dot(d, q), Dot(e2, q));
  }

  lemma CramerX(s: Vec3, d: Vec3, e1: Vec3, e2: Vec3)
    ensures Combination(Dot(e1, Cross(d, e2)) * s.x, e1.x, e2.x, d.x, Dot(s, Cross(d, e2)), Dot(d, Cross(s, e1)), Dot(e2, Cross(s, e1)))
  {
    CramerComponent(s.x, s.y, s.z, d.x, d.y, d.z, e1.x, e1.y, e1.z, e2.x, e2.y, e2.z);
  }

  lemma CramerY(s: Vec3, d: Vec3, e1: Vec3, e2: Vec3)
    ensures Combination(Dot(e1, Cross(d, e2)) * s.y, e1.y, e2.y, d.y, Dot(s, Cross(d, e2)), Dot(d, Cross(s, e1)), Dot(e2, Cross(s, e1)))
  {
    CramerComponent(s.y, s.z, s.x, d.y, d.z, d.x, e1.y, e1.z, e1.x, e2.y, e2.z, e2.x);
  }

  lemma CramerZ(s: Vec3, d: Vec3, e1: Vec3, e2: Vec3)
    ensures Combination(Dot(e1, Cross(d, e2)) * s.z, e1.z, e2.z, d.z, Dot(s, Cross(d, e2)), Dot(d, Cross(s, e1)), Dot(e2, Cross(s, e1)))
  {
    CramerComponent(s.z, s.x, s.y, d.z, d.x, d.y, e1.z, e1.x, e1.y, e2.z, e2.x, e2.y);
  }

  /** The first component of CramerIdentity over scalars; the other two follow
      by rotating the coordinates. */
  lemma CramerComponent(s1: real, s2: real, s3: real, d1: real, d2: real, d3: real,
                        a1: real, a2: real, a3: real, b1: real, b2: real, b3: real)
    ensures var h1 := d2 * b3 - d3 * b2;
            var h2 := d3 * b1 - d1 * b3;
            var h3 := d1 * b2 - d2 * b1;
            var q1 := s2 * a3 - s3 * a2;
            var q2 := s3 * a1 - s1 * a3;
            var q3 := s1 * a2 - s2 * a1;
            (a1 * h1 + a2 * h2 + a3 * h3) * s1
            == (s1 * h1 + s2 * h2 + s3 * h3) * a1 + (d1 * q1 + d2 * q2 + d3 * q3) * b1 - (b1 * q1 + b2 * q2 + b3 * q3) * d1
  {
  }

  lemma SolutionIsBarycentric(o: Vec3, d: Vec3, v0: Vec3, v1: Vec3, v2: Vec3, u: real, v: real, t: real)
    requires VecCombination(Sub(o, v0), Sub(v1, v0), Sub(v2, v0), d, u, v, t)
    ensures SamePoint(o, d, v0, v1, v2, u, v, t)
  {
    VecCombinationSplit(Sub(o, v0), Sub(v1, v0), Sub(v2, v0), d, u, v, t);
    BarycentricAlong(o, d, v0, v1, v2, u, v, t, X);
    BarycentricAlong(o, d, v0, v1, v2, u, v, t, Y);
    BarycentricAlong(o, d, v0, v1, v2, u, v, t, Z);
    SamePointJoin(o, d, v0, v1, v2, u, v, t);
  }

  /** The ray point and the barycentric point agree on one axis. */
  predicate SameAlong(o: Vec3, d: Vec3, v0: Vec3, v1: Vec3, v2: Vec3, u: real, v: real, t: real, a: Axis) {
    At(o, d, t).Get(a) == Barycentric(v0, v1, v2, u, v).Get(a)
  }

  lemma BarycentricAlong(o: Vec3, d: Vec3, v0: Vec3, v1: Vec3, v2: Vec3, u: real, v: real, t: real, a: Axis)
    requires Combination(o.Get(a) - v0.Get(a), v1.Get(a) - v0.Get(a), v2.Get(a) - v0.Get(a), d.Get(a), u, v, t)
    ensures SameAlong(o, d, v0, v1, v2, u, v, t, a)
  {
    BarycentricComponent(o.Get(a), d.Get(a), v0.Get(a), v1.Get(a), v2.Get(a), u, v, t);
    AtAlong(o, d, t, a);
    BarycentricCoordinate(v0, v1, v2, u, v, a);
  }

  lemma AtAlong(o: Vec3, d: Vec3, t: real, a: Axis)
    ensures At(o, d, t).Get(a) == o.Get(a) + t * d.Get(a)
  {
  }

  lemma BarycentricCoordinate(v0: Vec3, v1: Vec3, v2: Vec3, u: real, v: real, a: Axis)
    ensures Barycentric(v0, v1, v2, u, v).Get(a) == (1.0 - u - v) * v0.Get(a) + u * v1.Get(a) + v * v2.Get(a)
  {
  }

  lemma SamePointJoin(o: Vec3, d: Vec3, v0: Vec3, v1: Vec3, v2: Vec3, u: real, v: real, t: real)
    requires SameAlong(o, d, v0, v1, v2, u, v, t, X)
    requires SameAlong(o, d, v0, v1, v2, u, v, t, Y)
    requires SameAlong(o, d, v0, v1, v2, u, v, t, Z)
    ensures SamePoint(o, d, v0, v1, v2, u, v, t)
  {
  }

  lemma ZeroFactor(a: real, y: real)
    requires a != 0.0 && a * y == 0.0
    ensures y == 0.0
  {
  }

  lemma InverseCancels(a: real, x: real)
    requires a != 0.0
    ensures (1.0 / a * x) * a == x
  {
  }

  /** One coordinate of: o - v0 = u e1 + v e2 - t d  implies  o + t d = (1-u-v) v0 + u v1 + v v2. */
  lemma BarycentricComponent(o: real, d: real, p0: real, p1: real, p2: real, u: real, v: real, t: real)
    requires Combination(o - p0, p1 - p0, p2 - p0, d, u, v, t)
    ensures o + t * d == (1.0 - u - v) * p0 + u * p1 + v * p2
  {
  }

  /** Dividing the scaled Cramer identity by a non-zero determinant. */
  lemma ScaledSolution(s: Vec3, d: Vec3, e1: Vec3, e2: Vec3, a: real, u: real, v: real, t: real,
                       su: real, sv: real, st: real)
    requires a != 0.0 && u * a == su && v * a == sv && t * a == st
    requires VecCombination(Scale(a, s), e1, e2, d, su, sv, st)
    ensures VecCombination(s, e1, e2, d, u, v, t)
  {
    VecCombinationSplit(Scale(a, s), e1, e2, d, su, sv, st);
    ScaledComponent(a, s.x, u, v, t, e1.x, e2.x, d.x, su, sv, st);
    ScaledComponent(a, s.y, u, v, t, e1.y, e2.y, d.y, su, sv, st);
    ScaledComponent(a, s.z, u, v, t, e1.z, e2.z, d.z, su, sv, st);
    VecCombinationJoin(s, e1, e2, d, u, v, t);
  }

  lemma ScaledComponent(a: real, s: real, u: real, v: real, t: real, e1: real, e2: real, d: real,
                        su: real, sv: real, st: real)
    requires a != 0.0 && u * a == su && v * a == sv && t * a == st
    requires Combination(a * s, e1, e2, d, su, sv, st)
    ensures Combination(s, e1, e2, d, u, v, t)
  {
    var x := u * e1 + v * e2 - t * d;
    assert a * x == su * e1 + sv * e2 - st * d by {
      assert a * x == (u * a) * e1 + (v * a) * e2 - (t * a) * d;
    }
    ZeroFactor(a, s - x);
  }

  // ---------------------------------------------------------------------
  // Slab test
  // ---------------------------------------------------------------------

  /** dirfrac: the componentwise reciprocal of the direction. */
  function Reciprocal(d: Vec3): (f: Vec3)
    requires NonZeroDir(d)
    ensures d.x * f.x == 1.0 && d.y * f.y == 1.0 && d.z * f.z == 1.0
  {
    Vec3(1.0 / d.x, 1.0 / d.y, 1.0 / d.z)
  }

  /** Entry and exit distances of one slab, given the reciprocal direction `f`. */
  function SlabEntry(lo: real, hi: real, o: real, f: real): real {
    Min((lo - o) * f, (hi - o) * f)
  }

  function SlabExit(lo: real, hi: real, o: real, f: real): real {
    Max((lo - o) * f, (hi - o) * f)
  }

  /** tmin: the largest of the per-axis entry distances. */
  function NearDistance(b: Aabb, o: Vec3, f: Vec3): real {
    Max(Max(SlabEntry(b.lo.x, b.hi.x, o.x, f.x), SlabEntry(b.lo.y, b.hi.y, o.y, f.y)),
        SlabEntry(b.lo.z, b.hi.z, o.z, f.z))
  }

  /** tmax: the smallest of the per-axis exit distances. */
  function FarDistance(b: Aabb, o: Vec3, f: Vec3): real {
    Min(Min(SlabExit(b.lo.x, b.hi.x, o.x, f.x), SlabExit(b.lo.y, b.hi.y, o.y, f.y)),
        SlabExit(b.lo.z, b.hi.z, o.z, f.z))
  }

  /** aabbIntersect: reject when the box lies behind the ray (tmax < 0) or
      when the slab intervals do not overlap (tmin > tmax). */
  function AabbIntersect(b: Aabb, o: Vec3, d: Vec3): (r: bool)
    requires NonZeroDir(d)
    ensures InBox(b, o) ==> r
    ensures WellFormed(b) ==> (r <==> RayHitsBox(b, o, d))
  {
    var f := Reciprocal(d);
    var tmin := NearDistance(b, o, f);
    var tmax := FarDistance(b, o, f);
    SlabVerdict(b, o, d, f);
    !(tmax < 0.0) && !(tmin > tmax)
  }

  /** The slab verdict accepts an inside origin and, for a well-formed box,
      means that the ray meets the box. */
  lemma SlabVerdict(b: Aabb, o: Vec3, d: Vec3, f: Vec3)
    requires d.x * f.x == 1.0 && d.y * f.y == 1.0 && d.z * f.z == 1.0
    ensures var r := !(FarDistance(b, o, f) < 0.0) && !(NearDistance(b, o, f) > FarDistance(b, o, f));
            (InBox(b, o) ==> r) && (WellFormed(b) ==> (r <==> RayHitsBox(b, o, d)))
  {
    InsideOriginPassesSlabs(b, o, d, f);
    if WellFormed(b) {
      SlabTestMeansRayHitsBox(b, o, d, f);
    }
  }

  /** On one axis, a point of the line lies in the slab exactly when its
      distance lies between the two slab distances. */
  lemma SlabInterval(lo: real, hi: real, o: real, d: real, f: real, t: real)
    requires d * f == 1.0 && lo <= hi
    ensures AxisAgrees(lo, hi, o, d, f, t)
  {
    var p := o + t * d;
    var ta := (lo - o) * f;
    var tb := (hi - o) * f;
    assert (hi - lo) * f == tb - ta;
    assert (p - lo) * f == t - ta by {
      assert (p - lo) * f == t * (d * f) - ta;
    }
    assert (hi - p) * f == tb - t by {
      assert (hi - p) * f == tb - t * (d * f);
    }
    if d > 0.0 {
      assert f > 0.0;
      SignOfProduct(hi - lo, f);
      SignOfProduct(p - lo, f);
      SignOfProduct(hi - p, f);
      assert ta <= tb;
      assert SlabEntry(lo, hi, o, f) == ta && SlabExit(lo, hi, o, f) == tb;
    } else {
      assert f < 0.0;
      SignOfProductNeg(hi - lo, f);
      SignOfProductNeg(p - lo, f);
      SignOfProductNeg(hi - p, f);
      assert tb <= ta;
      assert SlabEntry(lo, hi, o, f) == tb && SlabExit(lo, hi, o, f) == ta;
    }
  }

  /** Multiplying by a positive factor keeps the sign. */
  lemma SignOfProduct(x: real, k: real)
    requires k > 0.0
    ensures x >= 0.0 <==> x * k >= 0.0
  {
    if x < 0.0 {
      assert (-x) * k > 0.0;
    }
  }

  /** Multiplying by a negative factor flips the sign. */
  lemma SignOfProductNeg(x: real, k: real)
    requires k < 0.0
    ensures x >= 0.0 <==> x * k <= 0.0
  {
    if x < 0.0 {
      assert (-x) * (-k) > 0.0;
    } else {
      assert x * (-k) >= 0.0;
    }
  }

  /** An origin inside the slab puts distance zero inside its interval. */
  lemma SlabContainsZero(lo: real, hi: real, o: real, d: real, f: real)
    requires d * f == 1.0 && InSlab(lo, o, hi)
    ensures SlabEntry(lo, hi, o, f) <= 0.0 <= SlabExit(lo, hi, o, f)
  {
    SlabInterval(lo, hi, o, d, f, 0.0);
    assert o + 0.0 * d == o;
  }

  lemma InsideOriginPassesSlabs(b: Aabb, o: Vec3, d: Vec3, f: Vec3)
    requires d.x * f.x == 1.0 && d.y * f.y == 1.0 && d.z * f.z == 1.0
    ensures InBox(b, o) ==> NearDistance(b, o, f) <= 0.0 <= FarDistance(b, o, f)
  {
    if InBox(b, o) {
      SlabContainsZero(b.lo.x, b.hi.x, o.x, d.x, f.x);
      SlabContainsZero(b.lo.y, b.hi.y, o.y, d.y, f.y);
      SlabContainsZero(b.lo.z, b.hi.z, o.z, d.z, f.z);
      BoundsOfThree(SlabEntry(b.lo.x, b.hi.x, o.x, f.x), SlabEntry(b.lo.y, b.hi.y, o.y, f.y), SlabEntry(b.lo.z, b.hi.z, o.z, f.z),
                    SlabExit(b.lo.x, b.hi.x, o.x, f.x), SlabExit(b.lo.y, b.hi.y, o.y, f.y), SlabExit(b.lo.z, b.hi.z, o.z, f.z), 0.0);
    }
  }

  lemma SlabTestMeansRayHitsBox(b: Aabb, o: Vec3, d: Vec3, f: Vec3)
    requires d.x * f.x == 1.0 && d.y * f.y == 1.0 && d.z * f.z == 1.0 && WellFormed(b)
    ensures (FarDistance(b, o, f) >= 0.0 && NearDistance(b, o, f) <= FarDistance(b, o, f))
            <==> RayHitsBox(b, o, d)
  {
    var tmin := NearDistance(b, o, f);
    var tmax := FarDistance(b, o, f);
    if tmax >= 0.0 && tmin <= tmax {
      var t := Max(tmin, 0.0);
      SlabsAgree(b, o, d, f, t);
    }
    if RayHitsBox(b, o, d) {
      var t :| t >= 0.0 && InBox(b, At(o, d, t));
      SlabsAgree(b, o, d, f, t);
    }
  }

  /** A distance lies between tmin and tmax exactly when it reaches a point
      of the box. */
  lemma SlabsAgree(b: Aabb, o: Vec3, d: Vec3, f: Vec3, t: real)
    requires d.x * f.x == 1.0 && d.y * f.y == 1.0 && d.z * f.z == 1.0 && WellFormed(b)
    ensures InBox(b, At(o, d, t)) <==> NearDistance(b, o, f) <= t <= FarDistance(b, o, f)
  {
    SlabInterval(b.lo.x, b.hi.x, o.x, d.x, f.x, t);
    SlabInterval(b.lo.y, b.hi.y, o.y, d.y, f.y, t);
    SlabInterval(b.lo.z, b.hi.z, o.z, d.z, f.z, t);
    AxesAgree(b, o, d, f, t);
  }

  /** The box test follows from the three per-axis agreements. */
  lemma AxesAgree(b: Aabb, o: Vec3, d: Vec3, f: Vec3, t: real)
    requires AxisAgrees(b.lo.x, b.hi.x, o.x, d.x, f.x, t)
    requires AxisAgrees(b.lo.y, b.hi.y, o.y, d.y, f.y, t)
    requires AxisAgrees(b.lo.z, b.hi.z, o.z, d.z, f.z, t)
    ensures InBox(b, At(o, d, t)) <==> NearDistance(b, o, f) <= t <= FarDistance(b, o, f)
  {
    InBoxAt(b, o, d, t);
    NearFarWindows(b, o, f, t);
  }

  /** On one axis, the point at distance t is in the slab exactly when t is
      in the slab's window. */
  predicate AxisAgrees(lo: real, hi: real, o: real, d: real, f: real, t: real) {
    InSlab(lo, o + t * d, hi) == InWindow(lo, hi, o, f, t)
  }

  /** t lies in one slab's window of distances. */
  predicate InWindow(lo: real, hi: real, o: real, f: real, t: real) {
    SlabEntry(lo, hi, o, f) <= t <= SlabExit(lo, hi, o, f)
  }

  /** tmin <= t <= tmax exactly when t lies in every slab's window. */
  lemma NearFarWindows(b: Aabb, o: Vec3, f: Vec3, t: real)
    ensures NearDistance(b, o, f) <= t <= FarDistance(b, o, f) <==>
              InWindow(b.lo.x, b.hi.x, o.x, f.x, t) && InWindow(b.lo.y, b.hi.y, o.y, f.y, t) && InWindow(b.lo.z, b.hi.z, o.z, f.z, t)
  {
    BoundsOfThree(SlabEntry(b.lo.x, b.hi.x, o.x, f.x), SlabEntry(b.lo.y, b.hi.y, o.y, f.y), SlabEntry(b.lo.z, b.hi.z, o.z, f.z),
                  SlabExit(b.lo.x, b.hi.x, o.x, f.x), SlabExit(b.lo.y, b.hi.y, o.y, f.y), SlabExit(b.lo.z, b.hi.z, o.z, f.z), t);
  }

  /** InBox of a ray point, one coordinate at a time. */
  lemma InBoxAt(b: Aabb, o: Vec3, d: Vec3, t: real)
    ensures InBox(b, At(o, d, t)) <==>
              InSlab(b.lo.x, o.x + t * d.x, b.hi.x) && InSlab(b.lo.y, o.y + t * d.y, b.hi.y) && InSlab(b.lo.z, o.z + t * d.z, b.hi.z)
  {
  }

  /** t lies between the largest entry and the smallest exit exactly when it
      lies between each entry and exit. */
  lemma BoundsOfThree(a1: real, a2: real, a3: real, b1: real, b2: real, b3: real, t: real)
    ensures Max(Max(a1, a2), a3) <= t <= Min(Min(b1, b2), b3)
            <==> (a1 <= t <= b1 && a2 <= t <= b2 && a3 <= t <= b3)
  {
  }

  // ---------------------------------------------------------------------
  // Woo's candidate-plane test
  // ---------------------------------------------------------------------

  /** The candidate-plane distance of one axis (MaxT[i]): the distance to the
      face the origin lies outside of, or -1 when the origin is within the
      slab or the direction component is zero. */
  function CandidateT(lo: real, hi: real, o: real, d: real): real {
    if o < lo then (if d != 0.0 then (lo - o) / d else -1.0)
    else if o > hi then (if d != 0.0 then (hi - o) / d else -1.0)
    else -1.0
  }

  /** WhichPlane: index of the largest candidate distance, earlier axis on ties. */
  function WhichPlane(tx: real, ty: real, tz: real): (w: Axis)
    ensures var m := if w == X then tx else if w == Y then ty else tz;
            m >= tx && m >= ty && m >= tz
    ensures w == Y ==> ty > tx
    ensures w == Z ==> tz > tx && tz > ty
  {
    var w1 := if ty > tx then Y else X;
    var m1 := if ty > tx then ty else tx;
    if tz > m1 then Z else w1
  }

  function CandidateTs(b: Aabb, o: Vec3, d: Vec3): (ts: Vec3)
    ensures forall a: Axis :: ts.Get(a) == CandidateT(b.lo.Get(a), b.hi.Get(a), o.Get(a), d.Get(a))
  {
    Vec3(CandidateT(b.lo.x, b.hi.x, o.x, d.x),
         CandidateT(b.lo.y, b.hi.y, o.y, d.y),
         CandidateT(b.lo.z, b.hi.z, o.z, d.z))
  }

  /** The box grown by e on every side. */
  function Widen(b: Aabb, e: real): (w: Aabb)
    ensures forall a: Axis :: w.lo.Get(a) == b.lo.Get(a) - e && w.hi.Get(a) == b.hi.Get(a) + e
  {
    Aabb(Vec3(b.lo.x - e, b.lo.y - e, b.lo.z - e), Vec3(b.hi.x + e, b.hi.y + e, b.hi.z + e))
  }

  /** The test applied when the origin is outside the box: the ray's point
      at the largest candidate distance must lie, on the other two axes,
      within the box widened by RayAabbEps. */
  predicate WooPasses(b: Aabb, o: Vec3, d: Vec3) {
    var ts := CandidateTs(b, o, d);
    var w := WhichPlane(ts.x, ts.y, ts.z);
    var tw := ts.Get(w);
    tw >= 0.0 &&
    forall a :: a != w ==> InSlab(b.lo.Get(a) - RayAabbEps, At(o, d, tw).Get(a), b.hi.Get(a) + RayAabbEps)
  }

  /** aabbIntersect2: an origin inside the box is a hit; otherwise Woo's
      candidate-plane test decides. The source's sign-bit test on MaxT is the
      comparison `< 0`. For a well-formed box the answer is sandwiched between
      the box and the box widened by RayAabbEps: every ray that meets the box
      passes, and every ray that passes meets the widened box. */
  function AabbIntersect2(b: Aabb, o: Vec3, d: Vec3): (r: bool)
    ensures InBox(b, o) ==> r
    ensures r && !InBox(b, o) ==>
              var ts := CandidateTs(b, o, d);
              var w := WhichPlane(ts.x, ts.y, ts.z);
              var tw := ts.Get(w);
              tw >= 0.0 &&
              forall a :: a != w ==> InSlab(b.lo.Get(a) - RayAabbEps, At(o, d, tw).Get(a), b.hi.Get(a) + RayAabbEps)
    ensures WellFormed(b) && RayHitsBox(b, o, d) ==> r
    ensures WellFormed(b) && r ==> RayHitsBox(Widen(b, RayAabbEps), o, d)
  {
    var r := if InBox(b, o) then true else WooPasses(b, o, d);
    if WellFormed(b) then
      if InBox(b, o) then
        InsideOriginHitsWidened(b, o, d);
        r
      else
        WooComplete(b, o, d);
        WooSound(b, o, d);
        r
    else r
  }

  /** A point is in the box exactly when each coordinate is in its slab. */
  lemma InBoxGet(b: Aabb, p: Vec3)
    ensures InBox(b, p) <==> forall a: Axis :: InSlab(b.lo.Get(a), p.Get(a), b.hi.Get(a))
  {
    if InBox(b, p) {
      forall a: Axis ensures InSlab(b.lo.Get(a), p.Get(a), b.hi.Get(a)) {
        match a
        case X =>
        case Y =>
        case Z =>
      }
    }
    if forall a: Axis :: InSlab(b.lo.Get(a), p.Get(a), b.hi.Get(a)) {
      assert InSlab(b.lo.Get(X), p.Get(X), b.hi.Get(X));
      assert InSlab(b.lo.Get(Y), p.Get(Y), b.hi.Get(Y));
      assert InSlab(b.lo.Get(Z), p.Get(Z), b.hi.Get(Z));
    }
  }

  lemma InsideOriginHitsWidened(b: Aabb, o: Vec3, d: Vec3)
    requires InBox(b, o)
    ensures RayHitsBox(Widen(b, RayAabbEps), o, d)
  {
    assert At(o, d, 0.0) == o;
    assert InBox(Widen(b, RayAabbEps), At(o, d, 0.0));
  }

  lemma MulNonNeg(x: real, y: real)
    requires x >= 0.0 && y >= 0.0
    ensures x * y >= 0.0
  {
  }

  lemma MulPos(x: real, y: real)
    requires x > 0.0 && y > 0.0
    ensures x * y > 0.0
  {
  }

  /** A ray that reaches the slab at distance t >= 0 has a candidate distance
      of at most t; when the origin is outside the slab that candidate is a
      true face distance and is not negative. */
  lemma CandidateBelowEntry(lo: real, hi: real, o: real, d: real, t: real)
    requires t >= 0.0 && InSlab(lo, o + t * d, hi)
    ensures CandidateT(lo, hi, o, d) <= t
    ensures (o < lo || o > hi) ==> CandidateT(lo, hi, o, d) >= 0.0
  {
    if o < lo {
      EntryFromBelow(lo, o, d, t);
    } else if o > hi {
      EntryFromAbove(hi, o, d, t);
    }
  }

  /** An origin below the slab that reaches it at t moves up, and its face
      distance lies in [0, t]. */
  lemma EntryFromBelow(lo: real, o: real, d: real, t: real)
    requires t >= 0.0 && o < lo <= o + t * d
    ensures d > 0.0 && 0.0 <= (lo - o) / d <= t
  {
    if d <= 0.0 {
      MulNonNeg(t, -d);
    }
    var c := (lo - o) / d;
    assert c * d == lo - o;
    if c > t {
      MulPos(c - t, d);
    }
    SignOfProduct(c, d);
  }

  /** An origin above the slab that reaches it at t moves down, and its face
      distance lies in [0, t]. */
  lemma EntryFromAbove(hi: real, o: real, d: real, t: real)
    requires t >= 0.0 && o + t * d <= hi < o
    ensures d < 0.0 && 0.0 <= (hi - o) / d <= t
  {
    if d >= 0.0 {
      MulNonNeg(t, d);
    }
    var c := (hi - o) / d;
    assert c * d == hi - o;
    if c > t {
      MulPos(c - t, -d);
    }
    SignOfProductNeg(c, d);
  }

  /** Between the candidate distance and a distance inside the slab, the ray
      stays inside the slab. */
  lemma EntryStaysInSlab(lo: real, hi: real, o: real, d: real, t: real, tw: real)
    requires 0.0 <= tw <= t && InSlab(lo, o + t * d, hi)
    requires CandidateT(lo, hi, o, d) <= tw
    ensures InSlab(lo, o + tw * d, hi)
  {
    assert (t - tw) * d == t * d - tw * d;
    if d >= 0.0 {
      MulNonNeg(t - tw, d);
      MulNonNeg(tw, d);
    } else {
      MulNonNeg(t - tw, -d);
      MulNonNeg(tw, -d);
    }
    if o < lo {
      CandidateBelowEntry(lo, hi, o, d, t);
      var c := (lo - o) / d;
      assert d > 0.0 && c * d == lo - o;
      MulNonNeg(tw - c, d);
      assert (tw - c) * d == tw * d - c * d;
    } else if o > hi {
      CandidateBelowEntry(lo, hi, o, d, t);
      var c := (hi - o) / d;
      assert d < 0.0 && c * d == hi - o;
      MulNonNeg(tw - c, -d);
      assert (tw - c) * (-d) == c * d - tw * d;
    }
  }

  /** A non-negative candidate distance reaches the face it was computed for. */
  lemma CandidateOnFace(lo: real, hi: real, o: real, d: real)
    requires lo <= hi && CandidateT(lo, hi, o, d) >= 0.0
    ensures InSlab(lo, o + CandidateT(lo, hi, o, d) * d, hi)
  {
    if o < lo {
      assert d != 0.0;
      assert (lo - o) / d * d == lo - o;
    } else if o > hi {
      assert d != 0.0;
      assert (hi - o) / d * d == hi - o;
    }
  }

  /** Every ray from outside that meets a well-formed box passes Woo's test. */
  lemma WooComplete(b: Aabb, o: Vec3, d: Vec3)
    requires WellFormed(b) && !InBox(b, o)
    ensures RayHitsBox(b, o, d) ==> WooPasses(b, o, d)
  {
    if RayHitsBox(b, o, d) {
      WooEntry(b, o, d);
    }
  }

  lemma WooEntry(b: Aabb, o: Vec3, d: Vec3)
    requires WellFormed(b) && !InBox(b, o) && RayHitsBox(b, o, d)
    ensures WooPasses(b, o, d)
  {
    var t :| t >= 0.0 && InBox(b, At(o, d, t));
    var ts := CandidateTs(b, o, d);
    var w := WhichPlane(ts.x, ts.y, ts.z);
    var tw := ts.Get(w);
    ChosenIsLargest(ts);
    CandidatesBelow(b, o, d, t);
    InBoxGet(b, o);
    var a0: Axis :| !InSlab(b.lo.Get(a0), o.Get(a0), b.hi.Get(a0));
    assert 0.0 <= ts.Get(a0) <= tw <= t;
    EntryInSlabs(b, o, d, t, tw);
  }

  /** Each candidate distance is at most any distance at which the ray is in
      the box, and is non-negative on an axis whose slab the origin is outside. */
  lemma CandidatesBelow(b: Aabb, o: Vec3, d: Vec3, t: real)
    requires t >= 0.0 && InBox(b, At(o, d, t))
    ensures forall a: Axis :: CandidateTs(b, o, d).Get(a) <= t
    ensures forall a: Axis :: !InSlab(b.lo.Get(a), o.Get(a), b.hi.Get(a)) ==> CandidateTs(b, o, d).Get(a) >= 0.0
  {
    InBoxGet(b, At(o, d, t));
    forall a: Axis
      ensures CandidateTs(b, o, d).Get(a) <= t
      ensures !InSlab(b.lo.Get(a), o.Get(a), b.hi.Get(a)) ==> CandidateTs(b, o, d).Get(a) >= 0.0
    {
      assert InSlab(b.lo.Get(a), At(o, d, t).Get(a), b.hi.Get(a));
      CandidateAxisBelow(b.lo.Get(a), b.hi.Get(a), o, d, t, a);
    }
  }

  lemma CandidateAxisBelow(lo: real, hi: real, o: Vec3, d: Vec3, t: real, a: Axis)
    requires t >= 0.0 && InSlab(lo, At(o, d, t).Get(a), hi)
    ensures CandidateT(lo, hi, o.Get(a), d.Get(a)) <= t
    ensures !InSlab(lo, o.Get(a), hi) ==> CandidateT(lo, hi, o.Get(a), d.Get(a)) >= 0.0
  {
    AtAlong(o, d, t, a);
    CandidateBelowEntry(lo, hi, o.Get(a), d.Get(a), t);
  }

  /** From the last candidate distance up to a distance inside the box, the
      ray stays in every slab. */
  lemma EntryInSlabs(b: Aabb, o: Vec3, d: Vec3, t: real, tw: real)
    requires 0.0 <= tw <= t && InBox(b, At(o, d, t))
    requires forall a: Axis :: CandidateTs(b, o, d).Get(a) <= tw
    ensures forall a: Axis :: InSlab(b.lo.Get(a) - RayAabbEps, At(o, d, tw).Get(a), b.hi.Get(a) + RayAabbEps)
  {
    InBoxGet(b, At(o, d, t));
    forall a: Axis
      ensures InSlab(b.lo.Get(a) - RayAabbEps, At(o, d, tw).Get(a), b.hi.Get(a) + RayAabbEps)
    {
      assert InSlab(b.lo.Get(a), At(o, d, t).Get(a), b.hi.Get(a));
      assert CandidateTs(b, o, d).Get(a) <= tw;
      EntryInSlab(b.lo.Get(a), b.hi.Get(a), o, d, t, tw, a);
    }
  }

  lemma EntryInSlab(lo: real, hi: real, o: Vec3, d: Vec3, t: real, tw: real, a: Axis)
    requires 0.0 <= tw <= t && InSlab(lo, At(o, d, t).Get(a), hi)
    requires CandidateT(lo, hi, o.Get(a), d.Get(a)) <= tw
    ensures InSlab(lo - RayAabbEps, At(o, d, tw).Get(a), hi + RayAabbEps)
  {
    AtAlong(o, d, t, a);
    AtAlong(o, d, tw, a);
    EntryStaysInSlab(lo, hi, o.Get(a), d.Get(a), t, tw);
  }

  /** The axis WhichPlane picks carries the largest value. */
  lemma ChosenIsLargest(ts: Vec3)
    ensures forall a: Axis :: ts.Get(WhichPlane(ts.x, ts.y, ts.z)) >= ts.Get(a)
  {
    var w := WhichPlane(ts.x, ts.y, ts.z);
    assert ts.Get(w) >= ts.x && ts.Get(w) >= ts.y && ts.Get(w) >= ts.z;
    forall a: Axis ensures ts.Get(w) >= ts.Get(a) {
      match a
      case X =>
      case Y =>
      case Z =>
    }
  }

  /** Every ray that passes Woo's test meets the widened box at the chosen
      candidate distance. */
  lemma WooSound(b: Aabb, o: Vec3, d: Vec3)
    requires WellFormed(b)
    ensures WooPasses(b, o, d) ==> RayHitsBox(Widen(b, RayAabbEps), o, d)
  {
    if WooPasses(b, o, d) {
      var ts := CandidateTs(b, o, d);
      var w := WhichPlane(ts.x, ts.y, ts.z);
      var tw := ts.Get(w);
      var p := At(o, d, tw);
      ChosenOnFace(b, o, d, w, tw);
      WidenedByAxes(b, p, w);
      assert InBox(Widen(b, RayAabbEps), At(o, d, tw));
    }
  }

  /** The chosen non-negative candidate distance reaches its own slab. */
  lemma ChosenOnFace(b: Aabb, o: Vec3, d: Vec3, w: Axis, tw: real)
    requires WellFormed(b) && tw == CandidateT(b.lo.Get(w), b.hi.Get(w), o.Get(w), d.Get(w)) && tw >= 0.0
    ensures InSlab(b.lo.Get(w), At(o, d, tw).Get(w), b.hi.Get(w))
  {
    assert b.lo.Get(w) <= b.hi.Get(w) by {
      match w
      case X =>
      case Y =>
      case Z =>
    }
    CandidateOnFace(b.lo.Get(w), b.hi.Get(w), o.Get(w), d.Get(w));
    AtAlong(o, d, tw, w);
  }

  /** A point in the slab of axis w and in the widened slabs of the other
      axes is in the widened box. */
  lemma WidenedByAxes(b: Aabb, p: Vec3, w: Axis)
    requires InSlab(b.lo.Get(w), p.Get(w), b.hi.Get(w))
    requires forall a :: a != w ==> InSlab(b.lo.Get(a) - RayAabbEps, p.Get(a), b.hi.Get(a) + RayAabbEps)
    ensures InBox(Widen(b, RayAabbEps), p)
  {
    var wb := Widen(b, RayAabbEps);
    forall a: Axis ensures InSlab(wb.lo.Get(a), p.Get(a), wb.hi.Get(a)) {
    }
    InBoxGet(wb, p);
  }

  // ---------------------------------------------------------------------
  // Triangle normal
  // ---------------------------------------------------------------------

  /** The unnormalised normal of computeTriNormal: (p2 - p1) x (p3 - p1). It is
      orthogonal to both edges, and its squared length is |u|^2 |v|^2 - (u.v)^2
      for the edges u and v (Lagrange's identity), so it vanishes exactly when
      the edges are parallel. */
  function TriNormal(p1: Vec3, p2: Vec3, p3: Vec3): (n: Vec3)
    ensures Dot(n, Sub(p2, p1)) == 0.0 && Dot(n, Sub(p3, p1)) == 0.0
    ensures var u := Sub(p2, p1);
            var v := Sub(p3, p1);
            Dot(n, n) == Dot(u, u) * Dot(v, v) - Dot(u, v) * Dot(u, v)
  {
    var u := Sub(p2, p1);
    var v := Sub(p3, p1);
    Lagrange(u.x, u.y, u.z, v.x, v.y, v.z);
    Vec3(u.y * v.z - u.z * v.y, u.z * v.x - u.x * v.z, u.x * v.y - u.y * v.x)
  }

  lemma Lagrange(a1: real, a2: real, a3: real, b1: real, b2: real, b3: real)
    ensures (a2 * b3 - a3 * b2) * (a2 * b3 - a3 * b2) + (a3 * b1 - a1 * b3) * (a3 * b1 - a1 * b3)
            + (a1 * b2 - a2 * b1) * (a1 * b2 - a2 * b1)
            == (a1 * a1 + a2 * a2 + a3 * a3) * (b1 * b1 + b2 * b2 + b3 * b3)
               - (a1 * b1 + a2 * b2 + a3 * b3) * (a1 * b1 + a2 * b2 + a3 * b3)
  {
  }
}

=== FILE: kdbuild.dfy ===
/** Construction of the CPU k-d tree (KDTreeCPU): the mesh, the per-triangle
    extent queries, the loose bounding boxes, the SAH choice of a splitting
    plane, the partition of triangle indices and the recursive build with its
    node counters. */
module KdBuild {
  import opened Geometry
  import opened Options
  import opened Seqs
  import Intersections

  /** NUM_TRIS_PER_NODE: nodes with at most this many triangles become leaves. */
  const TrisPerNode: nat := 10

  /** MAX_DEPTH: nodes at this depth or deeper become leaves. */
  const MaxDepth: nat := 40

  const CostTraversal: real := 5.0
  const CostIntersect: real := 2000.0

  /** Number of candidate planes per axis: split_delta = 0.02 gives 1/50 .. 49/50. */
  const PlanesPerAxis: nat := 49

  // ---------------------------------------------------------------------
  // Mesh
  // ---------------------------------------------------------------------

  /** A triangle as three vertex indices (glm::uvec3). */
  datatype Tri = Tri(a: nat, b: nat, c: nat)

  datatype Mesh = Mesh(verts: seq<Vec3>, tris: seq<Tri>)

  /** Vertex lookup. The source reads out of bounds for a bad index; the
      model reads the origin instead so that every query is total. */
  function Vertex(m: Mesh, i: nat): Vec3 {
    if i < |m.verts| then m.verts[i] else Zero
  }

  function Triangle(m: Mesh, t: nat): Tri {
    if t < |m.tris| then m.tris[t] else Tri(0, 0, 0)
  }

  /** The smallest of three values, by the source's nested comparison. */
  function Least(a: real, b: real, c: real): (r: real)
    ensures r <= a && r <= b && r <= c
    ensures r == a || r == b || r == c
  {
    if a < b && a < c then a else if b < c then b else c
  }

  /** The largest of three values, by the source's nested comparison. */
  function Greatest(a: real, b: real, c: real): (r: real)
    ensures r >= a && r >= b && r >= c
    ensures r == a || r == b || r == c
  {
    if a > b && a > c then a else if b > c then b else c
  }

  /** getMinTriValue: the triangle's smallest vertex coordinate on `axis`.
      The vertex indices are read exactly; the source passes them through a
      float, which is exact only below 2^24. */
  function MinTriValue(m: Mesh, t: nat, axis: Axis): (r: real)
    ensures var tri := Triangle(m, t);
            r <= Vertex(m, tri.a).Get(axis) && r <= Vertex(m, tri.b).Get(axis) && r <= Vertex(m, tri.c).Get(axis)
    ensures var tri := Triangle(m, t);
            r == Vertex(m, tri.a).Get(axis) || r == Vertex(m, tri.b).Get(axis) || r == Vertex(m, tri.c).Get(axis)
  {
    var tri := Triangle(m, t);
    Least(Vertex(m, tri.a).Get(axis), Vertex(m, tri.b).Get(axis), Vertex(m, tri.c).Get(axis))
  }

  /** getMaxTriValue: the triangle's largest vertex coordinate on `axis`,
      with the vertex indices read exactly as in MinTriValue. */
  function MaxTriValue(m: Mesh, t: nat, axis: Axis): (r: real)
    ensures var tri := Triangle(m, t);
            r >= Vertex(m, tri.a).Get(axis) && r >= Vertex(m, tri.b).Get(axis) && r >= Vertex(m, tri.c).Get(axis)
    ensures var tri := Triangle(m, t);
            r == Vertex(m, tri.a).Get(axis) || r == Vertex(m, tri.b).Get(axis) || r == Vertex(m, tri.c).Get(axis)
  {
    var tri := Triangle(m, t);
    Greatest(Vertex(m, tri.a).Get(axis), Vertex(m, tri.b).Get(axis), Vertex(m, tri.c).Get(axis))
  }

  lemma MinTriBelowMax(m: Mesh, t: nat, axis: Axis)
    ensures MinTriValue(m, t, axis) <= MaxTriValue(m, t, axis)
  {
  }

  // ---------------------------------------------------------------------
  // Bounding boxes
  // ---------------------------------------------------------------------

  /** The tree's box: a center and half-extents per axis. */
  datatype BoundingBox = BoundingBox(center: Vec3, extents: Vec3) {
    function Lo(a: Axis): real {
      center.Get(a) - extents.Get(a)
    }

    function Hi(a: Axis): real {
      center.Get(a) + extents.Get(a)
    }
  }

  /** The same box by its corners, as the intersection kernels read it. */
  function ToAabb(b: BoundingBox): (r: Intersections.Aabb)
    ensures forall a :: r.lo.Get(a) == b.Lo(a) && r.hi.Get(a) == b.Hi(a)
  {
    Intersections.Aabb(Sub(b.center, b.extents), Add(b.center, b.extents))
  }

  function AxisRank(a: Axis): nat {
    match a
    case X => 0
    case Y => 1
    case Z => 2
  }

  /** getLongestBoundingBoxSide: an axis of largest extent; among equally long
      axes the later one wins. */
  function LongestSide(e: Vec3): (r: Axis)
    ensures forall a :: e.Get(a) <= e.Get(r)
    ensures forall a :: e.Get(a) == e.Get(r) ==> AxisRank(a) <= AxisRank(r)
  {
    if e.x > e.y && e.x > e.z then X else if e.y > e.z then Y else Z
  }

  const EmptyCorners := Intersections.Aabb(Vec3(FltMax, FltMax, FltMax), Vec3(-FltMax, -FltMax, -FltMax))

  /** One step of the corner scan: lower the minimum and raise the maximum
      wherever the vertex lies outside. */
  function Extend(b: Intersections.Aabb, v: Vec3): (r: Intersections.Aabb)
    ensures forall a :: r.lo.Get(a) == Min(v.Get(a), b.lo.Get(a)) && r.hi.Get(a) == Max(v.Get(a), b.hi.Get(a))
  {
    Intersections.Aabb(Vec3(Min(v.x, b.lo.x), Min(v.y, b.lo.y), Min(v.z, b.lo.z)),
                       Vec3(Max(v.x, b.hi.x), Max(v.y, b.hi.y), Max(v.z, b.hi.z)))
  }

  /** The running minimum and maximum corner after scanning the vertices in
      order, starting from (FLT_MAX, ...) and (-FLT_MAX, ...). Every vertex
      lies between the two corners. */
  function Corners(vs: seq<Vec3>): (r: Intersections.Aabb)
    ensures |vs| == 0 ==> r == EmptyCorners
    ensures forall i :: 0 <= i < |vs| ==> Intersections.InBox(r, vs[i])
  {
    if |vs| == 0 then EmptyCorners
    else
      var init := vs[..|vs| - 1];
      var b := Corners(init);
      assert forall i :: 0 <= i < |init| ==> init[i] == vs[i];
      Extend(b, vs[|vs| - 1])
  }

  /** A coordinate the scan reports: the start value or some vertex's. */
  predicate Attained(value: real, start: real, vs: seq<Vec3>, a: Axis) {
    value == start || exists i :: 0 <= i < |vs| && value == vs[i].Get(a)
  }

  /** The corners are tight: each corner coordinate is the start value or
      the coordinate of a vertex, so with coordinates inside the float range
      it is the exact minimum (maximum) over the vertices. */
  lemma {:induction false} CornersAttained(vs: seq<Vec3>, a: Axis)
    ensures Attained(Corners(vs).lo.Get(a), FltMax, vs, a)
    ensures Attained(Corners(vs).hi.Get(a), -FltMax, vs, a)
    decreases |vs|
  {
    if |vs| > 0 {
      var init := vs[..|vs| - 1];
      var n := |vs| - 1;
      CornersAttained(init, a);
      var b := Corners(init);
      assert forall i :: 0 <= i < |init| ==> init[i] == vs[i];
      if Min(vs[n].Get(a), b.lo.Get(a)) != vs[n].Get(a) {
        assert Corners(vs).lo.Get(a) == b.lo.Get(a);
      }
      if Max(vs[n].Get(a), b.hi.Get(a)) != vs[n].Get(a) {
        assert Corners(vs).hi.Get(a) == b.hi.Get(a);
      }
    } else {
      assert Corners(vs).lo == Vec3(FltMax, FltMax, FltMax);
      assert Corners(vs).hi == Vec3(-FltMax, -FltMax, -FltMax);
    }
  }

  /** computeTightFittingBoundingBox over a vertex array: center and
      half-extents of the running corners. For a non-empty vertex set every
      vertex lies in the box and every extent is non-negative. */
  function TightBox(vs: seq<Vec3>): (r: BoundingBox)
    ensures ToAabb(r) == Corners(vs)
    ensures |vs| > 0 ==> forall i :: 0 <= i < |vs| ==> Intersections.InBox(ToAabb(r), vs[i])
    ensures |vs| > 0 ==> r.extents.x >= 0.0 && r.extents.y >= 0.0 && r.extents.z >= 0.0
  {
    var c := Corners(vs);
    assert |vs| > 0 ==> Intersections.InBox(c, vs[0]);
    BoundingBox(Scale(0.5, Add(c.lo, c.hi)), Scale(0.5, Sub(c.hi, c.lo)))
  }

  // ---------------------------------------------------------------------
  // Partition
  // ---------------------------------------------------------------------

  /** A triangle goes to the left child when it reaches below the plane. */
  predicate GoesLeft(m: Mesh, axis: Axis, plane: real, t: nat) {
    MinTriValue(m, t, axis) < plane
  }

  /** A triangle goes to the right child when it reaches the plane or beyond. */
  predicate GoesRight(m: Mesh, axis: Axis, plane: real, t: nat) {
    MaxTriValue(m, t, axis) >= plane
  }

  /** A triangle lies on both sides of the plane and is duplicated. */
  predicate Straddles(m: Mesh, axis: Axis, plane: real, t: nat) {
    MinTriValue(m, t, axis) < plane <= MaxTriValue(m, t, axis)
  }

  /** The three predicates as function values, so that every filter and
      count over the same plane uses the very same test. */
  function LeftTest(m: Mesh, axis: Axis, plane: real): nat -> bool {
    (t: nat) => GoesLeft(m, axis, plane, t)
  }

  function RightTest(m: Mesh, axis: Axis, plane: real): nat -> bool {
    (t: nat) => GoesRight(m, axis, plane, t)
  }

  function StraddleTest(m: Mesh, axis: Axis, plane: real): nat -> bool {
    (t: nat) => Straddles(m, axis, plane, t)
  }

  function LeftPart(m: Mesh, tris: seq<nat>, axis: Axis, plane: real): seq<nat> {
    Filter(tris, LeftTest(m, axis, plane))
  }

  function RightPart(m: Mesh, tris: seq<nat>, axis: Axis, plane: real): seq<nat> {
    Filter(tris, RightTest(m, axis, plane))
  }

  function StraddlePart(m: Mesh, tris: seq<nat>, axis: Axis, plane: real): seq<nat> {
    Filter(tris, StraddleTest(m, axis, plane))
  }

  /** Every triangle lands in at least one child; the two children hold as
      many entries as the parent plus one per straddling triangle, so they
      hold exactly as many as the parent iff nothing straddles. */
  lemma PartitionCounts(m: Mesh, tris: seq<nat>, axis: Axis, plane: real)
    ensures forall i :: 0 <= i < |tris| ==>
              tris[i] in LeftPart(m, tris, axis, plane) || tris[i] in RightPart(m, tris, axis, plane)
    ensures |LeftPart(m, tris, axis, plane)| + |RightPart(m, tris, axis, plane)|
            == |tris| + |StraddlePart(m, tris, axis, plane)|
    ensures |LeftPart(m, tris, axis, plane)| + |RightPart(m, tris, axis, plane)| >= |tris|
    ensures |LeftPart(m, tris, axis, plane)| + |RightPart(m, tris, axis, plane)| == |tris|
            <==> forall i :: 0 <= i < |tris| ==> !Straddles(m, axis, plane, tris[i])
  {
    forall t: nat
      ensures GoesLeft(m, axis, plane, t) || GoesRight(m, axis, plane, t)
    {
      MinTriBelowMax(m, t, axis);
    }
    FilterCover(tris, LeftTest(m, axis, plane), RightTest(m, axis, plane), StraddleTest(m, axis, plane));
    FilterMembers(tris, LeftTest(m, axis, plane));
    FilterMembers(tris, RightTest(m, axis, plane));
    FilterMembers(tris, StraddleTest(m, axis, plane));
    var st := StraddlePart(m, tris, axis, plane);
    if |st| == 0 {
      assert forall i :: 0 <= i < |tris| ==> !Straddles(m, axis, plane, tris[i]);
    } else {
      assert Straddles(m, axis, plane, st[0]) && st[0] in tris;
    }
  }

  /** Together the two children hold exactly the parent's triangles. */
  lemma PartsCover(m: Mesh, tris: seq<nat>, axis: Axis, plane: real)
    ensures Elems(LeftPart(m, tris, axis, plane)) + Elems(RightPart(m, tris, axis, plane)) == Elems(tris)
  {
    PartitionCounts(m, tris, axis, plane);
    FilterMembers(tris, LeftTest(m, axis, plane));
    FilterMembers(tris, RightTest(m, axis, plane));
    var lt := LeftPart(m, tris, axis, plane);
    var rt := RightPart(m, tris, axis, plane);
    forall t | t in tris
      ensures t in lt || t in rt
    {
      var i :| 0 <= i < |tris| && tris[i] == t;
    }
    forall t | t in lt
      ensures t in tris
    {
      var i :| 0 <= i < |lt| && lt[i] == t;
    }
    forall t | t in rt
      ensures t in tris
    {
      var i :| 0 <= i < |rt| && rt[i] == t;
    }
  }

  /** Marker of the temporary buffers for an index that is not kept. */
  const Dropped: int := -1

  /** First pass of the source's partition: each index, or the marker -1
      where the test rejects it, into a temporary buffer. */
  method MarkPass(tris: seq<nat>, test: nat -> bool) returns (temp: seq<int>)
    ensures |temp| == |tris|
    ensures forall k :: 0 <= k < |tris| ==> temp[k] == if test(tris[k]) then tris[k] else Dropped
  {
    temp := [];
    var i := 0;
    while i < |tris|
      invariant 0 <= i <= |tris| && |temp| == i
      invariant forall k :: 0 <= k < i ==> temp[k] == if test(tris[k]) then tris[k] else Dropped
    {
      temp := temp + [if test(tris[i]) then tris[i] else Dropped];
      i := i + 1;
    }
  }

  /** Second pass: copy the entries other than the marker out in order.
      Indices are non-negative, so the marker never hides a kept index and
      the result is exactly the filter. */
  method CompactPass(tris: seq<nat>, test: nat -> bool, temp: seq<int>) returns (kept: seq<nat>)
    requires |temp| == |tris|
    requires forall k :: 0 <= k < |tris| ==> temp[k] == if test(tris[k]) then tris[k] else Dropped
    ensures kept == Filter(tris, test)
  {
    kept := [];
    var i := 0;
    while i < |tris|
      invariant 0 <= i <= |tris|
      invariant kept == Filter(tris[..i], test)
    {
      assert tris[..i + 1] == tris[..i] + [tris[i]];
      FilterAppend(tris[..i], [tris[i]], test);
      FilterSingleton(tris[i], test);
      if temp[i] != Dropped {
        kept := kept + [temp[i]];
      }
      i := i + 1;
    }
    assert tris[..|tris|] == tris;
  }

  /** The partition as the source performs it, a marking pass and a
      compacting pass per side. It yields the two filtered lists. */
  method Partition(m: Mesh, tris: seq<nat>, axis: Axis, plane: real) returns (left: seq<nat>, right: seq<nat>)
    ensures left == LeftPart(m, tris, axis, plane)
    ensures right == RightPart(m, tris, axis, plane)
  {
    var tempLeft := MarkPass(tris, LeftTest(m, axis, plane));
    var tempRight := MarkPass(tris, RightTest(m, axis, plane));
    left := CompactPass(tris, LeftTest(m, axis, plane), tempLeft);
    right := CompactPass(tris, RightTest(m, axis, plane), tempRight);
  }

  // ---------------------------------------------------------------------
  // Surface area heuristic
  // ---------------------------------------------------------------------

  /** A splitting plane: an axis and a coordinate on it. */
  datatype Split = Split(axis: Axis, plane: real)

  function AxisOfRank(k: nat): Axis {
    if k == 0 then X else if k == 1 then Y else Z
  }

  /** The surface area of a box with the given half-extents. */
  function Area(e: Vec3): real {
    8.0 * (e.x * e.y + e.y * e.z + e.x * e.z)
  }

  /** Candidate `j` of the scan: axes X, Y, Z in turn, and on each the planes
      at k/50 of the box's length, k = 1 .. 49. */
  function Candidate(b: BoundingBox, j: nat): Split
    requires j < 3 * PlanesPerAxis
  {
    var axis := AxisOfRank(j / PlanesPerAxis);
    var k := j % PlanesPerAxis + 1;
    var lo := b.Lo(axis);
    Split(axis, lo + (b.Hi(axis) - lo) * (k as real / 50.0))
  }

  /** Candidates lie strictly inside the box on their axis (or on the single
      plane of a flat box), and the scan visits X, then Y, then Z. */
  lemma CandidateInside(b: BoundingBox, j: nat)
    requires j < 3 * PlanesPerAxis
    ensures var s := Candidate(b, j);
            s.axis == AxisOfRank(j / PlanesPerAxis) &&
            (b.Lo(s.axis) <= b.Hi(s.axis) ==> b.Lo(s.axis) < s.plane < b.Hi(s.axis) || b.Lo(s.axis) == s.plane == b.Hi(s.axis))
  {
    var axis := AxisOfRank(j / PlanesPerAxis);
    var k := j % PlanesPerAxis + 1;
    var lo := b.Lo(axis);
    var len := b.Hi(axis) - lo;
    var frac := k as real / 50.0;
    assert 1 <= k <= 49;
    assert 0.0 < frac < 1.0;
    assert Candidate(b, j).plane == lo + len * frac;
    FractionInside(lo, len, frac);
  }

  lemma FractionInside(lo: real, len: real, frac: real)
    requires 0.0 < frac < 1.0
    ensures len >= 0.0 ==> lo < lo + len * frac < lo + len || lo == lo + len * frac == lo + len
  {
    if len > 0.0 {
      assert len * frac < len * 1.0;
    }
  }

  /** SAH cost of a split: 5 + 2000 * (area_L * N_L + area_R * N_R), where
      the child boxes take the parent box cut at the plane and N_L, N_R count
      with the partition's own predicates. */
  function Cost(m: Mesh, tris: seq<nat>, b: BoundingBox, s: Split): real {
    var lo := b.Lo(s.axis);
    var hi := b.Hi(s.axis);
    var left := b.extents.With(s.axis, (s.plane - lo) * 0.5);
    var right := b.extents.With(s.axis, (hi - s.plane) * 0.5);
    var nl := Count(tris, LeftTest(m, s.axis, s.plane));
    var nr := Count(tris, RightTest(m, s.axis, s.plane));
    CostTraversal + Area(left) * (nl as real) * CostIntersect + Area(right) * (nr as real) * CostIntersect
  }

  /** The counting loop of the cost scan counts exactly the triangles the
      partition at the same plane sends to each side. */
  lemma CostCountsArePartSizes(m: Mesh, tris: seq<nat>, axis: Axis, plane: real)
    ensures Count(tris, LeftTest(m, axis, plane)) == |LeftPart(m, tris, axis, plane)|
    ensures Count(tris, RightTest(m, axis, plane)) == |RightPart(m, tris, axis, plane)|
  {
    CountIsFilterLength(tris, LeftTest(m, axis, plane));
    CountIsFilterLength(tris, RightTest(m, axis, plane));
  }

  /** The costs of all candidates, in scan order. */
  function Costs(m: Mesh, tris: seq<nat>, b: BoundingBox): (cs: seq<real>)
    ensures |cs| == 3 * PlanesPerAxis
    ensures forall j :: 0 <= j < |cs| ==> cs[j] == Cost(m, tris, b, Candidate(b, j))
  {
    seq(3 * PlanesPerAxis, j requires 0 <= j < 3 * PlanesPerAxis => Cost(m, tris, b, Candidate(b, j)))
  }

  /** The scan for the cheapest entry with the strict `<` of the source,
      starting from the bound: None when no entry is below the bound,
      otherwise the first entry of least cost. */
  function FirstCheapest(cs: seq<real>, bound: real): (r: Option<nat>)
    ensures r.None? <==> forall i :: 0 <= i < |cs| ==> cs[i] >= bound
    ensures r.Some? ==> r.value < |cs| && cs[r.value] < bound
    ensures r.Some? ==> forall i :: 0 <= i < |cs| ==> cs[r.value] <= cs[i]
    ensures r.Some? ==> forall i :: 0 <= i < r.value ==> cs[r.value] < cs[i]
  {
    if |cs| == 0 then None
    else
      var init := cs[..|cs| - 1];
      var p := FirstCheapest(init, bound);
      assert forall i :: 0 <= i < |init| ==> init[i] == cs[i];
      var best := if p.None? then bound else init[p.value];
      if cs[|cs| - 1] < best then Some(|cs| - 1) else p
  }

  /** The SAH choice: the first cheapest candidate, or the longest side with
      plane 0 when no candidate costs less than FLT_MAX. */
  function ChooseSplit(m: Mesh, tris: seq<nat>, b: BoundingBox): Split {
    match FirstCheapest(Costs(m, tris, b), FltMax)
    case None => Split(LongestSide(b.extents), 0.0)
    case Some(j) => Candidate(b, j)
  }

  /** The chosen split is the default exactly when no candidate costs less
      than FLT_MAX; otherwise it is a candidate of least cost, and every
      earlier candidate in the scan costs strictly more. */
  lemma ChooseSplitIsFirstCheapest(m: Mesh, tris: seq<nat>, b: BoundingBox)
    ensures var cs := Costs(m, tris, b);
            (forall j :: 0 <= j < |cs| ==> cs[j] >= FltMax) ==> ChooseSplit(m, tris, b) == Split(LongestSide(b.extents), 0.0)
    ensures var cs := Costs(m, tris, b);
            (exists j :: 0 <= j < |cs| && cs[j] < FltMax) ==>
              exists j :: 0 <= j < |cs| && ChooseSplit(m, tris, b) == Candidate(b, j) && cs[j] < FltMax
                          && (forall i :: 0 <= i < |cs| ==> cs[j] <= cs[i])
                          && (forall i :: 0 <= i < j ==> cs[j] < cs[i])
  {
    var cs := Costs(m, tris, b);
    var r := FirstCheapest(cs, FltMax);
    if r.Some? {
      assert ChooseSplit(m, tris, b) == Candidate(b, r.value);
    } else {
      assert ChooseSplit(m, tris, b) == Split(LongestSide(b.extents), 0.0);
    }
  }

  /** The child boxes: on the split axis the left box spans [lo, plane] and
      the right box [plane, hi]; the other axes are the parent's. */
  function ChildBoxes(b: BoundingBox, s: Split): (r: (BoundingBox, BoundingBox))
    ensures r.0.Lo(s.axis) == b.Lo(s.axis) && r.0.Hi(s.axis) == s.plane
    ensures r.1.Lo(s.axis) == s.plane && r.1.Hi(s.axis) == b.Hi(s.axis)
    ensures forall a :: a != s.axis ==>
              r.0.center.Get(a) == b.center.Get(a) && r.0.extents.Get(a) == b.extents.Get(a) &&
              r.1.center.Get(a) == b.center.Get(a) && r.1.extents.Get(a) == b.extents.Get(a)
  {
    var lo := b.Lo(s.axis);
    var hi := b.Hi(s.axis);
    var leftExtend := (s.plane - lo) * 0.5;
    var rightExtend := (hi - s.plane) * 0.5;
    (BoundingBox(b.center.With(s.axis, s.plane - leftExtend), b.extents.With(s.axis, leftExtend)),
     BoundingBox(b.center.With(s.axis, s.plane + rightExtend), b.extents.With(s.axis, rightExtend)))
  }

  // ---------------------------------------------------------------------
  // The tree and its build
  // ---------------------------------------------------------------------

  datatype Node =
    | Leaf(box: BoundingBox, tris: seq<nat>, id: int)
    | Inner(box: BoundingBox, split: Split, left: Node, right: Node, id: int)

  /** num_levels, num_leaves and num_nodes of the tree under construction. */
  datatype Counters = Counters(levels: nat, leaves: nat, nodes: nat)

  function Size(n: Node): nat {
    match n
    case Leaf(_, _, _) => 1
    case Inner(_, _, l, r, _) => Size(l) + Size(r) + 1
  }

  function LeafCount(n: Node): nat {
    match n
    case Leaf(_, _, _) => 1
    case Inner(_, _, l, r, _) => LeafCount(l) + LeafCount(r)
  }

  function Larger(a: int, b: int): int {
    if a > b then a else b
  }

  /** The level counter after both children of an inner node at `depth`. */
  lemma LevelsOfChildren(a: int, depth: int, n: Node)
    requires n.Inner?
    ensures Larger(Larger(a, DeepestLevel(depth + 1, n.left)), DeepestLevel(depth + 1, n.right)) == Larger(a, DeepestLevel(depth, n))
  {
    assert Height(n) == 1 + Larger(Height(n.left), Height(n.right));
  }

  /** Levels below and including `n`: 1 for a leaf. */
  function Height(n: Node): (h: nat)
    ensures h >= 1
  {
    match n
    case Leaf(_, _, _) => 1
    case Inner(_, _, l, r, _) => 1 + Larger(Height(l), Height(r))
  }

  /** The deepest level a subtree rooted at level `depth` reaches. */
  function DeepestLevel(depth: int, n: Node): int {
    depth + Height(n) - 1
  }

  /** Node ids in post-order: left subtree, right subtree, then the node. */
  function PostOrder(n: Node): seq<int> {
    match n
    case Leaf(_, _, id) => [id]
    case Inner(_, _, l, r, id) => PostOrder(l) + PostOrder(r) + [id]
  }

  /** The triangle indices listed in a leaf. */
  function Elems(tris: seq<nat>): set<nat> {
    set i | i in tris
  }

  /** The triangle indices stored in the leaves below `n`. */
  function LeafTris(n: Node): set<nat> {
    match n
    case Leaf(_, tris, _) => Elems(tris)
    case Inner(_, _, l, r, _) => LeafTris(l) + LeafTris(r)
  }

  /** Each inner node's children carry the parent's box cut at its plane. */
  predicate BoxesNest(n: Node) {
    match n
    case Leaf(_, _, _) => true
    case Inner(box, s, l, r, _) =>
      (l.box, r.box) == ChildBoxes(box, s) && BoxesNest(l) && BoxesNest(r)
  }

  /** A binary tree with leaves at the ends has one inner node fewer than leaves. */
  lemma {:induction false} SizeOfFullTree(n: Node)
    ensures Size(n) == 2 * LeafCount(n) - 1
  {
    match n
    case Leaf(_, _, _) =>
    case Inner(_, _, l, r, _) =>
      SizeOfFullTree(l);
      SizeOfFullTree(r);
  }

  predicate IsLeafCase(tris: seq<nat>, depth: nat) {
    |tris| <= TrisPerNode || depth >= MaxDepth
  }

  datatype Built = Built(node: Node, counters: Counters)

  /** The plane selection a build uses, given a node's triangles and box. */
  type Chooser = (seq<nat>, BoundingBox) -> Split

  /** The selection of the source: the SAH choice over the node's box. */
  function Sah(m: Mesh): Chooser {
    (tris: seq<nat>, box: BoundingBox) => ChooseSplit(m, tris, box)
  }

  /** What an inner node passes to its children: the chosen plane, the two
      triangle lists and the two child boxes. */
  datatype Plan = Plan(split: Split, left: seq<nat>, right: seq<nat>, leftBox: BoundingBox, rightBox: BoundingBox)

  function PlanOf(m: Mesh, choose: Chooser, tris: seq<nat>, box: BoundingBox): Plan {
    var s := choose(tris, box);
    var boxes := ChildBoxes(box, s);
    Plan(s, LeftPart(m, tris, s.axis, s.plane), RightPart(m, tris, s.axis, s.plane), boxes.0, boxes.1)
  }

  /** constructTreeMedianSpaceSplit in loose-box mode: the node keeps the
      passed box; a node with few triangles or at the depth limit is a leaf,
      otherwise the triangles are split at the chosen plane, straddlers going
      to both sides, and the two children are built left first. Ids are the
      running node count at the moment a node is finished. */
  function Build(m: Mesh, choose: Chooser, tris: seq<nat>, box: BoundingBox, depth: nat, c: Counters): (r: Built)
    ensures r.node.box == box
    ensures r.node.Leaf? <==> IsLeafCase(tris, depth)
    ensures r.node.Leaf? ==> r.node.tris == tris
    decreases MaxDepth - depth
  {
    if IsLeafCase(tris, depth) then
      Built(Leaf(box, tris, c.nodes),
            Counters(if depth > c.levels then depth else c.levels, c.leaves + 1, c.nodes + 1))
    else
      var p := PlanOf(m, choose, tris, box);
      var l := Build(m, choose, p.left, p.leftBox, depth + 1, c);
      var r := Build(m, choose, p.right, p.rightBox, depth + 1, l.counters);
      var id := r.counters.nodes;
      Built(Inner(box, p.split, l.node, r.node, id), Counters(r.counters.levels, r.counters.leaves, id + 1))
  }

  /** The left child of an inner node, built from the counters on entry. */
  function LeftBuild(m: Mesh, choose: Chooser, tris: seq<nat>, box: BoundingBox, depth: nat, c: Counters): Built {
    var p := PlanOf(m, choose, tris, box);
    Build(m, choose, p.left, p.leftBox, depth + 1, c)
  }

  /** The right child of an inner node, built from the left child's counters. */
  function RightBuild(m: Mesh, choose: Chooser, tris: seq<nat>, box: BoundingBox, depth: nat, c: Counters): Built {
    var p := PlanOf(m, choose, tris, box);
    Build(m, choose, p.right, p.rightBox, depth + 1, LeftBuild(m, choose, tris, box, depth, c).counters)
  }

  /** A leaf build: the leaf takes the current count as its id. */
  lemma BuildLeafShape(m: Mesh, choose: Chooser, tris: seq<nat>, box: BoundingBox, depth: nat, c: Counters)
    requires IsLeafCase(tris, depth)
    ensures Build(m, choose, tris, box, depth, c)
            == Built(Leaf(box, tris, c.nodes), Counters(Larger(c.levels, depth), c.leaves + 1, c.nodes + 1))
  {
  }

  /** An inner build: the node joins its two children and takes the count
      after them as its id. */
  lemma BuildInnerShape(m: Mesh, choose: Chooser, tris: seq<nat>, box: BoundingBox, depth: nat, c: Counters)
    requires !IsLeafCase(tris, depth)
    ensures var l := LeftBuild(m, choose, tris, box, depth, c);
            var r := RightBuild(m, choose, tris, box, depth, c);
            Build(m, choose, tris, box, depth, c)
            == Built(Inner(box, PlanOf(m, choose, tris, box).split, l.node, r.node, r.counters.nodes),
                     Counters(r.counters.levels, r.counters.leaves, r.counters.nodes + 1))
  {
  }

  /** The node and leaf counters advance by the subtree's node and leaf
      counts, and the subtree's root takes the last id handed out. */
  lemma {:induction false} BuildCounts(m: Mesh, choose: Chooser, tris: seq<nat>, box: BoundingBox, depth: nat, c: Counters)
    ensures var r := Build(m, choose, tris, box, depth, c);
            r.counters.nodes == c.nodes + Size(r.node) && r.counters.leaves == c.leaves + LeafCount(r.node)
            && r.node.id == r.counters.nodes - 1
    decreases MaxDepth - depth
  {
    if IsLeafCase(tris, depth) {
      BuildLeafShape(m, choose, tris, box, depth, c);
    } else {
      var p := PlanOf(m, choose, tris, box);
      var l := LeftBuild(m, choose, tris, box, depth, c);
      BuildInnerShape(m, choose, tris, box, depth, c);
      BuildCounts(m, choose, p.left, p.leftBox, depth + 1, c);
      BuildCounts(m, choose, p.right, p.rightBox, depth + 1, l.counters);
    }
  }

  /** num_levels ends as the deepest level reached so far. */
  lemma {:induction false} BuildLevels(m: Mesh, choose: Chooser, tris: seq<nat>, box: BoundingBox, depth: nat, c: Counters)
    ensures var r := Build(m, choose, tris, box, depth, c);
            r.counters.levels == Larger(c.levels, DeepestLevel(depth, r.node))
    decreases MaxDepth - depth
  {
    if IsLeafCase(tris, depth) {
      BuildLeafShape(m, choose, tris, box, depth, c);
    } else {
      var p := PlanOf(m, choose, tris, box);
      var l := LeftBuild(m, choose, tris, box, depth, c);
      BuildInnerShape(m, choose, tris, box, depth, c);
      BuildLevels(m, choose, p.left, p.leftBox, depth + 1, c);
      BuildLevels(m, choose, p.right, p.rightBox, depth + 1, l.counters);
      LevelsOfChildren(c.levels, depth, Build(m, choose, tris, box, depth, c).node);
    }
  }

  /** A build started within the depth limit stays within it. */
  lemma {:induction false} BuildDepth(m: Mesh, choose: Chooser, tris: seq<nat>, box: BoundingBox, depth: nat, c: Counters)
    requires depth <= MaxDepth
    ensures WithinLimit(depth, Build(m, choose, tris, box, depth, c).node)
    decreases MaxDepth - depth
  {
    if IsLeafCase(tris, depth) {
      BuildLeafShape(m, choose, tris, box, depth, c);
    } else {
      var p := PlanOf(m, choose, tris, box);
      var l := LeftBuild(m, choose, tris, box, depth, c);
      BuildInnerShape(m, choose, tris, box, depth, c);
      BuildDepth(m, choose, p.left, p.leftBox, depth + 1, c);
      BuildDepth(m, choose, p.right, p.rightBox, depth + 1, l.counters);
      DepthOfChildren(depth, Build(m, choose, tris, box, depth, c).node);
    }
  }

  /** A subtree rooted at level `depth` reaches no deeper than MAX_DEPTH. */
  predicate WithinLimit(depth: int, n: Node) {
    DeepestLevel(depth, n) <= MaxDepth
  }

  lemma DepthOfChildren(depth: int, n: Node)
    requires n.Inner? && WithinLimit(depth + 1, n.left) && WithinLimit(depth + 1, n.right)
    ensures WithinLimit(depth, n)
  {
    assert Height(n) == 1 + Larger(Height(n.left), Height(n.right));
  }

  /** Ids are handed out in post-order: the ids of the subtree are the
      consecutive values from the node count before the build to the count
      after it, so they are distinct. */
  lemma {:induction false} BuildPostOrder(m: Mesh, choose: Chooser, tris: seq<nat>, box: BoundingBox, depth: nat, c: Counters)
    ensures var r := Build(m, choose, tris, box, depth, c);
            c.nodes <= r.counters.nodes && PostOrder(r.node) == Range(c.nodes, r.counters.nodes)
    decreases MaxDepth - depth
  {
    BuildCounts(m, choose, tris, box, depth, c);
    if IsLeafCase(tris, depth) {
      BuildLeafShape(m, choose, tris, box, depth, c);
      RangeSingleton(c.nodes);
    } else {
      var p := PlanOf(m, choose, tris, box);
      var l := LeftBuild(m, choose, tris, box, depth, c);
      var r := RightBuild(m, choose, tris, box, depth, c);
      BuildInnerShape(m, choose, tris, box, depth, c);
      BuildPostOrder(m, choose, p.left, p.leftBox, depth + 1, c);
      BuildPostOrder(m, choose, p.right, p.rightBox, depth + 1, l.counters);
      BuildCounts(m, choose, p.left, p.leftBox, depth + 1, c);
      BuildCounts(m, choose, p.right, p.rightBox, depth + 1, l.counters);
      RangeThenNext(c.nodes, l.counters.nodes, r.counters.nodes, PostOrder(l.node), PostOrder(r.node));
    }
  }

  /** Every triangle of the node's list ends up in some leaf below it, and
      leaves hold no other triangles. */
  lemma {:induction false} BuildKeepsTriangles(m: Mesh, choose: Chooser, tris: seq<nat>, box: BoundingBox, depth: nat, c: Counters)
    ensures LeafTris(Build(m, choose, tris, box, depth, c).node) == Elems(tris)
    decreases MaxDepth - depth
  {
    if IsLeafCase(tris, depth) {
      BuildLeafShape(m, choose, tris, box, depth, c);
    } else {
      var p := PlanOf(m, choose, tris, box);
      var l := LeftBuild(m, choose, tris, box, depth, c);
      BuildInnerShape(m, choose, tris, box, depth, c);
      BuildKeepsTriangles(m, choose, p.left, p.leftBox, depth + 1, c);
      BuildKeepsTriangles(m, choose, p.right, p.rightBox, depth + 1, l.counters);
      PartsCover(m, tris, p.split.axis, p.split.plane);
    }
  }

  /** Every inner node's children carry its box cut at its plane. */
  lemma {:induction false} BuildNestsBoxes(m: Mesh, choose: Chooser, tris: seq<nat>, box: BoundingBox, depth: nat, c: Counters)
    ensures BoxesNest(Build(m, choose, tris, box, depth, c).node)
    decreases MaxDepth - depth
  {
    if IsLeafCase(tris, depth) {
      BuildLeafShape(m, choose, tris, box, depth, c);
    } else {
      var p := PlanOf(m, choose, tris, box);
      var l := LeftBuild(m, choose, tris, box, depth, c);
      BuildInnerShape(m, choose, tris, box, depth, c);
      BuildNestsBoxes(m, choose, p.left, p.leftBox, depth + 1, c);
      BuildNestsBoxes(m, choose, p.right, p.rightBox, depth + 1, l.counters);
    }
  }

  /** The built tree together with its counters. */
  datatype KdTree = KdTree(mesh: Mesh, root: Node, levels: nat, leaves: nat, nodes: nat)

  /** The triangle index list 0, 1, ..., n-1. */
  function Indices(n: nat): (r: seq<nat>)
    ensures |r| == n && forall i :: 0 <= i < n ==> r[i] == i
  {
    seq(n, i requires 0 <= i < n => i as nat)
  }

  lemma IndicesMembers(n: nat)
    ensures forall t: nat :: t in Indices(n) <==> t < n
  {
    forall t: nat | t < n
      ensures t in Indices(n)
    {
      assert Indices(n)[t] == t;
    }
  }

  /** The constructor: indices 0 .. n-1, the tight box of all vertices, the
      build from depth 1 with zeroed counters, with the source's SAH plane
      selection. */
  function Construct(m: Mesh): KdTree {
    ConstructWith(m, Sah(m))
  }

  /** The constructor for any plane selection: the root keeps the tight box
      of the mesh, num_levels is the tree's height and at most 40, and the
      node and leaf counters count the tree, which is full. */
  function ConstructWith(m: Mesh, choose: Chooser): (tree: KdTree)
    ensures tree.root == Build(m, choose, Indices(|m.tris|), TightBox(m.verts), 1, Counters(0, 0, 0)).node
    ensures tree.root.box == TightBox(m.verts)
    ensures 1 <= tree.levels <= MaxDepth
    ensures tree.levels == Height(tree.root)
    ensures tree.nodes == Size(tree.root) && tree.leaves == LeafCount(tree.root)
    ensures tree.nodes == 2 * tree.leaves - 1
    ensures tree.root.id == tree.nodes - 1
  {
    var r := Build(m, choose, Indices(|m.tris|), TightBox(m.verts), 1, Counters(0, 0, 0));
    BuildCounts(m, choose, Indices(|m.tris|), TightBox(m.verts), 1, Counters(0, 0, 0));
    BuildLevels(m, choose, Indices(|m.tris|), TightBox(m.verts), 1, Counters(0, 0, 0));
    BuildDepth(m, choose, Indices(|m.tris|), TightBox(m.verts), 1, Counters(0, 0, 0));
    SizeOfFullTree(r.node);
    KdTree(m, r.node, r.counters.levels, r.counters.leaves, r.counters.nodes)
  }

  /** The ids of the constructed tree are 0 .. nodes-1 in post-order, each
      id used once. */
  lemma ConstructPostOrder(m: Mesh, choose: Chooser)
    ensures var tree := ConstructWith(m, choose);
            PostOrder(tree.root) == Range(0, tree.nodes)
    ensures var tree := ConstructWith(m, choose);
            forall id :: id in PostOrder(tree.root) <==> 0 <= id < tree.nodes
  {
    BuildPostOrder(m, choose, Indices(|m.tris|), TightBox(m.verts), 1, Counters(0, 0, 0));
    RangeMembers(0, ConstructWith(m, choose).nodes);
  }

  /** `s` is exactly {0, ..., n-1}. */
  ghost predicate IsIndexRange(s: set<nat>, n: nat) {
    forall t: nat :: t in s <==> t < n
  }

  /** The leaves of the constructed tree hold exactly the mesh's triangles. */
  lemma ConstructKeepsTriangles(m: Mesh, choose: Chooser)
    ensures IsIndexRange(LeafTris(ConstructWith(m, choose).root), |m.tris|)
  {
    BuildOfIndices(m, choose);
  }

  lemma BuildOfIndices(m: Mesh, choose: Chooser)
    ensures IsIndexRange(LeafTris(Build(m, choose, Indices(|m.tris|), TightBox(m.verts), 1, Counters(0, 0, 0)).node), |m.tris|)
  {
    var root := Build(m, choose, Indices(|m.tris|), TightBox(m.verts), 1, Counters(0, 0, 0)).node;
    BuildKeepsTriangles(m, choose, Indices(|m.tris|), TightBox(m.verts), 1, Counters(0, 0, 0));
    LeavesOfIndices(root, |m.tris|);
  }

  lemma LeavesOfIndices(root: Node, n: nat)
    requires LeafTris(root) == Elems(Indices(n))
    ensures IsIndexRange(LeafTris(root), n)
  {
    IndicesMembers(n);
  }

  /** A mesh of at most ten triangles, the empty one included, is a single
      leaf root. */
  lemma ConstructSmallMesh(m: Mesh, choose: Chooser)
    ensures var tree := ConstructWith(m, choose);
            |m.tris| <= TrisPerNode ==> tree.root == Leaf(TightBox(m.verts), Indices(|m.tris|), 0)
    ensures |m.tris| == 0 ==> ConstructWith(m, choose).nodes == 1 && ConstructWith(m, choose).leaves == 1
  {
  }
}

=== FILE: kdcoverage.dfy ===
/** The traversal over a constructed tree, with the slab test as the box test
    and Moeller-Trumbore on the mesh as the triangle test. Following a hit
    point down the split planes gives every hit triangle a path the slab test
    lets through, so both traversals end on the nearest hit of the mesh even
    though straddling triangles sit in leaves whose boxes the ray may miss. */
module KdCoverage {
  import opened Geometry
  import opened KdBuild
  import opened KdTraversal
  import Seqs
  import Intersections

  /** Every triangle of the mesh names three existing vertices; the source
      reads out of bounds otherwise. */
  predicate ValidMesh(m: Mesh) {
    forall t :: 0 <= t < |m.tris| ==>
      m.tris[t].a < |m.verts| && m.tris[t].b < |m.verts| && m.tris[t].c < |m.verts|
  }

  /** The traversal's box test: the slab test on the node's box with the
      reciprocal direction, reporting tmin as dist_aabb_near. */
  function SlabBoxTest(o: Vec3, d: Vec3): BoxTest
    requires Intersections.NonZeroDir(d)
  {
    (b: BoundingBox) =>
      var a := ToAabb(b);
      BoxHit(Intersections.AabbIntersect(a, o, d), Intersections.NearDistance(a, o, Intersections.Reciprocal(d)))
  }

  /** A point lies within triangle t's extent on every axis. */
  predicate WithinExtent(m: Mesh, t: nat, p: Vec3) {
    forall a: Axis :: MinTriValue(m, t, a) <= p.Get(a) <= MaxTriValue(m, t, a)
  }

  // ---------------------------------------------------------------------
  // Boxes along the path
  // ---------------------------------------------------------------------

  /** A box holding the ray's point at distance t >= 0 passes the slab test
      with tmin at most t. */
  lemma SlabPasses(b: BoundingBox, o: Vec3, d: Vec3, t: real)
    requires Intersections.NonZeroDir(d) && t >= 0.0
    requires Intersections.InBox(ToAabb(b), At(o, d, t))
    ensures SlabBoxTest(o, d)(b).hit && SlabBoxTest(o, d)(b).near <= t
  {
    var a := ToAabb(b);
    assert Intersections.WellFormed(a);
    Intersections.SlabsAgree(a, o, d, Intersections.Reciprocal(d), t);
    assert Intersections.RayHitsBox(a, o, d);
  }

  /** Cutting a box at a plane: a point of the box below the plane is in the
      left child's box, a point at or above it in the right child's. */
  lemma ChildBoxesContain(b: BoundingBox, s: Split, p: Vec3)
    requires Intersections.InBox(ToAabb(b), p)
    ensures p.Get(s.axis) < s.plane ==> Intersections.InBox(ToAabb(ChildBoxes(b, s).0), p)
    ensures p.Get(s.axis) >= s.plane ==> Intersections.InBox(ToAabb(ChildBoxes(b, s).1), p)
  {
    var kids := ChildBoxes(b, s);
    var pa := ToAabb(b);
    var la := ToAabb(kids.0);
    var ra := ToAabb(kids.1);
    Intersections.InBoxGet(pa, p);
    forall a: Axis
      ensures p.Get(s.axis) < s.plane ==> Intersections.InSlab(la.lo.Get(a), p.Get(a), la.hi.Get(a))
      ensures p.Get(s.axis) >= s.plane ==> Intersections.InSlab(ra.lo.Get(a), p.Get(a), ra.hi.Get(a))
    {
      assert Intersections.InSlab(pa.lo.Get(a), p.Get(a), pa.hi.Get(a));
    }
    Intersections.InBoxGet(la, p);
    Intersections.InBoxGet(ra, p);
  }

  /** Following the split planes from a node whose box holds the ray's point
      at distance t, a triangle of the node whose extent holds that point is
      reached along a path that passes the slab test with tmin at most t:
      below the plane the point and the triangle both go left, otherwise
      both go right. */
  lemma {:induction false} BuildHasPath(m: Mesh, choose: Chooser, tris: seq<nat>, box: BoundingBox, depth: nat,
                                         c: Counters, o: Vec3, d: Vec3, t: real, i: nat)
    requires Intersections.NonZeroDir(d) && t >= 0.0 && i in tris
    requires Intersections.InBox(ToAabb(box), At(o, d, t))
    requires WithinExtent(m, i, At(o, d, t))
    ensures PathTo(Build(m, choose, tris, box, depth, c).node, i, t, SlabBoxTest(o, d))
    decreases MaxDepth - depth
  {
    var pt := At(o, d, t);
    SlabPasses(box, o, d, t);
    if IsLeafCase(tris, depth) {
      BuildLeafShape(m, choose, tris, box, depth, c);
    } else {
      var p := PlanOf(m, choose, tris, box);
      var ax := p.split.axis;
      var plane := p.split.plane;
      BuildInnerShape(m, choose, tris, box, depth, c);
      ChildBoxesContain(box, p.split, pt);
      var k :| 0 <= k < |tris| && tris[k] == i;
      if pt.Get(ax) < plane {
        assert GoesLeft(m, ax, plane, i);
        Seqs.FilterMembers(tris, LeftTest(m, ax, plane));
        assert i in p.left;
        BuildHasPath(m, choose, p.left, p.leftBox, depth + 1, c, o, d, t, i);
      } else {
        assert GoesRight(m, ax, plane, i);
        Seqs.FilterMembers(tris, RightTest(m, ax, plane));
        assert i in p.right;
        var l := LeftBuild(m, choose, tris, box, depth, c);
        BuildHasPath(m, choose, p.right, p.rightBox, depth + 1, l.counters, o, d, t, i);
      }
    }
  }

  // ---------------------------------------------------------------------
  // Hit points
  // ---------------------------------------------------------------------

  /** A convex combination of three values in [lo, hi] stays in [lo, hi]. */
  lemma ConvexBetween(lo: real, hi: real, a: real, b: real, c: real, u: real, v: real)
    requires lo <= a <= hi && lo <= b <= hi && lo <= c <= hi
    requires Intersections.InTriangle(u, v)
    ensures lo <= (1.0 - u - v) * a + u * b + v * c <= hi
  {
    var w := 1.0 - u - v;
    assert w * a + u * b + v * c - lo == w * (a - lo) + u * (b - lo) + v * (c - lo);
    assert hi - (w * a + u * b + v * c) == w * (hi - a) + u * (hi - b) + v * (hi - c);
    Intersections.MulNonNeg(w, a - lo);
    Intersections.MulNonNeg(u, b - lo);
    Intersections.MulNonNeg(v, c - lo);
    Intersections.MulNonNeg(w, hi - a);
    Intersections.MulNonNeg(u, hi - b);
    Intersections.MulNonNeg(v, hi - c);
  }

  /** On one axis, a point of a triangle lies between any bounds of its
      three vertices. */
  lemma BarycentricBetween(v0: Vec3, v1: Vec3, v2: Vec3, u: real, v: real, a: Axis, lo: real, hi: real)
    requires Intersections.InTriangle(u, v)
    requires lo <= v0.Get(a) <= hi && lo <= v1.Get(a) <= hi && lo <= v2.Get(a) <= hi
    ensures lo <= Intersections.Barycentric(v0, v1, v2, u, v).Get(a) <= hi
  {
    Intersections.BarycentricCoordinate(v0, v1, v2, u, v, a);
    ConvexBetween(lo, hi, v0.Get(a), v1.Get(a), v2.Get(a), u, v);
  }

  /** A point of a triangle whose vertices are in a box is in the box. */
  lemma BarycentricInBox(box: Intersections.Aabb, v0: Vec3, v1: Vec3, v2: Vec3, u: real, v: real)
    requires Intersections.InTriangle(u, v)
    requires Intersections.InBox(box, v0) && Intersections.InBox(box, v1) && Intersections.InBox(box, v2)
    ensures Intersections.InBox(box, Intersections.Barycentric(v0, v1, v2, u, v))
  {
    var p := Intersections.Barycentric(v0, v1, v2, u, v);
    Intersections.InBoxGet(box, v0);
    Intersections.InBoxGet(box, v1);
    Intersections.InBoxGet(box, v2);
    forall a: Axis ensures Intersections.InSlab(box.lo.Get(a), p.Get(a), box.hi.Get(a)) {
      assert Intersections.InSlab(box.lo.Get(a), v0.Get(a), box.hi.Get(a));
      assert Intersections.InSlab(box.lo.Get(a), v1.Get(a), box.hi.Get(a));
      assert Intersections.InSlab(box.lo.Get(a), v2.Get(a), box.hi.Get(a));
      BarycentricBetween(v0, v1, v2, u, v, a, box.lo.Get(a), box.hi.Get(a));
    }
    Intersections.InBoxGet(box, p);
  }

  /** A point of triangle t lies within its extent. */
  lemma BarycentricInExtent(m: Mesh, t: nat, u: real, v: real)
    requires Intersections.InTriangle(u, v)
    ensures var tri := Triangle(m, t);
            WithinExtent(m, t, Intersections.Barycentric(Vertex(m, tri.a), Vertex(m, tri.b), Vertex(m, tri.c), u, v))
  {
    var tri := Triangle(m, t);
    var v0, v1, v2 := Vertex(m, tri.a), Vertex(m, tri.b), Vertex(m, tri.c);
    forall a: Axis
      ensures MinTriValue(m, t, a) <= Intersections.Barycentric(v0, v1, v2, u, v).Get(a) <= MaxTriValue(m, t, a)
    {
      BarycentricBetween(v0, v1, v2, u, v, a, MinTriValue(m, t, a), MaxTriValue(m, t, a));
    }
  }

  /** The point a hit reports lies in the triangle's extent and in the tight
      box of the mesh, at a positive distance. */
  lemma HitPointInside(m: Mesh, o: Vec3, d: Vec3, i: nat)
    requires ValidMesh(m) && i < |m.tris| && MeshTriTest(m, o, d)(i).hit
    ensures MeshTriTest(m, o, d)(i).t > 0.0
    ensures WithinExtent(m, i, At(o, d, MeshTriTest(m, o, d)(i).t))
    ensures Intersections.InBox(ToAabb(TightBox(m.verts)), At(o, d, MeshTriTest(m, o, d)(i).t))
  {
    var tri := Triangle(m, i);
    var v0, v1, v2 := Vertex(m, tri.a), Vertex(m, tri.b), Vertex(m, tri.c);
    var r := Intersections.TriIntersect(o, d, v0, v1, v2, FltMax, 0.0, 0.0);
    assert r == MeshTriTest(m, o, d)(i);
    Intersections.HitPointIsBarycentric(o, d, v0, v1, v2, FltMax, 0.0, 0.0);
    assert At(o, d, r.t) == Intersections.Barycentric(v0, v1, v2, r.u, r.v);
    assert Intersections.InTriangle(r.u, r.v);
    BarycentricInExtent(m, i, r.u, r.v);
    assert tri == m.tris[i];
    VerticesInTightBox(m, i);
    BarycentricInBox(ToAabb(TightBox(m.verts)), v0, v1, v2, r.u, r.v);
  }

  /** The three vertices of a triangle of a valid mesh lie in its tight box. */
  lemma VerticesInTightBox(m: Mesh, i: nat)
    requires ValidMesh(m) && i < |m.tris|
    ensures var tri := Triangle(m, i);
            var box := ToAabb(TightBox(m.verts));
            Intersections.InBox(box, Vertex(m, tri.a)) && Intersections.InBox(box, Vertex(m, tri.b))
            && Intersections.InBox(box, Vertex(m, tri.c))
  {
    var tri := m.tris[i];
    assert tri.a < |m.verts| && tri.b < |m.verts| && tri.c < |m.verts|;
    assert Intersections.InBox(ToAabb(TightBox(m.verts)), m.verts[tri.a]);
    assert Intersections.InBox(ToAabb(TightBox(m.verts)), m.verts[tri.b]);
    assert Intersections.InBox(ToAabb(TightBox(m.verts)), m.verts[tri.c]);
  }

  // ---------------------------------------------------------------------
  // The constructed tree
  // ---------------------------------------------------------------------

  /** For any plane selection, every triangle the constructed tree's ray test
      hits is covered by a path the slab test lets through. */
  lemma ConstructCovered(m: Mesh, choose: Chooser, o: Vec3, d: Vec3)
    requires ValidMesh(m) && Intersections.NonZeroDir(d)
    ensures Covered(ConstructWith(m, choose).root, SlabBoxTest(o, d), MeshTriTest(m, o, d))
  {
    var root := Build(m, choose, Indices(|m.tris|), TightBox(m.verts), 1, Counters(0, 0, 0)).node;
    var test := MeshTriTest(m, o, d);
    BuildOfIndices(m, choose);
    forall i | i in LeafTris(root) && test(i).hit
      ensures PathTo(root, i, test(i).t, SlabBoxTest(o, d))
    {
      HitHasPath(m, choose, o, d, i);
    }
    assert ConstructWith(m, choose).root == root;
  }

  /** A hit triangle of the mesh has a passing path from the root the
      constructor builds. */
  lemma HitHasPath(m: Mesh, choose: Chooser, o: Vec3, d: Vec3, i: nat)
    requires ValidMesh(m) && Intersections.NonZeroDir(d)
    requires i < |m.tris| && MeshTriTest(m, o, d)(i).hit
    ensures PathTo(Build(m, choose, Indices(|m.tris|), TightBox(m.verts), 1, Counters(0, 0, 0)).node,
                   i, MeshTriTest(m, o, d)(i).t, SlabBoxTest(o, d))
  {
    IndicesMembers(|m.tris|);
    HitPointInside(m, o, d, i);
    BuildHasPath(m, choose, Indices(|m.tris|), TightBox(m.verts), 1, Counters(0, 0, 0), o, d, MeshTriTest(m, o, d)(i).t, i);
  }

  /** On a constructed tree the recursive traversal finds the nearest hit of
      the whole mesh: whenever some triangle is hit closer than FLT_MAX, it
      reports a hit, records a triangle of the mesh with the test's own t, u
      and v, and no triangle of the mesh is hit closer. */
  lemma MeshIntersectIsNearest(m: Mesh, choose: Chooser, o: Vec3, d: Vec3, tri: nat, u: real, v: real, i: nat)
    requires ValidMesh(m) && Intersections.NonZeroDir(d)
    requires i < |m.tris| && MeshTriTest(m, o, d)(i).hit && MeshTriTest(m, o, d)(i).t < FltMax
    ensures var test := MeshTriTest(m, o, d);
            var r := Intersect(ConstructWith(m, choose).root, SlabBoxTest(o, d), test, tri, u, v);
            r.found && Records(r.best, test) && r.best.tri < |m.tris| &&
            forall j :: 0 <= j < |m.tris| && test(j).hit ==> r.best.t <= test(j).t
  {
    var root := ConstructWith(m, choose).root;
    ConstructCovered(m, choose, o, d);
    ConstructKeepsTriangles(m, choose);
    IntersectIsNearest(root, SlabBoxTest(o, d), MeshTriTest(m, o, d), tri, u, v, i);
  }

  /** On a constructed tree the stack loop of intersectStackless, started
      from the root, ends on the same nearest t as the recursive traversal. */
  lemma StacklessAgreesOnMesh(m: Mesh, choose: Chooser, o: Vec3, d: Vec3, tri: nat, u: real, v: real)
    requires ValidMesh(m) && Intersections.NonZeroDir(d)
    ensures var root := ConstructWith(m, choose).root;
            Drain([root], false, Hit(FltMax, tri, u, v), SlabBoxTest(o, d), MeshTriTest(m, o, d)).best.t
            == Intersect(root, SlabBoxTest(o, d), MeshTriTest(m, o, d), tri, u, v).best.t
  {
    ConstructCovered(m, choose, o, d);
    TraversalsAgree(ConstructWith(m, choose).root, SlabBoxTest(o, d), MeshTriTest(m, o, d), tri, u, v);
  }
}

=== FILE: kdtraversal.dfy ===
/** Nearest-hit traversal of the k-d tree: the recursive `intersect` and the
    explicit-stack `intersectStackless`, both over a box test and a triangle
    test given as functions of the fixed ray. */
module KdTraversal {
  import opened Geometry
  import opened KdBuild
  import Intersections

  /** The box test's flag and its near distance dist_aabb_near. */
  datatype BoxHit = BoxHit(hit: bool, near: real)

  /** The ray/box test of the traversal, for the ray being traced. */
  type BoxTest = BoundingBox -> BoxHit

  /** The ray/triangle test of the traversal, by triangle index, for the ray
      being traced; it is triIntersect started from t = FLT_MAX, u = v = 0. */
  type TriTest = nat -> Intersections.TriOut

  /** The in/out parameters t, tri_index, u and v. */
  datatype Hit = Hit(t: real, tri: nat, u: real, v: real)

  /** A traversal's returned flag with the final in/out parameters. */
  datatype Scan = Scan(found: bool, best: Hit)

  /** The triangle test the tree uses: Moeller-Trumbore on the triangle's
      three vertices, starting from t = FLT_MAX and u = v = 0. */
  function MeshTriTest(m: Mesh, o: Vec3, d: Vec3): TriTest {
    (i: nat) =>
      var tri := Triangle(m, i);
      Intersections.TriIntersect(o, d, Vertex(m, tri.a), Vertex(m, tri.b), Vertex(m, tri.c), FltMax, 0.0, 0.0)
  }

  /** The record holds exactly what the test reported for its triangle. */
  predicate Records(h: Hit, test: TriTest) {
    var r := test(h.tri);
    r.hit && r.t == h.t && r.u == h.u && r.v == h.v
  }

  // ---------------------------------------------------------------------
  // Reference predicates
  // ---------------------------------------------------------------------

  /** `r` is the nearest of the start distance t0 and the hit distances of
      the triangles in `tris`. */
  ghost predicate IsNearest(r: real, t0: real, tris: set<nat>, test: TriTest) {
    && r <= t0
    && (forall i :: i in tris && test(i).hit ==> r <= test(i).t)
    && (r == t0 || exists i :: i in tris && test(i).hit && test(i).t == r)
  }

  /** There is only one nearest value. */
  lemma NearestIsUnique(r1: real, r2: real, t0: real, tris: set<nat>, test: TriTest)
    requires IsNearest(r1, t0, tris, test) && IsNearest(r2, t0, tris, test)
    ensures r1 == r2
  {
    if r1 != t0 {
      var i :| i in tris && test(i).hit && test(i).t == r1;
    }
    if r2 != t0 {
      var i :| i in tris && test(i).hit && test(i).t == r2;
    }
  }

  /** Nearest over A from t0 and then over B from that result is nearest over
      A and B together from t0. */
  lemma NearestChain(r: real, t1: real, t0: real, a: set<nat>, b: set<nat>, test: TriTest)
    requires IsNearest(t1, t0, a, test) && IsNearest(r, t1, b, test)
    ensures IsNearest(r, t0, a + b, test)
  {
    if r != t0 {
      if r == t1 {
        var i :| i in a && test(i).hit && test(i).t == t1;
        assert i in a + b;
      } else {
        var i :| i in b && test(i).hit && test(i).t == r;
        assert i in a + b;
      }
    }
  }

  /** The node's box passes at distance t and some leaf below it passes
      too and holds a triangle the test hits. Both traversals report a hit
      exactly when this holds for the root at FLT_MAX. */
  ghost predicate Reach(n: Node, t: real, boxTest: BoxTest, test: TriTest) {
    var b := boxTest(n.box);
    b.hit && b.near <= t &&
    match n
    case Leaf(_, tris, _) => exists i :: 0 <= i < |tris| && test(tris[i]).hit
    case Inner(_, _, l, r, _) => Reach(l, t, boxTest, test) || Reach(r, t, boxTest, test)
  }

  /** Some path from `n` down to a leaf listing triangle i passes the box
      test at every node with a near distance of at most t. */
  predicate PathTo(n: Node, i: nat, t: real, boxTest: BoxTest) {
    var b := boxTest(n.box);
    b.hit && b.near <= t &&
    match n
    case Leaf(_, tris, _) => i in tris
    case Inner(_, _, l, r, _) => PathTo(l, i, t, boxTest) || PathTo(r, i, t, boxTest)
  }

  /** Every triangle below `n` that the test hits is reached by a path the
      box test lets through at that hit's distance. A triangle listed in
      several leaves needs only one such path. */
  ghost predicate Covered(n: Node, boxTest: BoxTest, test: TriTest) {
    forall i :: i in LeafTris(n) && test(i).hit ==> PathTo(n, i, test(i).t, boxTest)
  }

  // ---------------------------------------------------------------------
  // Leaf scan
  // ---------------------------------------------------------------------

  /** One triangle of the leaf loop: take its hit when strictly closer. */
  function Consider(st: Hit, i: nat, test: TriTest): (r: Hit)
    ensures r == st || (r.tri == i && Records(r, test) && r.t < st.t)
    ensures r.t <= st.t
    ensures test(i).hit ==> r.t <= test(i).t
  {
    var h := test(i);
    if h.hit && h.t < st.t then Hit(h.t, i, h.u, h.v) else st
  }

  /** The leaf loop: every triangle in list order; the flag is set by any
      hit, the record moves only on a strictly closer hit. */
  function LeafScan(tris: seq<nat>, test: TriTest, st: Hit): (r: Scan)
    ensures r.found <==> exists i :: 0 <= i < |tris| && test(tris[i]).hit
    ensures !r.found ==> r.best == st
    ensures r.best == st || (r.best.tri in tris && Records(r.best, test) && r.best.t < st.t)
    ensures IsNearest(r.best.t, st.t, Elems(tris), test)
    decreases |tris|
  {
    if |tris| == 0 then Scan(false, st)
    else
      var st1 := Consider(st, tris[0], test);
      var rest := LeafScan(tris[1..], test, st1);
      assert forall k :: 0 <= k < |tris| - 1 ==> tris[1..][k] == tris[k + 1];
      assert Elems(tris) == {tris[0]} + Elems(tris[1..]);
      NearestChain(rest.best.t, st1.t, st.t, {tris[0]}, Elems(tris[1..]), test);
      Scan(test(tris[0]).hit || rest.found, rest.best)
  }

  // ---------------------------------------------------------------------
  // Recursive traversal
  // ---------------------------------------------------------------------

  /** The private recursive intersect: prune when the box's near distance
      exceeds the best t, scan a leaf whose box is hit, otherwise visit the
      left child and then the right child with the updated record. */
  function Recursive(n: Node, boxTest: BoxTest, test: TriTest, st: Hit): (r: Scan)
    ensures r.found == Reach(n, st.t, boxTest, test)
    ensures !r.found ==> r.best == st
    ensures r.best.t <= st.t
    ensures r.best == st || (r.best.tri in LeafTris(n) && Records(r.best, test) && r.best.t < st.t)
  {
    var b := boxTest(n.box);
    if b.near > st.t then Scan(false, st)
    else if !b.hit then Scan(false, st)
    else
      match n
      case Leaf(_, tris, _) => LeafScan(tris, test, st)
      case Inner(_, _, left, right, _) =>
        var l := Recursive(left, boxTest, test, st);
        var r := Recursive(right, boxTest, test, l.best);
        Scan(l.found || r.found, r.best)
  }

  /** A hit reached by a passing path bounds the recursive traversal's
      result: either the path is followed down to its leaf, or it is pruned
      because the record is already closer. */
  lemma {:induction false} RecursiveFindsPath(n: Node, boxTest: BoxTest, test: TriTest, st: Hit, i: nat)
    requires test(i).hit && PathTo(n, i, test(i).t, boxTest)
    ensures Recursive(n, boxTest, test, st).best.t <= test(i).t
  {
    var b := boxTest(n.box);
    if b.near > st.t {
      assert Recursive(n, boxTest, test, st).best == st;
    } else {
      match n
      case Leaf(_, tris, _) =>
        assert i in Elems(tris);
      case Inner(_, _, left, right, _) =>
        var l := Recursive(left, boxTest, test, st);
        if PathTo(left, i, test(i).t, boxTest) {
          RecursiveFindsPath(left, boxTest, test, st, i);
        } else {
          RecursiveFindsPath(right, boxTest, test, l.best, i);
        }
    }
  }

  /** With every hit covered by a passing path, the recursive traversal ends
      on the nearest hit of all triangles below the node (or on the start t). */
  lemma RecursiveIsNearest(n: Node, boxTest: BoxTest, test: TriTest, st: Hit)
    requires Covered(n, boxTest, test)
    ensures IsNearest(Recursive(n, boxTest, test, st).best.t, st.t, LeafTris(n), test)
  {
    var r := Recursive(n, boxTest, test, st);
    forall i | i in LeafTris(n) && test(i).hit
      ensures r.best.t <= test(i).t
    {
      RecursiveFindsPath(n, boxTest, test, st, i);
    }
    if r.best != st {
      assert r.best.tri in LeafTris(n) && test(r.best.tri).hit && test(r.best.tri).t == r.best.t;
    }
  }

  /** The public intersect: t starts at FLT_MAX, tri_index, u and v keep the
      caller's values until a hit is taken. */
  function Intersect(root: Node, boxTest: BoxTest, test: TriTest, tri: nat, u: real, v: real): (r: Scan)
    ensures r.found == Reach(root, FltMax, boxTest, test)
    ensures !r.found ==> r.best == Hit(FltMax, tri, u, v)
    ensures r.best == Hit(FltMax, tri, u, v) || (r.best.tri in LeafTris(root) && Records(r.best, test) && r.best.t < FltMax)
  {
    Recursive(root, boxTest, test, Hit(FltMax, tri, u, v))
  }

  /** With every hit covered by a passing path, a hit closer than FLT_MAX
      below the root makes intersect record the nearest such hit. */
  lemma IntersectIsNearest(root: Node, boxTest: BoxTest, test: TriTest, tri: nat, u: real, v: real, i: nat)
    requires Covered(root, boxTest, test)
    requires i in LeafTris(root) && test(i).hit && test(i).t < FltMax
    ensures var r := Intersect(root, boxTest, test, tri, u, v);
            r.found && Records(r.best, test) && r.best.tri in LeafTris(root) &&
            forall j :: j in LeafTris(root) && test(j).hit ==> r.best.t <= test(j).t
  {
    RecursiveIsNearest(root, boxTest, test, Hit(FltMax, tri, u, v));
  }

  // ---------------------------------------------------------------------
  // Stackless traversal
  // ---------------------------------------------------------------------

  /** Total node count of the pending nodes; each step lowers it by one. */
  function StackSize(stack: seq<Node>): nat {
    if |stack| == 0 then 0 else StackSize(stack[..|stack| - 1]) + Size(stack[|stack| - 1])
  }

  /** The triangles below the pending nodes. */
  function StackTris(stack: seq<Node>): set<nat> {
    if |stack| == 0 then {} else StackTris(stack[..|stack| - 1]) + LeafTris(stack[|stack| - 1])
  }

  ghost predicate ReachAny(stack: seq<Node>, t: real, boxTest: BoxTest, test: TriTest) {
    exists k :: 0 <= k < |stack| && Reach(stack[k], t, boxTest, test)
  }

  ghost predicate AllCovered(stack: seq<Node>, boxTest: BoxTest, test: TriTest) {
    forall k :: 0 <= k < |stack| ==> Covered(stack[k], boxTest, test)
  }

  /** A triangle below the pending nodes is below one of them. */
  lemma {:induction false} StackTrisMembers(stack: seq<Node>, i: nat)
    requires i in StackTris(stack)
    ensures exists k :: 0 <= k < |stack| && i in LeafTris(stack[k])
  {
    var rest := stack[..|stack| - 1];
    if i !in LeafTris(stack[|stack| - 1]) {
      StackTrisMembers(rest, i);
      var k :| 0 <= k < |rest| && i in LeafTris(rest[k]);
      assert stack[k] == rest[k];
    }
  }

  /** Replacing the top node by its two children. */
  lemma PushChildren(rest: seq<Node>, n: Node)
    requires n.Inner?
    ensures StackSize(rest + [n.left, n.right]) == StackSize(rest) + Size(n) - 1
    ensures StackTris(rest + [n.left, n.right]) == StackTris(rest) + LeafTris(n)
  {
    var s1 := rest + [n.left];
    var s2 := rest + [n.left, n.right];
    assert s2[..|s2| - 1] == s1;
    assert s1[..|s1| - 1] == rest;
  }

  /** The rest of the loop from a given stack, flag and record: pop the last
      node; skip it when its box is missed or lies beyond t; scan a leaf;
      push the left and then the right child of an inner node. */
  function Drain(stack: seq<Node>, found: bool, st: Hit, boxTest: BoxTest, test: TriTest): Scan
    decreases StackSize(stack)
  {
    if |stack| == 0 then Scan(found, st)
    else
      var n := stack[|stack| - 1];
      var rest := stack[..|stack| - 1];
      var b := boxTest(n.box);
      if !b.hit || b.near > st.t then Drain(rest, found, st, boxTest, test)
      else
        match n
        case Leaf(_, tris, _) =>
          var s := LeafScan(tris, test, st);
          Drain(rest, found || s.found, s.best, boxTest, test)
        case Inner(_, _, left, right, _) =>
          PushChildren(rest, n);
          Drain(rest + [left, right], found, st, boxTest, test)
  }

  /** The stack loop reports a hit exactly when one was already reported or
      some pending node reaches a hit at the current t. */
  lemma {:induction false} DrainFlag(stack: seq<Node>, found: bool, st: Hit, boxTest: BoxTest, test: TriTest)
    ensures Drain(stack, found, st, boxTest, test).found == (found || ReachAny(stack, st.t, boxTest, test))
    ensures !found && !ReachAny(stack, st.t, boxTest, test) ==> Drain(stack, found, st, boxTest, test).best == st
    decreases StackSize(stack)
  {
    if |stack| > 0 {
      var n := stack[|stack| - 1];
      var rest := stack[..|stack| - 1];
      var b := boxTest(n.box);
      assert forall k :: 0 <= k < |rest| ==> rest[k] == stack[k];
      if !b.hit || b.near > st.t {
        DrainFlag(rest, found, st, boxTest, test);
        assert ReachAny(stack, st.t, boxTest, test) == ReachAny(rest, st.t, boxTest, test);
      } else {
        match n
        case Leaf(_, tris, _) =>
          var s := LeafScan(tris, test, st);
          DrainFlag(rest, found || s.found, s.best, boxTest, test);
          assert Reach(n, st.t, boxTest, test) == s.found;
          if !s.found {
            assert ReachAny(stack, st.t, boxTest, test) == ReachAny(rest, st.t, boxTest, test);
          }
        case Inner(_, _, left, right, _) =>
          PushChildren(rest, n);
          var next := rest + [left, right];
          DrainFlag(next, found, st, boxTest, test);
          assert next[|rest|] == left && next[|rest| + 1] == right;
          assert forall k :: 0 <= k < |rest| ==> next[k] == rest[k];
          assert ReachAny(next, st.t, boxTest, test) == ReachAny(stack, st.t, boxTest, test);
      }
    }
  }

  /** The stack loop's record only moves to strictly closer recorded hits of
      triangles below the pending nodes. */
  lemma {:induction false} DrainRecord(stack: seq<Node>, found: bool, st: Hit, boxTest: BoxTest, test: TriTest)
    ensures var r := Drain(stack, found, st, boxTest, test);
            r.best == st || (r.best.tri in StackTris(stack) && Records(r.best, test) && r.best.t < st.t)
    decreases StackSize(stack)
  {
    if |stack| > 0 {
      var n := stack[|stack| - 1];
      var rest := stack[..|stack| - 1];
      var b := boxTest(n.box);
      if !b.hit || b.near > st.t {
        DrainRecord(rest, found, st, boxTest, test);
      } else {
        match n
        case Leaf(_, tris, _) =>
          var s := LeafScan(tris, test, st);
          DrainRecord(rest, found || s.found, s.best, boxTest, test);
        case Inner(_, _, left, right, _) =>
          PushChildren(rest, n);
          DrainRecord(rest + [left, right], found, st, boxTest, test);
      }
    }
  }

  /** A hit reached by a passing path from any pending node bounds the
      stack loop's result. */
  lemma {:induction false} DrainFindsPath(stack: seq<Node>, found: bool, st: Hit, boxTest: BoxTest, test: TriTest, i: nat, k: nat)
    requires test(i).hit && k < |stack| && PathTo(stack[k], i, test(i).t, boxTest)
    ensures Drain(stack, found, st, boxTest, test).best.t <= test(i).t
    decreases StackSize(stack)
  {
    var n := stack[|stack| - 1];
    var rest := stack[..|stack| - 1];
    var b := boxTest(n.box);
    var top := k == |stack| - 1;
    if !top {
      assert rest[k] == stack[k];
    }
    if !b.hit || b.near > st.t {
      if top {
        DrainRecord(rest, found, st, boxTest, test);
      } else {
        DrainFindsPath(rest, found, st, boxTest, test, i, k);
      }
    } else {
      match n
      case Leaf(_, tris, _) =>
        var s := LeafScan(tris, test, st);
        if top {
          assert i in Elems(tris);
          DrainRecord(rest, found || s.found, s.best, boxTest, test);
        } else {
          DrainFindsPath(rest, found || s.found, s.best, boxTest, test, i, k);
        }
      case Inner(_, _, left, right, _) =>
        PushChildren(rest, n);
        var next := rest + [left, right];
        assert next[|rest|] == left && next[|rest| + 1] == right;
        if !top {
          assert next[k] == stack[k];
          DrainFindsPath(next, found, st, boxTest, test, i, k);
        } else if PathTo(left, i, test(i).t, boxTest) {
          DrainFindsPath(next, found, st, boxTest, test, i, |rest|);
        } else {
          DrainFindsPath(next, found, st, boxTest, test, i, |rest| + 1);
        }
    }
  }

  /** With every hit below each pending node covered by a passing path, the
      stack loop ends on the nearest hit of all triangles below the pending
      nodes. */
  lemma DrainIsNearest(stack: seq<Node>, found: bool, st: Hit, boxTest: BoxTest, test: TriTest)
    requires AllCovered(stack, boxTest, test)
    ensures IsNearest(Drain(stack, found, st, boxTest, test).best.t, st.t, StackTris(stack), test)
  {
    var r := Drain(stack, found, st, boxTest, test);
    DrainRecord(stack, found, st, boxTest, test);
    forall i | i in StackTris(stack) && test(i).hit
      ensures r.best.t <= test(i).t
    {
      StackTrisMembers(stack, i);
      var k :| 0 <= k < |stack| && i in LeafTris(stack[k]);
      assert Covered(stack[k], boxTest, test);
      DrainFindsPath(stack, found, st, boxTest, test, i, k);
    }
    if r.best != st {
      assert r.best.tri in StackTris(stack) && test(r.best.tri).hit && test(r.best.tri).t == r.best.t;
    }
  }

  /** intersectStackless: a LIFO of pending nodes starting with the root;
      t starts at FLT_MAX. It reports the same flag as the recursive
      traversal, and when every hit is covered by a passing path the same
      nearest t. */
  method IntersectStackless(root: Node, boxTest: BoxTest, test: TriTest, tri: nat, u: real, v: real)
    returns (found: bool, best: Hit)
    ensures Scan(found, best) == Drain([root], false, Hit(FltMax, tri, u, v), boxTest, test)
    ensures found == Reach(root, FltMax, boxTest, test)
    ensures found == Intersect(root, boxTest, test, tri, u, v).found
    ensures !found ==> best == Hit(FltMax, tri, u, v)
    ensures Covered(root, boxTest, test) ==> best.t == Intersect(root, boxTest, test, tri, u, v).best.t
  {
    var start := Hit(FltMax, tri, u, v);
    var stack := [root];
    found := false;
    best := start;
    while |stack| > 0
      invariant Drain(stack, found, best, boxTest, test) == Drain([root], false, start, boxTest, test)
      decreases StackSize(stack)
    {
      var n := stack[|stack| - 1];
      stack := stack[..|stack| - 1];
      var b := boxTest(n.box);
      if !b.hit || b.near > best.t {
        continue;
      }
      if n.Leaf? {
        var s := LeafScan(n.tris, test, best);
        found := found || s.found;
        best := s.best;
      } else {
        PushChildren(stack, n);
        stack := stack + [n.left, n.right];
      }
    }
    DrainFlag([root], false, start, boxTest, test);
    assert ReachAny([root], FltMax, boxTest, test) == Reach(root, FltMax, boxTest, test) by {
      assert [root][0] == root;
    }
    if Covered(root, boxTest, test) {
      TraversalsAgree(root, boxTest, test, tri, u, v);
    }
  }

  /** When every hit is covered by a passing path, the stack loop started
      from the root and the recursive traversal end on the same t. */
  lemma TraversalsAgree(root: Node, boxTest: BoxTest, test: TriTest, tri: nat, u: real, v: real)
    requires Covered(root, boxTest, test)
    ensures Drain([root], false, Hit(FltMax, tri, u, v), boxTest, test).best.t
            == Intersect(root, boxTest, test, tri, u, v).best.t
  {
    var start := Hit(FltMax, tri, u, v);
    assert AllCovered([root], boxTest, test);
    assert StackTris([root]) == LeafTris(root) by {
      assert [root][..0] == [];
    }
    DrainIsNearest([root], false, start, boxTest, test);
    RecursiveIsNearest(root, boxTest, test, start);
    NearestIsUnique(Drain([root], false, start, boxTest, test).best.t, Intersect(root, boxTest, test, tri, u, v).best.t,
                    FltMax, LeafTris(root), test);
  }

  // ---------------------------------------------------------------------
  // Ties
  // ---------------------------------------------------------------------

  const TieBox := BoundingBox(Zero, Vec3(1.0, 1.0, 1.0))

  /** Two leaves holding triangles 0 and 1 under one inner node. */
  const TieTree := Inner(TieBox, Split(X, 0.0), Leaf(TieBox, [0], 0), Leaf(TieBox, [1], 1), 2)

  /** On two equally distant hits the recursive traversal keeps the left
      leaf's triangle, while the stack loop, which pops the right child
      first, keeps the right leaf's. */
  lemma TieBreaksDiffer()
    ensures var boxTest: BoxTest := (b: BoundingBox) => BoxHit(true, 0.0);
            var test: TriTest := (i: nat) => Intersections.TriOut(true, 1.0, 0.0, 0.0);
            Recursive(TieTree, boxTest, test, Hit(FltMax, 7, 0.0, 0.0)).best.tri == 0 &&
            Drain([TieTree], false, Hit(FltMax, 7, 0.0, 0.0), boxTest, test).best.tri == 1
  {
    var boxTest: BoxTest := (b: BoundingBox) => BoxHit(true, 0.0);
    var test: TriTest := (i: nat) => Intersections.TriOut(true, 1.0, 0.0, 0.0);
    var start := Hit(FltMax, 7, 0.0, 0.0);
    var l := Leaf(TieBox, [0], 0);
    var r := Leaf(TieBox, [1], 1);
    var h0 := Hit(1.0, 0, 0.0, 0.0);
    var h1 := Hit(1.0, 1, 0.0, 0.0);
    assert [0][1..] == [] && [1][1..] == [];
    assert LeafScan([0], test, start) == Scan(true, h0);
    assert LeafScan([1], test, h0) == Scan(true, h0);
    assert LeafScan([1], test, start) == Scan(true, h1);
    assert LeafScan([0], test, h1) == Scan(true, h1);
    assert Recursive(l, boxTest, test, start) == Scan(true, h0);
    assert Recursive(r, boxTest, test, h0) == Scan(true, h0);
    assert [TieTree][..0] == [];
    assert ([] + [l, r])[..1] == [l];
    assert [l][..0] == [];
    assert Drain([], true, h1, boxTest, test) == Scan(true, h1);
    assert Drain([l], true, h1, boxTest, test) == Scan(true, h1);
    assert Drain([l, r], false, start, boxTest, test) == Scan(true, h1);
    assert Drain([TieTree], false, start, boxTest, test) == Drain([] + [l, r], false, start, boxTest, test);
  }
}

=== FILE: options.dfy ===
/** An optional value, for results that may be absent. */
module Options {

  datatype Option<T> = None | Some(value: T)
}

=== FILE: random.dfy ===
/** Walnut's Random helpers as pure maps from the engine's output. The pcg32
    engine and std::uniform_int_distribution are outside the model: every
    draw `e` is a parameter, any uint32_t value. */
module Random {
  import opened Geometry

  const Modulus: int := 0x1_0000_0000

  /** A uint32_t value. */
  type UInt32 = n: nat | n < 0x1_0000_0000

  /** uint32_t arithmetic: reduce modulo 2^32. */
  function Wrap(n: int): UInt32 {
    n % Modulus
  }

  /** Walnut::Random::UInt(min, max): min + (e % (max - min + 1)), every step
      in uint32_t. The modulus wraps to 0 when max - min + 1 is 2^32 (for
      instance the full range min = 0, max = UINT32_MAX), which is a division
      by zero in the source, so callers must avoid it. The result lies on the
      cyclic interval from min to max: in [min, max] when min <= max, and in
      [min, UINT32_MAX] or [0, max] when min > max. */
  function UInt(min: UInt32, max: UInt32, e: UInt32): (r: UInt32)
    requires Wrap(max - min + 1) != 0
    ensures Wrap(r - min) <= Wrap(max - min)
    ensures min <= max ==> min <= r <= max
    ensures min == max ==> r == min
  {
    var k := e % Wrap(max - min + 1);
    OffsetWithin(min, max, k);
    Wrap(min + k)
  }

  /** min + k, in uint32_t, for an offset k below the range. */
  lemma OffsetWithin(min: UInt32, max: UInt32, k: nat)
    requires Wrap(max - min + 1) != 0 && k < Wrap(max - min + 1)
    ensures Wrap(Wrap(min + k) - min) <= Wrap(max - min)
    ensures min <= max ==> min <= Wrap(min + k) <= max
  {
    RangeIsSpanPlusOne(min, max);
    SmallMod(k, Modulus);
    assert Wrap(min + k - min) == k;
    ShiftWrap(min + k, min);
    if min <= max {
      SmallMod(min + k, Modulus);
    }
  }

  /** The span of the cyclic interval, plus one, when that does not wrap. */
  lemma RangeIsSpanPlusOne(min: UInt32, max: UInt32)
    requires Wrap(max - min + 1) != 0
    ensures Wrap(max - min + 1) == Wrap(max - min) + 1
    ensures min <= max ==> Wrap(max - min) == max - min
  {
  }

  /** Reducing before or after a shift gives the same residue. */
  lemma ShiftWrap(n: int, m: int)
    ensures Wrap(Wrap(n) - m) == Wrap(n - m)
  {
    var q := n / Modulus;
    assert Wrap(n) == n - q * Modulus;
    assert Wrap(n) - m == (n - m) + (-q) * Modulus;
    AddMultiple(n - m, -q);
  }

  lemma AddMultiple(n: int, q: int)
    ensures Wrap(n + q * Modulus) == Wrap(n)
  {
    var a := n / Modulus;
    var b := (n + q * Modulus) / Modulus;
    assert n == a * Modulus + Wrap(n);
    assert n + q * Modulus == b * Modulus + Wrap(n + q * Modulus);
    assert (b - a - q) * Modulus == Wrap(n) - Wrap(n + q * Modulus);
  }

  /** Every value of the cyclic interval is drawn by some engine output, so
      UInt misses nothing it promises to cover. */
  lemma UIntOnto(min: UInt32, max: UInt32, v: UInt32)
    requires Wrap(max - min + 1) != 0
    requires Wrap(v - min) <= Wrap(max - min)
    ensures UInt(min, max, Wrap(v - min)) == v
  {
    RangeIsSpanPlusOne(min, max);
    var k := Wrap(v - min);
    SmallMod(k, Wrap(max - min + 1));
    assert min + k == v + ((v - min) / Modulus) * -Modulus + 0 by {
      assert v - min == ((v - min) / Modulus) * Modulus + k;
    }
    AddMultiple(v, -((v - min) / Modulus));
  }

  lemma SmallMod(k: nat, m: nat)
    requires k < m
    ensures k % m == k
  {
  }

  /** MAX_FLTUINT: (float)UINT32_MAX. The nearest float to 2^32 - 1 is 2^32. */
  const MaxFltUint: real := 4294967296.0

  /** Walnut::Random::Float(): the engine output over MAX_FLTUINT, in [0, 1). */
  function Float(e: UInt32): (r: real)
    ensures 0.0 <= r < 1.0
    ensures r * 4294967296.0 == e as real
  {
    e as real / MaxFltUint
  }

  /** A larger engine output gives a larger value, so Float keeps the order
      of the draws and distinct draws stay distinct. */
  lemma FloatMonotone(e: UInt32, e': UInt32)
    ensures e < e' <==> Float(e) < Float(e')
    ensures Float(e) == Float(e') ==> e == e'
  {
  }

  /** Walnut::Random::Float(min, max): Float() * (max - min) + min. */
  function FloatIn(min: real, max: real, e: UInt32): (r: real)
    ensures min <= max ==> min <= r <= max
    ensures min < max ==> r < max
    ensures e == 0 ==> r == min
  {
    var f := Float(e);
    var w := max - min;
    ScaleWithin(f, w);
    assert w > 0.0 ==> f * w + min < max;
    f * w + min
  }

  lemma ScaleWithin(f: real, w: real)
    requires 0.0 <= f < 1.0
    ensures w >= 0.0 ==> 0.0 <= f * w <= w
    ensures w > 0.0 ==> f * w < w
    ensures f == 0.0 ==> f * w == 0.0
  {
  }

  /** Over a proper interval FloatIn keeps the order of the draws. */
  lemma FloatInMonotone(min: real, max: real, e: UInt32, e': UInt32)
    requires min < max
    ensures e < e' <==> FloatIn(min, max, e) < FloatIn(min, max, e')
  {
    FloatMonotone(e, e');
    FloatInOrder(min, max, e, e');
    FloatInOrder(min, max, e', e);
  }

  lemma FloatInOrder(min: real, max: real, e: UInt32, e': UInt32)
    requires min < max
    ensures Float(e) < Float(e') ==> FloatIn(min, max, e) < FloatIn(min, max, e')
  {
    var f, g, w := Float(e), Float(e'), max - min;
    ScaleOrder(f, g, w, min);
    assert FloatIn(min, max, e) == f * w + min;
    assert FloatIn(min, max, e') == g * w + min;
  }

  lemma ScaleOrder(f: real, g: real, w: real, c: real)
    requires w > 0.0
    ensures f < g ==> f * w + c < g * w + c
  {
    if f < g {
      assert g * w - f * w == (g - f) * w;
    }
  }

  /** Walnut::Random::Vec3(min, max) as written: minmax = (max - min) + min,
      which is max, so every component is Float() * max and min plays no
      part. */
  function Vec3AsWritten(min: real, max: real, e0: UInt32, e1: UInt32, e2: UInt32): (r: Vec3)
    ensures max >= 0.0 ==> 0.0 <= r.x <= max && 0.0 <= r.y <= max && 0.0 <= r.z <= max
    ensures r.x == Float(e0) * max && r.y == Float(e1) * max && r.z == Float(e2) * max
  {
    var minmax := (max - min) + min;
    assert minmax == max;
    Vec3(FloatScaled(e0, minmax), FloatScaled(e1, minmax), FloatScaled(e2, minmax))
  }

  /** Float() * k, as the component of Vec3(min, max) computes it. */
  function FloatScaled(e: UInt32, k: real): (r: real)
    ensures k >= 0.0 ==> 0.0 <= r <= k
    ensures e == 0 ==> r == 0.0
  {
    ScaleWithin(Float(e), k);
    Float(e) * k
  }

  /** The lower bound is ignored: asked for [2, 3], a zero draw gives 0. */
  lemma Vec3IgnoresMin()
    ensures var r := Vec3AsWritten(2.0, 3.0, 0, 0, 0);
            r == Vec3(0.0, 0.0, 0.0) && r.x < 2.0
  {
  }

  /** The scene set-up asks for positions in [-5, 5] and never gets a
      negative coordinate: every sphere lands in the positive octant. */
  lemma SpreadIsOneSided(e0: UInt32, e1: UInt32, e2: UInt32)
    ensures var r := Vec3AsWritten(-5.0, 5.0, e0, e1, e2);
            r.x >= 0.0 && r.y >= 0.0 && r.z >= 0.0
  {
  }

  /** Vec3(min, max) as intended: each component drawn by Float(min, max). */
  function Vec3In(min: real, max: real, e0: UInt32, e1: UInt32, e2: UInt32): (r: Vec3)
    ensures min <= max ==> min <= r.x <= max && min <= r.y <= max && min <= r.z <= max
    ensures r.x == FloatIn(min, max, e0) && r.y == FloatIn(min, max, e1) && r.z == FloatIn(min, max, e2)
  {
    Vec3(FloatIn(min, max, e0), FloatIn(min, max, e1), FloatIn(min, max, e2))
  }

  /** The intended map reaches the lower corner, which the written one misses
      whenever min > 0. The written map, whatever min it is given, is the
      intended map on [0, max]. */
  lemma Vec3InReachesMin(min: real, max: real, e0: UInt32, e1: UInt32, e2: UInt32)
    ensures Vec3In(min, max, 0, 0, 0) == Vec3(min, min, min)
    ensures Vec3AsWritten(min, max, e0, e1, e2) == Vec3In(0.0, max, e0, e1, e2)
  {
  }
}

=== FILE: renderer.dfy ===
/** The renderer's deterministic core: the nearest-sphere search of TraceRay,
    the pixel-to-slot map Render writes through, and OnResize's bookkeeping
    of the image size and the pixel buffer. */
module Renderer {
  import opened Geometry
  import opened Options
  import ColorUtil

  // ---------------------------------------------------------------------
  // TraceRay
  // ---------------------------------------------------------------------

  datatype Sphere = Sphere(position: Vec3, radius: real)

  datatype Ray = Ray(origin: Vec3, direction: Vec3)

  /** HitData. `normal` holds the hit point relative to the sphere centre,
      the vector TraceRay normalises; `objectIndex` is -1 until a sphere is
      taken (the source leaves it unset). */
  datatype HitData = HitData(distance: real, position: Vec3, normal: Vec3, objectIndex: int)

  const NoHit := HitData(-1.0, Zero, Zero, -1)

  /** The quadratic a t^2 + b t + c = 0 of the ray against the sphere, in the
      sphere's frame. */
  datatype Quadratic = Quadratic(a: real, b: real, c: real)

  function QuadraticOf(s: Sphere, ray: Ray): Quadratic {
    var oc := Sub(ray.origin, s.position);
    Quadratic(Dot(ray.direction, ray.direction), 2.0 * Dot(oc, ray.direction), Dot(oc, oc) - s.radius * s.radius)
  }

  function Discriminant(q: Quadratic): real {
    q.b * q.b - 4.0 * q.a * q.c
  }

  lemma SumOfNonNegatives(a: real, b: real, c: real)
    requires a >= 0.0 && b >= 0.0 && c >= 0.0
    ensures a + b + c >= 0.0
    ensures a > 0.0 || b > 0.0 || c > 0.0 ==> a + b + c > 0.0
  {
  }

  lemma SquareSign(p: real, q: real)
    requires p == q
    ensures p * q >= 0.0
    ensures p != 0.0 ==> p * q > 0.0
  {
    if p < 0.0 {
      assert p * q == (-p) * (-q);
    }
  }

  lemma DotOfEqual(u: Vec3, v: Vec3)
    requires u == v
    ensures Dot(u, v) >= 0.0
    ensures u.x != 0.0 || u.y != 0.0 || u.z != 0.0 ==> Dot(u, v) > 0.0
  {
    SquareSign(u.x, v.x);
    SquareSign(u.y, v.y);
    SquareSign(u.z, v.z);
    SumOfNonNegatives(u.x * v.x, u.y * v.y, u.z * v.z);
  }

  /** Only the zero vector has zero length. */
  lemma LengthPositive(d: Vec3)
    ensures Dot(d, d) >= 0.0
    ensures d != Zero ==> Dot(d, d) > 0.0
  {
    DotOfEqual(d, d);
    if d != Zero {
      assert d.x != 0.0 || d.y != 0.0 || d.z != 0.0;
    }
  }

  lemma DiscriminantOfZero(q: Quadratic)
    requires q.a == 0.0 && q.b == 0.0
    ensures Discriminant(q) == 0.0
  {
  }

  /** |o + t d|^2 expanded. */
  lemma DotOfRayPoint(o: Vec3, d: Vec3, t: real)
    ensures Dot(Add(o, Scale(t, d)), Add(o, Scale(t, d))) == Dot(o, o) + 2.0 * t * Dot(o, d) + t * t * Dot(d, d)
  {
    SquareOfSum(o.x, d.x, t);
    SquareOfSum(o.y, d.y, t);
    SquareOfSum(o.z, d.z, t);
  }

  lemma SquareOfSum(a: real, b: real, t: real)
    ensures (a + t * b) * (a + t * b) == a * a + 2.0 * t * (a * b) + t * t * (b * b)
  {
  }

  /** A zero direction has a zero discriminant, so a positive discriminant
      leaves 2a non-zero and the near root is defined. */
  lemma PositiveDiscriminantHasDirection(s: Sphere, ray: Ray)
    requires Discriminant(QuadraticOf(s, ray)) > 0.0
    ensures QuadraticOf(s, ray).a > 0.0
  {
    LengthPositive(ray.direction);
    if ray.direction == Zero {
      ZeroDirectionFlat(s, ray, QuadraticOf(s, ray));
    }
  }

  lemma ZeroDirectionFlat(s: Sphere, ray: Ray, q: Quadratic)
    requires ray.direction == Zero && q == QuadraticOf(s, ray)
    ensures Discriminant(q) == 0.0
  {
    assert Dot(Sub(ray.origin, s.position), Zero) == 0.0;
    assert q.a == 0.0 && q.b == 0.0;
    DiscriminantOfZero(q);
  }

  /** The near root (-b - sqrt(disc)) / 2a when the discriminant is
      positive; `sqrt` stands for glm::sqrt. */
  function NearRoot(s: Sphere, ray: Ray, sqrt: real -> real): Option<real> {
    var q := QuadraticOf(s, ray);
    var disc := Discriminant(q);
    if disc > 0.0 then
      PositiveDiscriminantHasDirection(s, ray);
      Some((-q.b - sqrt(disc)) / (2.0 * q.a))
    else None
  }

  /** With a true square root the near root solves the quadratic, so the
      reported position lies on the sphere. */
  lemma NearRootOnSphere(s: Sphere, ray: Ray, sqrt: real -> real)
    requires NearRoot(s, ray, sqrt).Some?
    requires var disc := Discriminant(QuadraticOf(s, ray)); sqrt(disc) * sqrt(disc) == disc
    ensures var p := Sub(At(ray.origin, ray.direction, NearRoot(s, ray, sqrt).value), s.position);
            Dot(p, p) == s.radius * s.radius
  {
    var q := QuadraticOf(s, ray);
    var disc := Discriminant(q);
    var r := sqrt(disc);
    var t := NearRoot(s, ray, sqrt).value;
    PositiveDiscriminantHasDirection(s, ray);
    assert t * (2.0 * q.a) == -q.b - r;
    assert q.a * t * t + q.b * t + q.c == 0.0 by {
      var u := 2.0 * q.a * t;
      assert u == -q.b - r;
      assert u * u == q.b * q.b + 2.0 * q.b * r + r * r;
      assert 4.0 * q.a * (q.a * t * t + q.b * t + q.c) == u * u + 2.0 * q.b * u + 4.0 * q.a * q.c;
      assert u * u + 2.0 * q.b * u + 4.0 * q.a * q.c == r * r - disc;
    }
    var oc := Sub(ray.origin, s.position);
    var d := ray.direction;
    var p := Sub(At(ray.origin, d, t), s.position);
    assert p == Add(oc, Scale(t, d));
    DotOfRayPoint(oc, d, t);
  }

  /** A near root the search can take: present and in [0, FLT_MAX]. */
  predicate Takeable(root: Option<real>) {
    root.Some? && 0.0 <= root.value <= FltMax
  }

  /** A sphere the search can take. */
  predicate Eligible(s: Sphere, ray: Ray, sqrt: real -> real) {
    Takeable(NearRoot(s, ray, sqrt))
  }

  /** The near root of each sphere for one ray. The search below is stated
      over any such map, so its proof never looks inside the quadratic. */
  type RootMap = Sphere -> Option<real>

  function RootsFor(ray: Ray, sqrt: real -> real): RootMap {
    (s: Sphere) => NearRoot(s, ray, sqrt)
  }

  /** The loop's state: closestDist and the hit data so far. */
  datatype Search = Search(closest: real, hit: HitData)

  /** One iteration: skip a sphere without a positive discriminant, or whose
      near root is beyond closestDist or negative; otherwise take it. */
  function Step(st: Search, spheres: seq<Sphere>, i: nat, ray: Ray, roots: RootMap): Search
    requires i < |spheres|
  {
    var s := spheres[i];
    match roots(s)
    case None => st
    case Some(t) =>
      if t > st.closest || t < 0.0 then st
      else
        var hitPoint := Add(Sub(ray.origin, s.position), Scale(t, ray.direction));
        Search(t, HitData(t, Add(hitPoint, s.position), hitPoint, i))
  }

  /** The state after the first n spheres. */
  function SearchPrefix(spheres: seq<Sphere>, n: nat, ray: Ray, roots: RootMap): Search
    requires n <= |spheres|
  {
    if n == 0 then Search(FltMax, NoHit)
    else Step(SearchPrefix(spheres, n - 1, ray, roots), spheres, n - 1, ray, roots)
  }

  /** Renderer::TraceRay. */
  function TraceRay(spheres: seq<Sphere>, ray: Ray, sqrt: real -> real): HitData {
    SearchPrefix(spheres, |spheres|, ray, RootsFor(ray, sqrt)).hit
  }

  /** Sphere k is the one the search should take among the first n: its root
      is takeable, no takeable root is smaller, and no later one is as small. */
  ghost predicate LastNearest(spheres: seq<Sphere>, n: nat, k: nat, roots: RootMap)
    requires n <= |spheres|
  {
    && k < n
    && Takeable(roots(spheres[k]))
    && (forall j :: 0 <= j < n && Takeable(roots(spheres[j])) ==> roots(spheres[k]).value <= roots(spheres[j]).value)
    && (forall j :: k < j < n && Takeable(roots(spheres[j])) ==> roots(spheres[k]).value < roots(spheres[j]).value)
  }

  /** The hit record of sphere s at distance t: the position is the point at
      t along the ray. */
  lemma HitPosition(s: Sphere, ray: Ray, t: real)
    ensures Add(Add(Sub(ray.origin, s.position), Scale(t, ray.direction)), s.position) == At(ray.origin, ray.direction, t)
  {
  }

  /** After n spheres the search holds either nothing, when no root among
      them is takeable, or the last sphere with the smallest takeable root,
      with that root as the distance and its point on the ray as the
      position. */
  lemma {:induction false} SearchFindsLastNearest(spheres: seq<Sphere>, n: nat, ray: Ray, roots: RootMap)
    requires n <= |spheres|
    ensures var st := SearchPrefix(spheres, n, ray, roots);
            if exists j :: 0 <= j < n && Takeable(roots(spheres[j])) then
              && 0 <= st.hit.objectIndex
              && LastNearest(spheres, n, st.hit.objectIndex, roots)
              && st.closest == st.hit.distance == roots(spheres[st.hit.objectIndex]).value
              && st.hit.position == At(ray.origin, ray.direction, st.hit.distance)
            else st == Search(FltMax, NoHit)
  {
    if n > 0 {
      SearchFindsLastNearest(spheres, n - 1, ray, roots);
      var prev := SearchPrefix(spheres, n - 1, ray, roots);
      var s := spheres[n - 1];
      if Takeable(roots(s)) {
        HitPosition(s, ray, roots(s).value);
        if exists j :: 0 <= j < n - 1 && Takeable(roots(spheres[j])) {
          if roots(s).value <= prev.closest {
            assert SearchPrefix(spheres, n, ray, roots).hit.objectIndex == n - 1;
          } else {
            assert SearchPrefix(spheres, n, ray, roots) == prev;
          }
        }
      } else {
        assert SearchPrefix(spheres, n, ray, roots) == prev;
        assert forall j :: 0 <= j < n && Takeable(roots(spheres[j])) ==> j < n - 1;
      }
    }
  }

  /** TraceRay reports distance -1 exactly when no sphere is eligible, and
      otherwise the last sphere whose near root is the smallest. */
  lemma TraceRayNearest(spheres: seq<Sphere>, ray: Ray, sqrt: real -> real)
    ensures var h := TraceRay(spheres, ray, sqrt);
            (h.distance == -1.0 <==> forall j :: 0 <= j < |spheres| ==> !Eligible(spheres[j], ray, sqrt)) &&
            (h.distance != -1.0 ==>
               0 <= h.objectIndex && LastNearest(spheres, |spheres|, h.objectIndex, RootsFor(ray, sqrt)) &&
               h.distance == NearRoot(spheres[h.objectIndex], ray, sqrt).value &&
               h.position == At(ray.origin, ray.direction, h.distance))
  {
    SearchFindsLastNearest(spheres, |spheres|, ray, RootsFor(ray, sqrt));
  }

  lemma NegativeProduct(a: real, c: real)
    requires a > 0.0 && c < 0.0
    ensures 4.0 * a * c < 0.0
  {
  }

  /** A non-negative number whose square exceeds b^2 exceeds |b|. */
  lemma RootExceeds(r: real, b: real)
    requires r >= 0.0 && r * r > b * b
    ensures r > b && r > -b
  {
    if r <= b {
      SquareMonotone(r, b);
    } else if r <= -b {
      assert (-b) * (-b) == b * b;
      SquareMonotone(r, -b);
    }
  }

  lemma SquareMonotone(r: real, b: real)
    requires 0.0 <= r <= b
    ensures r * r <= b * b
  {
    assert r * r <= r * b;
  }

  lemma QuotientSign(x: real, y: real)
    requires y > 0.0
    ensures x < 0.0 ==> x / y < 0.0
    ensures x > 0.0 ==> x / y > 0.0
  {
  }

  /** Only the near root counts: from an origin strictly inside a sphere the
      near root is negative and the far root positive, and the sphere is
      never taken. */
  lemma InsideSphereIsSkipped(s: Sphere, ray: Ray, sqrt: real -> real)
    requires var oc := Sub(ray.origin, s.position); Dot(oc, oc) < s.radius * s.radius
    requires ray.direction != Zero
    requires var disc := Discriminant(QuadraticOf(s, ray)); sqrt(disc) >= 0.0 && sqrt(disc) * sqrt(disc) == disc
    ensures NearRoot(s, ray, sqrt).Some? && NearRoot(s, ray, sqrt).value < 0.0
    ensures var q := QuadraticOf(s, ray); q.a > 0.0 && (-q.b + sqrt(Discriminant(q))) / (2.0 * q.a) > 0.0
    ensures !Eligible(s, ray, sqrt)
  {
    var q := QuadraticOf(s, ray);
    LengthPositive(ray.direction);
    assert q.a > 0.0 && q.c < 0.0;
    RootsStraddleZero(q.a, q.b, q.c, sqrt(Discriminant(q)));
  }

  /** With a > 0 and c < 0 the two roots of a t^2 + b t + c lie on either
      side of zero. */
  lemma RootsStraddleZero(a: real, b: real, c: real, r: real)
    requires a > 0.0 && c < 0.0
    requires r >= 0.0 && r * r == b * b - 4.0 * a * c
    ensures b * b - 4.0 * a * c > 0.0
    ensures (-b - r) / (2.0 * a) < 0.0 && (-b + r) / (2.0 * a) > 0.0
  {
    NegativeProduct(a, c);
    SquareSign(b, b);
    RootExceeds(r, b);
    QuotientSign(-b - r, 2.0 * a);
    QuotientSign(-b + r, 2.0 * a);
  }

  /** Two equally near spheres: the strict `t > closestDist` rejection lets
      the later one replace the earlier. */
  lemma TiesGoToLaterSphere(sqrt: real -> real)
    requires sqrt(4.0) == 2.0
    ensures TraceRay([Sphere(Vec3(0.0, 0.0, 3.0), 1.0), Sphere(Vec3(0.0, 0.0, 3.0), 1.0)],
                     Ray(Zero, Vec3(0.0, 0.0, 1.0)), sqrt).objectIndex == 1
  {
    var s := Sphere(Vec3(0.0, 0.0, 3.0), 1.0);
    var d := Vec3(0.0, 0.0, 1.0);
    var oc := Vec3(0.0, 0.0, -3.0);
    var ray := Ray(Zero, d);
    assert Sub(Zero, s.position) == oc;
    assert Dot(d, d) == 1.0;
    assert Dot(oc, d) == -3.0;
    assert Dot(oc, oc) == 9.0;
    assert QuadraticOf(s, ray) == Quadratic(1.0, -6.0, 8.0);
    assert Discriminant(Quadratic(1.0, -6.0, 8.0)) == 4.0;
    assert NearRoot(s, ray, sqrt) == Some(2.0);
    var spheres := [s, s];
    assert SearchPrefix(spheres, 1, ray, RootsFor(ray, sqrt)).closest == 2.0;
  }

  // ---------------------------------------------------------------------
  // Pixel indexing and Render
  // ---------------------------------------------------------------------

  /** The image slot of pixel (x, y): y * width + x. */
  function PixelIndex(x: nat, y: nat, width: nat): nat {
    y * width + x
  }

  /** The pixel of an image slot. */
  function PixelOf(i: nat, width: nat): (nat, nat)
    requires width > 0
  {
    (i % width, i / width)
  }

  /** Every pixel of the frame lands in its own slot inside the buffer, and
      its slot leads back to it. */
  lemma PixelIndexInverse(x: nat, y: nat, width: nat, height: nat)
    requires x < width && y < height
    ensures PixelIndex(x, y, width) < width * height
    ensures PixelOf(PixelIndex(x, y, width), width) == (x, y)
  {
    assert y * width + x < (y + 1) * width <= height * width;
    DivModUnique(y * width + x, width, y, x);
  }

  /** Every slot of the buffer is the slot of a pixel of the frame. */
  lemma PixelOfInverse(i: nat, width: nat, height: nat)
    requires i < width * height
    ensures width > 0
    ensures PixelOf(i, width).0 < width && PixelOf(i, width).1 < height
    ensures PixelIndex(PixelOf(i, width).0, PixelOf(i, width).1, width) == i
  {
    var q := i / width;
    if q >= height {
      assert q * width >= height * width;
    }
  }

  lemma MulAtLeast(k: int, w: int)
    requires k >= 1 && w > 0
    ensures k * w >= w
  {
    assert k * w == (k - 1) * w + w;
    assert (k - 1) * w >= 0;
  }

  lemma DivModUnique(n: nat, w: nat, q: nat, r: nat)
    requires w > 0 && r < w && n == q * w + r
    ensures n / w == q && n % w == r
  {
    var q', r' := n / w, n % w;
    assert n == q' * w + r' && 0 <= r' < w;
    if q' > q {
      assert (q' - q) * w == q' * w - q * w;
      MulAtLeast(q' - q, w);
    } else if q' < q {
      assert (q - q') * w == q * w - q' * w;
      MulAtLeast(q - q', w);
    }
  }

  /** The image shows every pixel of the frame, packed, in its slot. */
  ghost predicate Shows(image: seq<ColorUtil.Word>, width: nat, height: nat, perPixel: (nat, nat) -> ColorUtil.Color4) {
    forall x: nat, y: nat :: x < width && y < height ==>
      PixelIndex(x, y, width) < |image| && image[PixelIndex(x, y, width)] == ColorUtil.ColorFromVec4(perPixel(x, y))
  }

  /** The colour slot i should hold: that of the pixel it belongs to. */
  function SlotColor(i: nat, width: nat, perPixel: (nat, nat) -> ColorUtil.Color4): ColorUtil.Word {
    if width == 0 then 0 else ColorUtil.ColorFromVec4(perPixel(PixelOf(i, width).0, PixelOf(i, width).1))
  }

  /** Slots filled in row-major order reach every pixel of the frame. */
  lemma FilledShows(image: seq<ColorUtil.Word>, width: nat, height: nat, perPixel: (nat, nat) -> ColorUtil.Color4)
    requires width * height <= |image|
    requires forall i :: 0 <= i < width * height ==> image[i] == SlotColor(i, width, perPixel)
    ensures Shows(image, width, height, perPixel)
  {
    forall x: nat, y: nat | x < width && y < height
      ensures PixelIndex(x, y, width) < |image| && image[PixelIndex(x, y, width)] == ColorUtil.ColorFromVec4(perPixel(x, y))
    {
      PixelIndexInverse(x, y, width, height);
    }
  }

  /** Renderer::Render, one thread for all rows: every pixel's colour packed
      into its slot; slots beyond width * height are left alone. */
  method Render(width: nat, height: nat, perPixel: (nat, nat) -> ColorUtil.Color4, buffer: seq<ColorUtil.Word>)
    returns (image: seq<ColorUtil.Word>)
    requires |buffer| >= width * height
    ensures |image| == |buffer|
    ensures Shows(image, width, height, perPixel)
    ensures forall i :: width * height <= i < |buffer| ==> image[i] == buffer[i]
  {
    image := buffer;
    var y := 0;
    while y < height
      invariant y <= height
      invariant y * width <= width * height
      invariant |image| == |buffer|
      invariant forall i :: 0 <= i < y * width ==> image[i] == SlotColor(i, width, perPixel)
      invariant forall i :: y * width <= i < |buffer| ==> image[i] == buffer[i]
    {
      var x := 0;
      while x < width
        invariant x <= width
        invariant y * width + x <= width * height
        invariant |image| == |buffer|
        invariant forall i :: 0 <= i < y * width + x ==> image[i] == SlotColor(i, width, perPixel)
        invariant forall i :: y * width + x <= i < |buffer| ==> image[i] == buffer[i]
      {
        PixelIndexInverse(x, y, width, height);
        var slot := PixelIndex(x, y, width);
        image := image[slot := ColorUtil.ColorFromVec4(perPixel(x, y))];
        x := x + 1;
      }
      assert y * width + width == (y + 1) * width;
      y := y + 1;
    }
    assert height * width == width * height;
    FilledShows(image, width, height, perPixel);
  }

  // ---------------------------------------------------------------------
  // OnResize
  // ---------------------------------------------------------------------

  /** The renderer's image (width and height, absent before the first
      resize) and the length of its pixel buffer. */
  datatype ImageSize = ImageSize(width: nat, height: nat)
  datatype Frame = Frame(image: Option<ImageSize>, bufferLen: nat)

  const Initial := Frame(None, 0)

  /** A width * height product in uint32_t arithmetic. */
  function UInt32Product(width: nat, height: nat): (p: nat)
    ensures p < 0x1_0000_0000
    ensures width * height < 0x1_0000_0000 ==> p == width * height
  {
    (width * height) % 0x1_0000_0000
  }

  /** Renderer::OnResize as written: an existing image of another size is
      resized, but the buffer is only allocated when the image is created. */
  function OnResize(f: Frame, width: nat, height: nat): (r: Frame)
    ensures f.image == Some(ImageSize(width, height)) ==> r == f
    ensures r.image == Some(ImageSize(width, height))
    ensures f.image.Some? ==> r.bufferLen == f.bufferLen
    ensures f.image.None? ==> r.bufferLen == UInt32Product(width, height)
    ensures f.image.None? && width * height < 0x1_0000_0000 ==> r.bufferLen == width * height
  {
    match f.image
    case Some(size) =>
      if size.width != width || size.height != height then Frame(Some(ImageSize(width, height)), f.bufferLen)
      else f
    case None => Frame(Some(ImageSize(width, height)), UInt32Product(width, height))
  }

  /** The buffer holds one slot per pixel of the image. */
  predicate Consistent(f: Frame) {
    f.image.Some? ==> f.bufferLen == f.image.value.width * f.image.value.height
  }

  /** Growing the window after the first resize leaves a one-slot buffer
      under a four-pixel image, which Render then writes past. */
  lemma OnResizeLosesBuffer()
    ensures var f := OnResize(OnResize(Initial, 1, 1), 2, 2);
            !Consistent(f) && f.bufferLen < 2 * 2
  {
  }

  /** OnResize with the buffer reallocated, at a size computed without
      wrap-around, whenever the image is created or changes size. */
  function OnResizeFixed(f: Frame, width: nat, height: nat): (r: Frame)
    ensures f.image == Some(ImageSize(width, height)) ==> r == f
    ensures r.image == Some(ImageSize(width, height))
  {
    if f.image == Some(ImageSize(width, height)) then f
    else Frame(Some(ImageSize(width, height)), width * height)
  }

  /** The corrected resize keeps the buffer consistent with the image, so a
      following Render stays inside the buffer. */
  lemma OnResizeFixedConsistent(f: Frame, width: nat, height: nat)
    requires Consistent(f)
    ensures Consistent(OnResizeFixed(f, width, height))
    ensures OnResizeFixed(f, width, height).bufferLen == width * height
  {
  }

  /** A resize followed by a frame: with the corrected resize, Render's need
      for width * height slots is always met. */
  method ResizeAndRender(f: Frame, width: nat, height: nat, perPixel: (nat, nat) -> ColorUtil.Color4,
                         buffer: seq<ColorUtil.Word>)
    returns (g: Frame, image: seq<ColorUtil.Word>)
    requires Consistent(f)
    ensures Consistent(g) && g.image == Some(ImageSize(width, height))
    ensures |image| == width * height
    ensures Shows(image, width, height, perPixel)
  {
    g := OnResizeFixed(f, width, height);
    OnResizeFixedConsistent(f, width, height);
    var buf := buffer;
    if |buf| != g.bufferLen {
      buf := seq(g.bufferLen, _ => 0);
    }
    image := Render(width, height, perPixel, buf);
  }
}

=== FILE: seqs.dfy ===
/** Sequence helpers shared by the tree build and traversal: order-preserving
    filtering, counting and integer ranges. */
module Seqs {

  /** The elements of `s` satisfying `p`, in their original order. */
  function Filter<T>(s: seq<T>, p: T -> bool): (r: seq<T>)
    ensures |r| <= |s|
    decreases |s|
  {
    if |s| == 0 then []
    else (if p(s[0]) then [s[0]] else []) + Filter(s[1..], p)
  }

  /** The filter keeps exactly the elements satisfying the predicate. */
  lemma {:induction false} FilterMembers<T>(s: seq<T>, p: T -> bool)
    ensures forall i :: 0 <= i < |Filter(s, p)| ==> Filter(s, p)[i] in s && p(Filter(s, p)[i])
    ensures forall i :: 0 <= i < |s| && p(s[i]) ==> s[i] in Filter(s, p)
    decreases |s|
  {
    if |s| > 0 {
      FilterMembers(s[1..], p);
      var head := if p(s[0]) then [s[0]] else [];
      assert Filter(s, p) == head + Filter(s[1..], p);
      forall i | 0 <= i < |Filter(s, p)|
        ensures Filter(s, p)[i] in s && p(Filter(s, p)[i])
      {
        if i >= |head| {
          assert Filter(s, p)[i] == Filter(s[1..], p)[i - |head|];
        }
      }
      forall i | 0 <= i < |s| && p(s[i])
        ensures s[i] in Filter(s, p)
      {
        if i > 0 {
          assert s[i] == s[1..][i - 1];
        }
      }
    }
  }

  /** Filtering distributes over concatenation; with the singleton case this
      pins the result down as the order-preserving subsequence. */
  lemma {:induction false} FilterAppend<T>(a: seq<T>, b: seq<T>, p: T -> bool)
    ensures Filter(a + b, p) == Filter(a, p) + Filter(b, p)
    decreases |a|
  {
    if |a| == 0 {
      assert a + b == b;
    } else {
      var head := if p(a[0]) then [a[0]] else [];
      assert (a + b)[0] == a[0];
      assert (a + b)[1..] == a[1..] + b;
      FilterAppend(a[1..], b, p);
      calc {
        Filter(a + b, p);
        head + Filter(a[1..] + b, p);
        head + (Filter(a[1..], p) + Filter(b, p));
        (head + Filter(a[1..], p)) + Filter(b, p);
        Filter(a, p) + Filter(b, p);
      }
    }
  }

  lemma FilterSingleton<T>(x: T, p: T -> bool)
    ensures Filter([x], p) == if p(x) then [x] else []
  {
    assert [x][1..] == [];
  }

  /** The number of elements satisfying `p`, counted front to back as a
      counting loop does. */
  function Count<T>(s: seq<T>, p: T -> bool): (n: nat)
    ensures n <= |s|
    ensures n == 0 <==> forall i :: 0 <= i < |s| ==> !p(s[i])
    decreases |s|
  {
    if |s| == 0 then 0
    else
      var k := Count(s[..|s| - 1], p);
      assert forall i :: 0 <= i < |s| - 1 ==> s[..|s| - 1][i] == s[i];
      if p(s[|s| - 1]) then k + 1 else k
  }

  /** A counting loop counts exactly the elements a filter keeps. */
  lemma {:induction false} CountIsFilterLength<T>(s: seq<T>, p: T -> bool)
    ensures Count(s, p) == |Filter(s, p)|
    decreases |s|
  {
    if |s| > 0 {
      var init := s[..|s| - 1];
      var last := s[|s| - 1];
      assert s == init + [last];
      CountIsFilterLength(init, p);
      FilterAppend(init, [last], p);
      FilterSingleton(last, p);
    }
  }

  /** Filtering with two predicates that together cover every element and
      overlap on `both`: the two results together hold every element once,
      plus the overlap once more. */
  lemma {:induction false} FilterCover<T>(s: seq<T>, p: T -> bool, q: T -> bool, both: T -> bool)
    requires forall i :: 0 <= i < |s| ==> (p(s[i]) || q(s[i])) && (both(s[i]) <==> p(s[i]) && q(s[i]))
    ensures |Filter(s, p)| + |Filter(s, q)| == |s| + |Filter(s, both)|
    decreases |s|
  {
    if |s| > 0 {
      assert forall i :: 0 <= i < |s| - 1 ==> s[1..][i] == s[i + 1];
      FilterCover(s[1..], p, q, both);
    }
  }

  /** The integers lo, lo+1, ..., hi-1. */
  function Range(lo: int, hi: int): (r: seq<int>)
    requires lo <= hi
    ensures |r| == hi - lo
    ensures forall i :: 0 <= i < |r| ==> r[i] == lo + i
  {
    seq(hi - lo, i => lo + i)
  }

  lemma RangeAppend(a: int, b: int, c: int)
    requires a <= b <= c
    ensures Range(a, b) + Range(b, c) == Range(a, c)
  {
  }

  lemma RangeSingleton(a: int)
    ensures Range(a, a + 1) == [a]
  {
  }

  /** Two adjacent ranges followed by the next value form one range. */
  lemma RangeThenNext(lo: int, mid: int, hi: int, a: seq<int>, b: seq<int>)
    requires lo <= mid <= hi && a == Range(lo, mid) && b == Range(mid, hi)
    ensures a + b + [hi] == Range(lo, hi + 1)
  {
    RangeAppend(lo, mid, hi);
    RangeAppend(lo, hi, hi + 1);
    RangeSingleton(hi);
  }

  /** A range holds distinct values, exactly those from lo up to hi. */
  lemma RangeMembers(lo: int, hi: int)
    requires lo <= hi
    ensures forall x :: x in Range(lo, hi) <==> lo <= x < hi
    ensures forall i, j :: 0 <= i < j < hi - lo ==> Range(lo, hi)[i] != Range(lo, hi)[j]
  {
    forall x | lo <= x < hi
      ensures x in Range(lo, hi)
    {
      assert Range(lo, hi)[x - lo] == x;
    }
  }
}
